=== FILE: README.md ===
# Mentor Connect backend — a verified model of its core

Mentor Connect is an Express/Sequelize backend that pairs mentees with mentors.
This project models the parts of it that decide something:

- **Matching.** Profile fields written as comma-separated text become token sets. `scorePair` adds weighted signals into a score and an itemised list of reasons. The `/suggestions` and `/explain` routes rank and explain candidates. The older tag-id matcher lives in `matchService.js`.
- **Messaging.** The socket handlers (`join`, `send_message`, typing, `message:seen`), the HTTP chat routes (conversations, history, send) and the chat list.
- **Availability and booking.** Slot validation, creation, bulk replacement, patch and delete. The session booking state machine (book, accept, decline) and the session list.
- **Profiles.** The field normalisers (`toStr`, `toIntOrNull`, `validRole`), role resolution in `PUT /:user_id` and `/onboarding`, and the tag replacement of `saveProfile`.
- **Small validators and status transitions.** Reviews, reports, admin moderation and the mentor's request dashboard.
- **Authentication decisions.** E-mail normalisation, signup, login and the onboarding and redirect choices, plus the Google callback's role upgrade.

How the system is represented:

- Each Sequelize table is a Dafny class whose `rows` field (a `seq`, or a `map` keyed by user id) the handlers reassign. A handler is a method that takes the tables it touches and names them in `modifies`.
- Pure helpers are functions.
- Every loop of the source (the scoring accumulation, the candidate loops, the grouping of messages, the tag loop, the read-receipt update) is a method. Each is proved equal to a specification function, and the properties are lemmas about that function.
- The clock is a `now: int` parameter.
- Socket emissions are appended to the hub's event log: those of the chat handlers and the `availability:*` notices of the availability routes.
- Scores are exact `real`s. The `-Infinity` reject sentinel is the `Rejected` variant of a datatype.
- A falsy id (`null`, `undefined`, `""`) is the empty string.
- Sorting, whether `Array.sort` or SQL `ORDER BY`, is a stable insertion sort over a real-valued key.

Modules, one per source file, plus three shared ones:

- `Text`: JavaScript `trim` over the full white-space set, `toLowerCase` restricted to the letters A–Z, `split(",")`, `join` and `includes`.
- `Seqs`: filtering, counting, de-duplication and sorting.
- `Schema`: the models' records, their enums and the table classes.
- The per-file modules: `Match`, `MatchRoutes`, `MatchService`, `Realtime` (socket.js), `Chat`, `ChatList`, `Availability`, `Sessions`, `Profile`, `ProfileController`, `Reviews`, `Reports`, `Admin`, `Dashboard` and `Auth`.

Where the code and its documentation disagree, the model follows the code:

- **Substring expertise hit.** The expertise hit is a substring test. A pair with no shared tag at all can still score, e.g. help area "java" against expertise "javascript" (`Match.SubstringHitWithoutOverlap`). "No overlap means score 0" therefore also needs "no expertise hit" (`Match.NoSignalScoresZero`).
- **Experience bonus.** The comment says "2 extra points per +4 yrs". The code gives `round(years / 4) / 2`, i.e. half a point per four years, and the model follows the code (`Match.ExperienceBonusClosedForm`).
- **`/explain` rating.** `/explain` aggregates without `GROUP BY`, so SQL always returns one row. A mentor without reviews is reported with rating 0, not null (`MatchRoutes.ExplainRatingMatchesSummary`).
- **Socket send.** The socket `send_message` does not trim: it stores whitespace-only text and emits `receive_message` to both rooms.
- **HTTP send.** The HTTP `/send` trims, and emits `receive_message` to the receiver and `message_sent` to the sender.

## Model

| member | source | states |
|---|---|---|
| Match.Normalize | src/routes/match.js:24-30 | a trimmed, lower-cased piece is either empty or a token (non-empty, trimmed, lower-case) |
| Match.ToSet | src/routes/match.js:24-30 | the set holds only distinct tokens, and a token is in it iff it is a non-empty trimmed lower-cased comma piece of the input |
| Match.ToSetOfEmpty | src/routes/match.js:24-30 | a missing or empty field gives the empty set |
| Match.IntersectCount | src/routes/match.js:32-37 | the counting loop returns \|a ∩ b\|; it is 0 when either set is empty, symmetric, and at most the size of each set |
| Match.OverlapBounds | src/routes/match.js:32-37 | the overlap is bounded by both sizes, symmetric, and 0 with an empty side |
| Match.ContainsAnyWord | src/routes/match.js:39-46 | true iff some non-empty needle, lower-cased, is a substring of the lower-cased haystack |
| Match.FeaturesOf | src/routes/match.js:49-64 | every tag field is a token set; missing experience years read as 0 |
| Match.AddHelp | src/routes/match.js:90-100 | adds the help-area reason exactly when a help token is among the mentor's skills or expertise, with score = sum of the reasons so far |
| Match.AddInterests | src/routes/match.js:102-110 | adds the interests reason exactly when interests meet skills, keeping score = sum of reasons |
| Match.AddCategories | src/routes/match.js:112-120 | adds the categories reason exactly when categories overlap, keeping score = sum of reasons |
| Match.AddExpertiseHit | src/routes/match.js:122-127 | adds the flat expertise-hit reason exactly when the substring test fires |
| Match.AddExperience | src/routes/match.js:129-135 | adds the experience reason whenever years > 0, with the half-point bonus as its contribution |
| Match.AddTimezone | src/routes/match.js:137-141 | adds the timezone reason exactly on equal non-empty time zones |
| Match.AddPreferredTime | src/routes/match.js:142-153 | adds the preferred-time reason exactly when a preferred time is shared |
| Match.ScorePair | src/routes/match.js:83-173 | the step-by-step accumulation equals the specification `ScoreSpec` |
| Match.ScoreFormula | src/routes/match.js:83-173 | a scored pair's score is overlap counts × weights + experience bonus + flat weights of the fired signals + the availability bonus |
| Match.ReasonTotals | src/routes/match.js:90-153 | each signal contributes count × weight, or its flat weight when it fires and 0 otherwise |
| Match.ReasonsInOrder | src/routes/match.js:90-170 | reasons appear in the fixed order help, interests, categories, expertise hit, experience, timezone, preferred time, availability, each at most once |
| Match.ReasonPresentIff | src/routes/match.js:90-170 | a reason of each kind is listed iff its signal fires |
| Match.ExpertiseOverlapHits | src/routes/match.js:122-127 | a help token that is also an expertise token always fires the substring hit |
| Match.HelpTokenCountsTwice | src/routes/match.js:90-127 | a help token in both skills and expertise counts twice in the help signal and fires the expertise hit, so the score is at least 2·help weight + hit weight |
| Match.NoSignalScoresZero | src/routes/match.js:83-173 | no overlap, no expertise hit, no experience, no timezone or preferred-time match and no availability check give score 0 and no reasons |
| Match.SubstringHitWithoutOverlap | src/routes/match.js:122-127 | help "java" against expertise "javascript" shares no tag yet scores the hit weight |
| Match.ExperienceBonusClosedForm | src/routes/match.js:129-135 | the bonus `round(years/4)/2` equals `((years + 2) div 4) / 2` |
| Match.ExperienceBonusNonNegative | src/routes/match.js:129-135 | the bonus is non-negative for positive years |
| Match.ExperienceBonusMonotone | src/routes/match.js:129-135 | the bonus never decreases as years grow |
| Match.ExperienceReasonWithoutBonus | src/routes/match.js:129-135 | one year earns a 0 bonus but still lists the experience reason; four years earn 0.5 |
| Match.AvailabilityRules | src/routes/match.js:155-170 | the pair is rejected iff availability is checked and required and no future slot exists; `hasAvail` is true only when checked and found; without the check the lookup's answer changes nothing |
| MatchRoutes.ParseDirection | src/routes/match.js:187 | a missing `for` means mentors; "mentees" in any letter case means mentees |
| MatchRoutes.ClampLimit | src/routes/match.js:188 | the limit is in [1, 50]: 12 when missing or 0, the value itself in range, 50 above and 1 below |
| MatchRoutes.ProfileOf | src/routes/match.js:193-197 | finds the caller's profile, or reports that none has that user id |
| MatchRoutes.Candidates | src/routes/match.js:211-221 | the candidates are exactly the profiles of the wanted type, most recently updated first |
| MatchRoutes.RatingOfMatchesSummary | src/routes/match.js:223-245 | a mentor has a rating entry iff they have reviews, with the reviews' average and count, and the average lies in [1, 5] |
| MatchRoutes.RatingBoostRange | src/routes/match.js:257-258 | the boost is (avg/5)×15, hence within [3, 15], for a reviewed mentor and 0 otherwise |
| MatchRoutes.Round1Close | src/routes/match.js:275 | rounding to one decimal moves a score by at most 0.05 |
| MatchRoutes.Round1Monotone | src/routes/match.js:275 | rounding to one decimal keeps the order of scores |
| MatchRoutes.ScoreMentor | src/routes/match.js:249-255 | scores a mentor candidate with the availability check on; the candidate is rejected iff availability is required and the mentor has no future slot |
| MatchRoutes.ScoreMentee | src/routes/match.js:307-317 | scores a mentee candidate with the roles swapped and no availability check, so it is never rejected |
| MatchRoutes.RankMentors | src/routes/match.js:247-280 | the mentor loop builds exactly the pool of non-rejected candidates with boosted, rounded scores |
| MatchRoutes.RankMentees | src/routes/match.js:305-334 | the mentee loop builds one entry per candidate with its rounded score |
| MatchRoutes.MenteeEntryFacts | src/routes/match.js:319-333 | a mentee entry carries the candidate's user id, its raw score rounded to one decimal, the user's avatar or null, and no availability or rating |
| MatchRoutes.MentorEntryFacts | src/routes/match.js:257-279 | a mentor entry carries the candidate's user id, the rounded score plus rating boost, the availability flag, a rating exactly when the mentor has reviews, and the user's avatar or null |
| MatchRoutes.MentorPoolJustified | src/routes/match.js:247-280 | the pool is no longer than the candidates and every entry comes from one candidate |
| MatchRoutes.MentorPoolComplete | src/routes/match.js:247-280 | every candidate whose score is not rejected has an entry |
| MatchRoutes.Ranked | src/routes/match.js:281-282 | sort then slice: sorted by descending score, at most `limit` long, drawn from the pool, and the whole pool when it fits |
| MatchRoutes.RankedKeepsTop | src/routes/match.js:281-282 | an entry left out by the slice scores no higher than every kept entry, and the slice is full |
| MatchRoutes.Suggestions | src/routes/match.js:179-344 | the handler equals its specification `SuggestionsSpec` |
| MatchRoutes.SuggestionsErrors | src/routes/match.js:181-197 | an unknown user is 404 and a user without a profile 400; with a profile, the answer is a list iff the direction is known and the caller's role fits it; 403 arises only from a known direction and a role that does not fit it |
| MatchRoutes.SuggestionsOk | src/routes/match.js:181-339 | a known user with a profile, a known direction and the fitting role gets the ranked pool of that direction, cut to the clamped limit |
| MatchRoutes.SuggestionsShape | src/routes/match.js:203-209 | a list is only ever answered to a known user with a profile and a known direction, and it is the ranked pool of that direction cut to the clamped limit |
| MatchRoutes.SuggestionsSortedAndBounded | src/routes/match.js:281-282 | every answer is sorted by descending score and at most the clamped limit, at most 50, long |
| MatchRoutes.MentorAnswerInPool | src/routes/match.js:247-282 | every suggested mentor comes from the scored pool of mentor candidates |
| MatchRoutes.SuggestedMentorsJustified | src/routes/match.js:247-280 | every suggested mentor is a mentor profile that was not rejected, and its score is that profile's raw score plus its rating boost, rounded to one decimal |
| MatchRoutes.RequiredAvailabilityExcludes | src/routes/match.js:189-190 | with `requireAvailability=1`, a mentor without a future slot is never suggested |
| MatchRoutes.MenteePoolComplete | src/routes/match.js:305-334 | the mentee pool has one entry per candidate, in candidate order |
| MatchRoutes.AllMenteesListed | src/routes/match.js:305-336 | when the mentees fit within the limit, every mentee profile is listed |
| MatchRoutes.ExplainScore | src/routes/match.js:381-387 | the explanation always scores the pair (no requirement), and `has_availability` is the future-slot lookup |
| MatchRoutes.ExplainRatingMatchesSummary | src/routes/match.js:369-379 | the explained rating and count are the mentor's review average and count, with 0 when there are none |
| MatchRoutes.ExplainErrors | src/routes/match.js:352-368 | a missing user or profile is 400; 404 iff the mentor profile is missing or not a mentor |
| MatchRoutes.ExplainReports | src/routes/match.js:387-399 | the answer names the mentor, reports the availability lookup, and carries the rating and review count |
| MatchRoutes.Explain | src/routes/match.js:350-404 | the handler equals its specification `ExplainSpec` |
| MatchService.TagIdsOf | src/services/matchService.js:8-11 | the ids listed are exactly the tag ids of the user's rows with that role |
| MatchService.Shared | src/services/matchService.js:36-37 | keeps, with duplicates, the mentor tag ids that occur among the mentee's |
| MatchService.GetMentorSuggestions | src/services/matchService.js:3-56 | the loop and sort produce exactly `SuggestionsSpec` |
| MatchService.MatchPoolJustified | src/services/matchService.js:31-47 | every entry comes from one mentor profile, with score = its shared tag rows ≥ 1 |
| MatchService.MatchPoolComplete | src/services/matchService.js:31-47 | every mentor profile sharing a tag row has an entry |
| MatchService.MatchPoolMembers | src/services/matchService.js:31-47 | a mentor profile has an entry iff it shares at least one tag row |
| MatchService.AppearsIffSharedTag | src/services/matchService.js:31-47 | a mentor is listed iff one of its mentor-role tag ids is among the mentee's mentee-role tag ids |
| MatchService.ResultsShape | src/services/matchService.js:39-49 | no more results than mentor profiles, sorted by non-increasing score, each score ≥ 1 and equal to the number of the mentor's tag rows the mentee shares |
| MatchService.DuplicatesCount | src/services/matchService.js:36-44 | duplicate tag rows count: [7, 7] against [7] scores 2 |
| Realtime.JoinedMembership | src/rtm/socket.js:22-27 | a falsy user id changes no room; otherwise exactly the socket joins the room named by the user id |
| Realtime.JoinedIdempotent | src/rtm/socket.js:22-27 | joining twice is joining once |
| Realtime.Hub.constructor | src/rtm/socket.js:5-11 | a new hub has no messages, rooms or events |
| Realtime.Hub.Join | src/rtm/socket.js:22-27 | the rooms become the joined rooms; nothing else changes |
| Realtime.Hub.Store | src/rtm/socket.js:33 | appends exactly one message with the next id and the text as given |
| Realtime.Hub.SendMessage | src/rtm/socket.js:30-40 | nothing is stored or emitted iff sender, receiver or text is falsy; otherwise one message is stored untrimmed and `receive_message` goes to both rooms |
| Realtime.Hub.Typing | src/rtm/socket.js:43-49 | forwards the typing event with the sender id to the receiver's room only, and nothing when the receiver is falsy |
| Realtime.MarkSeenRows | src/rtm/socket.js:55-64 | the row-by-row update equals `MarkSeen`, and the count is the number of unread matching rows |
| Realtime.MarkSeenEffect | src/rtm/socket.js:55-64 | exactly the unread messages from the other party to the reader get `read_at = now`; every other row is unchanged |
| Realtime.UnseenCountIsChanged | src/rtm/socket.js:55-65 | the count reported is the number of rows that changed |
| Realtime.MarkSeenIdempotent | src/rtm/socket.js:55-68 | a second `seen` changes no row and emits nothing |
| Realtime.MarkSeenKeepsIds | src/rtm/socket.js:55-64 | the update keeps every message id in place |
| Realtime.Hub.MessageSeen | src/rtm/socket.js:52-72 | the store becomes `MarkSeen` of the old one; `message:seen` goes to the other party's room iff at least one row changed |
| Chat.Mine | src/routes/chat.js:18-24 | the caller's messages, newest first |
| Chat.GroupKeys | src/routes/chat.js:26-32 | the counterpart list has no duplicates and matches the map's keys |
| Chat.GroupDomain | src/routes/chat.js:26-30 | a counterpart is grouped iff some message of the caller's is with them |
| Chat.GroupFirst | src/routes/chat.js:27-29 | each counterpart keeps the first of its messages in newest-first order |
| Chat.KeptIsNewest | src/routes/chat.js:22-29 | the kept message is no older than any message with that counterpart |
| Chat.Entry | src/routes/chat.js:42-53 | an entry reports the counterpart, the kept message's text and its time; the name falls back from the user's name to the e-mail to "User", the role to "mentee", and the avatar is present exactly when the user row has a non-empty one |
| Chat.Conversations | src/routes/chat.js:14-58 | the loop, map and sort equal `ConversationsSpec` |
| Chat.ConversationsSorted | src/routes/chat.js:33-56 | the conversations are sorted newest first, and the list is empty without messages |
| Chat.ConversationsNewest | src/routes/chat.js:22-51 | each entry's last message is the newest one with that counterpart |
| Chat.ConversationsComplete | src/routes/chat.js:26-53 | every counterpart of a caller's message has an entry |
| Chat.ConversationsDistinct | src/routes/chat.js:26-53 | no counterpart has two entries |
| Chat.History | src/routes/chat.js:64-79 | exactly the messages between the two users in either direction, oldest first |
| Chat.HistorySymmetric | src/routes/chat.js:68-74 | the history between a and b has the same messages as that between b and a |
| Chat.Send | src/routes/chat.js:86-113 | a missing receiver or blank text is 400 with nothing stored; otherwise the trimmed text is stored and, when sockets are wired, `receive_message` and `message_sent` are emitted |
| Chat.HttpSendStoresTrimmed | src/routes/chat.js:89 | the stored text is trimmed and trimming it again changes nothing |
| ChatList.FoldKeys | src/routes/chatList.js:18-25 | the chat list's keys are distinct |
| ChatList.FoldDomain | src/routes/chatList.js:20-23 | a counterpart is listed iff a message of the user is with them |
| ChatList.FoldLastWins | src/routes/chatList.js:20-23 | the message kept for a counterpart is the last one with them in store order |
| ChatList.LatestPerCounterpart | src/routes/chatList.js:18-23 | the loop that overwrites entry by entry equals the fold `Fold` |
| ChatList.ChatListHandler | src/routes/chatList.js:8-35 | the corrected handler equals `List` |
| ChatList.ListFacts | src/routes/chatList.js:20-32 | entries have distinct counterparts, and each entry carries the text of the last message with its counterpart in table order |
| ChatList.ListComplete | src/routes/chatList.js:20-25 | every counterpart of a user's message has an entry |
| ChatList.AsWrittenDropsText | src/routes/chatList.js:30 | as written, no entry carries a last message |
| ChatList.AsWrittenExample | src/routes/chatList.js:25-32 | one message "hi": as written its entry has no text, corrected it has "hi" |
| Availability.ValidateSlot | src/routes/availability.js:20-28 | accepts iff both times parse and the end is strictly after the start |
| Availability.RootCheckIsValidateSlot | src/routes/availability.js:306-316 | the inline check of `POST /` accepts exactly the slots `validateSlot` accepts |
| Availability.Listing | src/routes/availability.js:47-54 | a listing holds exactly the matching rows, ascending by start |
| Availability.OwnOpenSlots | src/routes/availability.js:44-56 | a non-mentor gets 403; a mentor gets their available slots from now on, ascending |
| Availability.MentorSlots | src/routes/availability.js:60-80 | "me" without a user is 401; otherwise the mentor's available slots, past ones included, ascending |
| Availability.OwnAllSlots | src/routes/availability.js:83-97 | a non-mentor gets 403; a mentor gets all of their slots, ascending |
| Availability.FutureOnly | src/routes/availability.js:261 | future-only unless a truthy value other than "1" is given |
| Availability.MySlots | src/routes/availability.js:260-270 | the caller's slots, from now on when future-only, ascending |
| Availability.OpenSlotsOf | src/routes/availability.js:273-283 | only that mentor's available slots starting at or after now, ascending by start |
| Availability.ParseSlotStatus | src/models/Availability.js:25-28 | exactly the three enum names "available", "booked" and "blocked" can be stored as a status |
| Availability.Create | src/routes/availability.js:101-125 | a non-mentor gets 403 and invalid times 400; a status outside the enum fails the insert (500); each error writes nothing and emits nothing; otherwise one slot is appended with the caller as mentor and status defaulting to available, and `availability:created` with that slot goes to the caller's room when sockets are wired |
| Availability.CreatedSlotsWellFormed | src/routes/availability.js:110-115 | every created slot belongs to the caller and ends after it starts |
| Availability.KeptByBulk | src/routes/availability.js:150-155 | the bulk delete keeps exactly the rows that are not the caller's future slots |
| Availability.Bulk | src/routes/availability.js:133-178 | a non-mentor gets 403; an empty list or any invalid slot gives 400 with the table unchanged; a status outside the enum gives 500 after the caller's future slots were already deleted; otherwise the caller's future slots are replaced by the submitted ones and `availability:replaced` with the caller and the count is emitted |
| Availability.BulkBadStatusLosesSlot | src/routes/availability.js:150-157 | a bulk request with valid times and one bad status answers 500 and still loses every future slot of the caller |
| Availability.BulkAtomic | src/routes/availability.js:133-178 | the corrected replacement checks every status before deleting, so any error leaves the table and the event log unchanged; success is as in Bulk |
| Availability.BulkAtomicKeepsSlot | src/routes/availability.js:150-157 | with the corrected replacement, the same failing request keeps every future slot of the caller |
| Availability.BulkEffect | src/routes/availability.js:150-164 | after a bulk replacement the caller's future slots are exactly the new ones, and the caller's past slots and all other mentors' slots are untouched |
| Availability.Patch | src/routes/availability.js:182-215 | a non-mentor gets 403 and a slot not owned 404; when a time is supplied, merged times that fail validation give 400; a status outside the enum fails the save (500); no error writes or emits; otherwise only the supplied fields change and `availability:updated` with the new row is emitted |
| Availability.PatchedFields | src/routes/availability.js:194-204 | a patch keeps id, owner and every field it does not supply, stores the supplied status under that name, and a re-validated patch ends after it starts |
| Availability.StatusName | src/models/Availability.js:25-28 | every status has an enum name that reads back as that status |
| Availability.RemoveAt | src/routes/availability.js:229 | deleting a row removes exactly that one row |
| Availability.Delete | src/routes/availability.js:218-238 | a non-mentor gets 403 and a slot not owned 404, with no write and no event; otherwise exactly that slot is removed, whatever its status, and `availability:deleted` with the id is emitted |
| Availability.DeleteOpenSlot | src/routes/availability.js:286-296 | a slot that is missing or not the caller's is 404 and one that is not available 400, with no write; only an owned available slot is removed |
| Availability.RemoveAtKeepsOthers | src/routes/availability.js:224-229 | with unique ids (an invariant of the slot table) a delete removes the slot with that id, keeps every other, and the ids stay unique |
| Availability.CreateMany | src/routes/availability.js:241-257 | any caller inserts all the given slots as available, with no role check and no validation; a missing time fails the insert with no row written |
| Sessions.FindOpen | src/routes/sessions.js:22-29 | finds the first available slot with exactly that mentor, start and end, or reports that none exists |
| Sessions.Book | src/routes/sessions.js:12-94 | missing fields are 400 and no free exact slot is 400, with no write; otherwise one pending session is created for the caller and the slot becomes booked |
| Sessions.Accept | src/routes/sessions.js:97-116 | only the session's mentor, else 404 with no change; the status becomes accepted and no slot is touched |
| Sessions.FreeMatching | src/routes/sessions.js:128-137 | the row-by-row update equals `Freed` |
| Sessions.FreedEffect | src/routes/sessions.js:128-137 | exactly the mentor's slots with identical start and end become available; every other slot is unchanged |
| Sessions.Decline | src/routes/sessions.js:119-147 | only the session's mentor, else 404 with no change; the status becomes declined and the matching slots are freed |
| Sessions.DeclineFreesBookedSlot | src/routes/sessions.js:124-137 | book (lines 22-43) then decline: the booked slot is available again and unrelated slots are as they were |
| Sessions.Mine | src/routes/sessions.js:150-169 | exactly the sessions where the caller is mentor or mentee, each as often as in the table, ascending by start |
| Profile.Or | src/routes/profile.js:64 | `a \|\| b` is truthy iff either is |
| Profile.Pieces | src/routes/profile.js:11-13 | the kept pieces are exactly the non-empty trimmed elements |
| Profile.ToStr | src/routes/profile.js:8-17 | falsy input gives ""; a string gives its trimmed text; the result is always trimmed |
| Profile.JoinTrimmed | src/routes/profile.js:11-14 | non-empty trimmed pieces joined with ", " give a trimmed string, non-empty when some piece is |
| Profile.ToStrIdempotent | src/routes/profile.js:8-17 | a stored value sent back is stored unchanged |
| Profile.ToSetOfToStr | src/routes/profile.js:10-14 | an array stored via `toStr` and read by the matcher's `toSet` gives exactly its lower-cased non-blank elements, provided none holds a comma |
| Profile.DigitRun | src/routes/profile.js:20 | the longest prefix of decimal digits |
| Profile.ParseInt | src/routes/profile.js:20-21 | `parseInt` gives no number iff no digit follows the leading white space and sign |
| Profile.ParseIntOfDecimal | src/routes/profile.js:19-22 | the decimal form of n, whatever follows, reads back as n |
| Profile.ParseIntOfNegative | src/routes/profile.js:19-22 | with a minus in front, it reads back as -n |
| Profile.DecimalValue | src/routes/profile.js:20 | the digits of n denote n |
| Profile.ToIntOrNull | src/routes/profile.js:19-22 | a missing value is null; text is read by `parseInt` |
| Profile.ValidRole | src/routes/profile.js:24 | a role exactly for "mentor" and "mentee", null otherwise |
| Profile.ValidRoleOfName | src/routes/profile.js:24 | a role's own name is always valid |
| Profile.Payload | src/routes/profile.js:60-77 | the payload carries the user id, the effective role and the hourly rate |
| Profile.PayloadNormalised | src/routes/profile.js:64-75 | the stored name is `name` when truthy, else `full_name`, and every text column is trimmed |
| Profile.FindProfile | src/routes/profile.js:31 | finds the profile by user id or reports that none exists |
| Profile.Upsert | src/routes/profile.js:79 | after the upsert the user has exactly one profile, the new one, and other users' profiles are kept |
| Profile.UpsertFinds | src/routes/profile.js:79 | after an upsert the user's profile is exactly the new row |
| Profile.EffectiveRole | src/routes/profile.js:58 | `newRole \|\| user.role \|\| "mentee"`, which fails the enum (500) when the stored role is outside mentor and mentee |
| Profile.UpdateProfile | src/routes/profile.js:27-85 | an unknown user is 404; the answer fails (500, no write) iff the effective role is invalid; the profile is upserted with the effective role; `user.role` changes only to a valid different role, so a user who had a role ends with the profile's type |
| Profile.DesiredRole | src/routes/profile.js:152 | valid(role), else valid(user.role), else mentee |
| Profile.DesiredRoleStable | src/routes/profile.js:152-158 | onboarding again without a role keeps the role chosen the first time |
| Profile.Onboard | src/routes/profile.js:123-187 | no user id is 401 and an unknown user 404, with no write; otherwise `user.role` is set to the desired role, which equals the stored profile type |
| ProfileController.FindTag | src/controllers/profileController.js:22 | finds the first tag with that name, or none |
| ProfileController.FindTagExtend | src/controllers/profileController.js:22 | appending a tag does not change where an existing name is found |
| ProfileController.SaveTagRows | src/controllers/profileController.js:19-24 | the loop equals the fold `SaveTags` |
| ProfileController.SaveTagsKeepsTags | src/controllers/profileController.js:22 | the existing tags stay as a prefix, every id stays below the counter and tag names stay unique |
| ProfileController.SaveTagsLinks | src/controllers/profileController.js:19-24 | the links added are one per non-blank trimmed name, in order, each with the saved role and weight 1, pointing at the tag of that name |
| ProfileController.SaveTagsNoNewTags | src/controllers/profileController.js:22 | names that all have a tag create no tag |
| ProfileController.SaveTwiceReusesTags | src/controllers/profileController.js:22 | saving the same names again reuses every tag |
| ProfileController.SavedProfile | src/controllers/profileController.js:15 | the upserted row has the user, type, name and bio; an existing profile keeps its other columns |
| ProfileController.OtherUsersLinks | src/controllers/profileController.js:18 | deleting by user id keeps exactly the other users' links |
| ProfileController.SaveProfile | src/controllers/profileController.js:6-31 | a missing user id or a bad type fails with no write; otherwise the profile is upserted and the user's links are replaced by the saved names' links |
| ProfileController.SavedLinks | src/controllers/profileController.js:18-24 | after a save other users' links are exactly as before and every link of the user has the saved role and weight 1 |
| ProfileController.SaveTagsAppendsLinks | src/controllers/profileController.js:23 | links are only ever appended |
| Reviews.ClampRating | src/routes/review.js:32 | the stored rating lies in [1, 5], and a rating already in range is unchanged |
| Reviews.Create | src/routes/review.js:15-42 | a missing mentor or falsy rating is 400, a self-review 400 and a non-numeric rating taken to fail validation (500), all with no write; otherwise one review is appended with the caller as mentee and the clamped rating |
| Reviews.RatingSumBounds | src/routes/review.js:64-71 | the sum of in-range ratings lies between n and 5n |
| Reviews.AverageInRange | src/routes/review.js:64-74 | the average of in-range ratings lies in [1, 5] |
| Reviews.ReviewsOf | src/routes/review.js:52-62 | exactly the mentor's reviews, newest first |
| Reviews.MentorSummary | src/routes/review.js:48-82 | count = number of items; avg and count default to 0 without reviews; the average lies in [1, 5] otherwise |
| Reviews.Mine | src/routes/review.js:87-101 | exactly the caller's reviews as mentor, each as often as in the table, newest first |
| Reviews.CreateGrowsCount | src/routes/review.js:29-35 | a new review adds one to its mentor's review count |
| Reports.InThreadSymmetric | src/routes/reports.js:29-31 | the thread check is symmetric in reporter and target |
| Reports.FindMessage | src/routes/reports.js:27 | finds the message with that id or reports that none exists |
| Reports.MessageOkSymmetric | src/routes/reports.js:26-36 | the message check does not depend on who reports whom |
| Reports.Create | src/routes/reports.js:14-46 | a missing target or reason is 400; an unknown message or one outside the thread is 400; a reason over 80 characters fails the insert; otherwise exactly one open report by the caller is appended |
| Reports.Mine | src/routes/reports.js:52-59 | exactly the caller's reports, each as often as in the table, newest first |
| Reports.FiledReportListed | src/routes/reports.js:38-57 | a new report is in its reporter's list and in no one else's |
| Admin.ParseReportStatus | src/routes/admin.js:202 | reads exactly the four statuses of the enum |
| Schema.FindByPk | src/routes/admin.js:207 | `findByPk` at every table (reports here, and sessions, slots and reviews): the first row whose key is the id, or none exactly when no row has it |
| Admin.PatchReport | src/routes/admin.js:198-216 | a status outside the four is 400 and an unknown id 404, with no write; otherwise status, `handled_by` and `handled_at` are set and nothing else changes |
| Admin.ReportsList | src/routes/admin.js:167-194 | open reports by default, all with "all", else that status, each as often as in the table; any other string fails the query; newest first |
| Admin.PatchedReportListed | src/routes/admin.js:167-216 | a patched report is listed under its new status, and by default iff it is open again |
| Admin.Scan | src/routes/admin.js:107 | a table scan lists exactly the users in the table, one entry per key, with no user twice when each row sits under its own id |
| Admin.UsersList | src/routes/admin.js:96-118 | the non-deleted users, of the given role unless none or "all" is given, each as often as the scan lists it, newest first; a role outside the enum fails |
| Admin.UsersListDistinct | src/routes/admin.js:96-118 | with every user row stored under its own id, the users list names no user twice |
| Admin.DeleteReview | src/routes/admin.js:158-164 | an unknown id is 404 with no write; otherwise one review is destroyed, no other review is lost and none is added |
| Admin.SoftDelete | src/routes/admin.js:217-228 | an unknown id is 404; otherwise the row stays and only its deleted flag is set |
| Admin.DeletedNotListed | src/routes/admin.js:99-105 | a soft-deleted user (line 222) stays in the table but leaves every users list |
| Admin.BlockAsWritten | src/routes/admin.js:121-132 | as written: 404 for an unknown id, success otherwise, and the table unchanged |
| Admin.BlockAsWrittenLosesFlag | src/routes/admin.js:127-128 | as written, a successfully "blocked" user is not blocked |
| Admin.Block | src/routes/admin.js:121-132 | corrected: the user's blocked flag takes the given value and nothing else changes |
| Admin.BlockSetsFlag | src/routes/admin.js:127-128 | corrected, the same user is blocked afterwards |
| Admin.BlockRoundTrip | src/routes/admin.js:127-128 | blocking then unblocking restores an unblocked user |
| Dashboard.MentorStats | src/routes/dashboard.js:11-26 | the counters are the number of the mentor's sessions, pending requests to them, and mentorships |
| Dashboard.ParseStatus | src/routes/dashboard.js:36 | reads exactly the three request statuses |
| Dashboard.Mine | src/routes/dashboard.js:33-55 | the requests to the caller, of the given status when one is given, each as often as in the table, newest first; a status outside the enum fails |
| Dashboard.FindRequest | src/routes/dashboard.js:68-70 | finds a request with that id addressed to the caller, or reports that none exists |
| Dashboard.ActionStatus | src/routes/dashboard.js:64-73 | only "accept" and "decline" are actions; "accept" and only it gives accepted, "decline" and only it gives declined |
| Dashboard.Patch | src/routes/dashboard.js:61-81 | a bad action is 400 and a request not addressed to the caller 404, with no change; otherwise only that request's status changes |
| Dashboard.AnswerLowersPending | src/routes/dashboard.js:73 | answering a pending request lowers the pending counter by one and leaves the other counters (line 17) as they were |
| Dashboard.AnswerKeepsOthersStats | src/routes/dashboard.js:15-19 | one mentor's answer (line 73) never changes another mentor's counters |
| Dashboard.AcceptedListed | src/routes/dashboard.js:35-36 | an accepted request (line 73) is listed under "accepted" and no longer under "pending" |
| Auth.NormalizeEmail | src/routes/auth.js:10 | null gives ""; a string gives its trimmed, lower-cased form, which is trimmed and lower-case; a normal address is kept |
| Auth.NormalizeEmailIdempotent | src/routes/auth.js:10 | normalising twice is normalising once |
| Auth.NeedsOnboarding | src/routes/auth.js:13-18 | true iff there is no user, the role is missing, "unset" or "user", or the user has no profile |
| Auth.ProfileEndsOnboarding | src/routes/auth.js:13-18 | a user with a chosen role and a profile needs no onboarding |
| Auth.SignupRole | src/routes/auth.js:109-110 | the role is kept when it is mentor, mentee or "unset", and any role other than mentor and mentee becomes "unset" |
| Auth.ToSafeUser | src/routes/auth.js:21-30 | the reply copies id, e-mail, name, role and provider, shows the user's avatar or else the default picture, and carries no password |
| Auth.SafeUserHidesSecrets | src/routes/auth.js:21-30 | the projection is the same whatever the password hash and moderation flags are |
| Auth.Signup | src/routes/auth.js:92-138 | an empty e-mail or password and a registered e-mail are 400 with no user created; otherwise one local user without an avatar is added with the normalised address and role, e-mails stay unique, and the reply carries the safe projection of that user and redirects to onboarding or the dashboard |
| Auth.SignupWithoutRoleOnboards | src/routes/auth.js:109-129 | a signup without a mentor or mentee role is sent to onboarding |
| Auth.UserByEmail | src/routes/auth.js:150 | finds a user with that address, or none when it is not registered |
| Auth.UserByEmailUnique | src/routes/auth.js:150 | with unique addresses the lookup finds exactly the user with that address |
| Auth.LoginRedirect | src/routes/auth.js:162-167 | onboarding when needed, else the mentor dashboard for a mentor and the mentee dashboard for anyone else |
| Auth.LoginRedirectMatchesRole | src/routes/auth.js:162-167 | a user who needs no onboarding lands on their own role's dashboard |
| Auth.Login | src/routes/auth.js:140-174 | empty fields, unknown address, no password or wrong password are all 400; otherwise the reply carries the safe projection of the user, the onboarding flag and the redirect |
| Auth.SignupThenLogin | src/routes/auth.js:92-155 | after signup the address, in any spelling that normalises alike, finds exactly the new user |
| Auth.UpgradedRole | src/routes/auth.js:56-62 | the role changes only for "unset" or "user" with a mentor or mentee state, and then to that role |
| Auth.UpgradeOnce | src/routes/auth.js:56-62 | a chosen role is never overwritten, so the upgrade happens at most once |
| Auth.CallbackRedirect | src/routes/auth.js:68-78 | onboarding first, then the mentor or mentee dashboard, and the plain dashboard for another role |
| Auth.GoogleCallback | src/routes/auth.js:50-83 | no user goes to login with no write; otherwise only the role may be upgraded and the redirect follows it |
| Auth.CallbackAgreesWithLogin | src/routes/auth.js:162-167 | the callback redirect and the login redirect (lines 68-78) agree for mentors, mentees and onboarding |
| Auth.Me | src/routes/auth.js:186-191 | no user is 401; otherwise the safe projection of the user and whether onboarding is due |

## Left out

- The socket.io server, the session bridge and the Express wiring (`src/app.js`, `src/index.js`, `src/routes/index.js`, `src/config/db.js`) are transport. Rooms are a map from user id to sockets, and emissions are an event log.
- Mail (`sendMail`, the IST formatting in `src/routes/sessions.js`) is left out, because it is SMTP I/O.
- bcrypt is left out, because it is foreign crypto: `bcrypt.hash` is the `hash` parameter and `bcrypt.compare` is the `matches` parameter.
- Passport, JWT and Google OAuth are left out, for the same reason: the callback receives the signed-in user's id and the parsed `state`.
- `req.login` and its failure branch are not modelled.
- `requireAuth` and `requireAdmin` are not part of this model: the caller's id is a parameter.
- `CLIENT_URL` is dropped from the redirects.
- Database failures, unique-constraint races and the 500 answers of the `catch` blocks are not modelled, except where the failure depends on the input:
  - a string outside an enum;
  - a reason longer than `STRING(80)`;
  - an unparseable time;
  - an unset role in `PUT /profile/:user_id`.
  In those cases `ServerError` stands for the failure. No row is written, except in `PUT /availability/bulk`, whose delete of the caller's future slots has already run when the insert fails (see Findings). Several handlers have no `catch` at all, so there `ServerError` stands for the rejected promise the handler leaves to Express: `POST /api/reports`, the admin reports list, `POST /slots`, every handler of `src/routes/sessions.js` (`/book`, `/:id/accept`, `/:id/decline`, `/mine`), the admin block route and the admin report PATCH route.
- Handler failures in the socket handlers (caught and logged) are not modelled: the model's store cannot fail.
- SQL aggregates are computed from the rows they aggregate:
  - AVG and COUNT in `match.js` and `review.js`;
  - the admin `/stats` date series and the admin sessions and reviews lists (`src/routes/admin.js:20-94`, `134-156`), which are left out as plain queries. The admin review delete of the same block is modelled (Admin.DeleteReview).
- Ties in `ORDER BY` and `Array.sort` keep table order (a stable sort). SQL leaves that order unspecified.
- Object key order in the chat list is insertion order.
- Numbers are exact: scores and rating boosts are `real`, so IEEE rounding, `NaN` and `Infinity` are not modelled; the one `NaN` the handlers can produce, a non-numeric review rating, is the error case of Reviews.Create described below. `parseInt` of a digit string too long for a double (`Infinity`, hence null) is not modelled.
- `toStr` of numbers, booleans and objects (its `JSON.stringify` branch) is not modelled: a body field is missing, a string or an array of strings.
- Dates are integers. `new Date(null)` (the epoch) is treated like a missing time, and any time string either parses or does not.
- Ids of the Messages, Reports, Reviews, Sessions, Availability and Tags tables are natural-number counters, whereas the source uses UUIDs or serials.
- Lower-casing folds only the letters A–Z, whereas JavaScript's `toLowerCase` folds every cased Unicode letter. Four members keep non-ASCII capitals as they are:
- Auth.NormalizeEmail: an address with a non-ASCII capital is stored and looked up without folding that letter.
- Match.Normalize: a tag piece with a non-ASCII capital keeps it.
- Match.ToSet: two tags that differ only in a non-ASCII capital are two tokens, where the source has one.
- Match.ContainsAnyWord: a needle and a haystack that differ only in a non-ASCII capital do not match, where the source matches them.
- MatchRoutes.ClampLimit: the limit is an integer or missing, so a fractional limit such as 2.5, which `slice` truncates to 2, is not representable.
- Reviews.Create: a non-numeric rating makes `Math.min(5, Math.max(1, Number(rating)))` `NaN`, and the model takes the FLOAT column's `min: 1, max: 5` validation (`src/models/Review.js:15-18`) to reject it with a 500. Sequelize's `min`/`max` validators may instead let `NaN` through, and the database may store it, in which case the source answers 201 with a `NaN` rating. The invariant that every stored rating lies in [1, 5] (the review table's `Valid`), and with it Reviews.AverageInRange, Reviews.MentorSummary and MatchRoutes.RatingBoostRange, rests on that rejection.
- Response projections and included users are not modelled; these members return whole rows:
  - Admin.UsersList returns whole user rows, password hash included, whereas `src/routes/admin.js:110` selects only id, name, email, role and createdAt;
  - Admin.ReportsList does not carry the included reporter, target (id, name, email, avatar, role) and message (`src/routes/admin.js:173-189`);
  - Sessions.Mine does not carry the included mentor and mentee (id, name, email, avatar; `src/routes/sessions.js:155-166`);
  - Reviews.ReviewsOf and Reviews.Mine do not carry the included mentee (id, name, email, avatar; `src/routes/review.js:54-60`, `91-97`);
  - Dashboard.Mine does not carry the included mentee (id, name, email, avatar; `src/routes/dashboard.js:40-46`).
- Auth.Signup: the `isEmail` validation of the Users model is not modelled, and any non-empty normalised address is accepted.
- Auth.Login: it requires unique e-mails in the table, which the `unique` constraint of the Users model guarantees.
- The `validRole` helper of `src/routes/auth.js:89` is never called and is not modelled.
- The profile GET routes (`/mentors/all`, `/mentees/all`, `/:user_id`) are plain queries and are not modelled.
- `src/routes/menteeDashboard.js` calls its own API over HTTP and `src/routes/schedule.js` is not mounted; both are left out.
- `GET /availability/:mentor_id` with "me" is shadowed by the earlier `GET /me` route. Availability.MentorSlots models the handler as written, so the shadowing is not modelled.
- MatchService.GetMentorSuggestions: the rethrow of lookup errors is not modelled, because the model's lookups cannot fail.
- Auth.GoogleCallback: the `user.save()` failure path that redirects to `/login` is not modelled.
- User ids in request bodies are taken to be well-formed UUIDs, and foreign keys are not checked. The `mentor_id`, `mentee_id`, `reporter_id`, `target_id`, `sender_id` and `receiver_id` columns are UUIDs (`src/models/Review.js:13-14`, `src/models/Report.js:13-14`, `src/models/Message.js:13-14`). The associations (`src/models/associations.js:10-14`, `20-21`), synced with `alter: true` (`src/app.js:101`), may add foreign-key constraints. The insert then fails on a malformed or unknown id, and the model stores the row. The members concerned:
  - Reviews.Create: a `mentor_id` that is not a UUID, or names no user, is stored rather than failing the insert;
  - Reports.Create: a `target_id` that is not a UUID, or names no user, is stored rather than failing the insert;
  - ProfileController.SaveProfile: a `user_id` that names no user gets a profile and tag links rather than a failed insert;
  - Chat.Send: a `receiver_id` that is not a UUID is stored, whereas the source's `Message.create` (`src/routes/chat.js:97`) rejects it, and that handler has no `catch`.
- Each handler is one atomic step of the model, whereas the source awaits several queries one after another with no transaction. Interleavings of concurrent requests are therefore not modelled:
  - Sessions.Book: the free-slot lookup (`src/routes/sessions.js:22`), the session insert (`:32`) and the slot update (`:43`) are separate queries. Two concurrent bookings of one slot can both find it free and create two pending sessions; the model answers the second with 400;
  - Availability.Bulk: another request can run between the delete and the insert (`src/routes/availability.js:150-157`);
  - ProfileController.SaveProfile: the tag links are replaced by a destroy followed by one `findOrCreate` and one insert per name (`src/controllers/profileController.js:19-24`), and a concurrent save can interleave with them.

## Findings

| source | as written | input that shows it | evidently intended | confidence | as-written member | corrected member |
|---|---|---|---|---|---|---|
| src/routes/chatList.js:30 | `last_message: msg.message`, but the Message model's column is `text`, so the field is always undefined | one message "hi" from a to b, listed for b | `last_message` is the text of the counterpart's last message | not executed | ChatList.AsWrittenDropsText, ChatList.AsWrittenExample | ChatList.ListFacts, ChatList.ChatListHandler |
| src/routes/availability.js:150-157 | `PUT /bulk` deletes the caller's future slots, then inserts the new ones, with no transaction; a status outside the enum makes the insert fail after the delete | a mentor with one future slot sends one valid-time slot with status "busy" | a failed replacement leaves the mentor's slots unchanged, as "replaces all future slots" promises | not executed | Availability.Bulk, Availability.BulkBadStatusLosesSlot | Availability.BulkAtomic, Availability.BulkAtomicKeepsSlot |
| src/routes/admin.js:127-128 | `user.blocked = blocked; user.save()`, but the Users model has no `blocked` attribute, so nothing is stored while the reply says the user was blocked | an unblocked user, PUT `/user/:id/block` with `blocked: true` | the user's blocked flag takes the value sent | not executed | Admin.BlockAsWritten, Admin.BlockAsWrittenLosesFlag | Admin.Block, Admin.BlockSetsFlag, Admin.BlockRoundTrip |

=== FILE: admin.dfy ===
/** Administration (src/routes/admin.js): moderating reports, listing users,
    blocking and soft-deleting them. The admin check itself (requireAdmin) is not
    part of this model: the admin's id is a parameter. */
module Admin {
  import opened Schema
  import opened Seqs

  // ----- reports -----

  /** The `status` enum of the Reports table, read from a string. */
  function ParseReportStatus(s: string): (r: Option<ReportStatus>)
    ensures r == Some(Open) <==> s == "open"
    ensures r == Some(Reviewing) <==> s == "reviewing"
    ensures r == Some(Resolved) <==> s == "resolved"
    ensures r == Some(Dismissed) <==> s == "dismissed"
  {
    if s == "open" then Some(Open)
    else if s == "reviewing" then Some(Reviewing)
    else if s == "resolved" then Some(Resolved)
    else if s == "dismissed" then Some(Dismissed)
    else None
  }

  /** PATCH /api/admin/reports/:id by `admin`. A status outside the four of the enum
      is 400 and an unknown id 404, both without a write. Otherwise the report
      takes the new status, and records who handled it and when; no other column
      and no other report changes. Any status may follow any other. */
  method PatchReport(t: ReportTable, admin: Id, id: nat, status: string, now: int) returns (res: Result<Report>)
    requires t.Valid()
    modifies t
    ensures t.Valid() && t.nextId == old(t.nextId)
    ensures ParseReportStatus(status).None? ==> res == Err(BadRequest)
    ensures ParseReportStatus(status).Some? && FindByPk(old(t.rows), ReportId, id).None? ==> res == Err(NotFound)
    ensures res.Ok? <==> ParseReportStatus(status).Some? && FindByPk(old(t.rows), ReportId, id).Some?
    ensures res.Err? ==> t.rows == old(t.rows)
    ensures res.Ok? ==>
      var i := FindByPk(old(t.rows), ReportId, id).value;
      && res.value == old(t.rows)[i].(status := ParseReportStatus(status).value, handledBy := Some(admin),
                                      handledAt := Some(now))
      && t.rows == old(t.rows)[i := res.value]
  {
    var next := ParseReportStatus(status);
    if next.None? {
      return Err(BadRequest);
    }
    var found := FindByPk(t.rows, ReportId, id);
    if found.None? {
      return Err(NotFound);
    }
    var i := found.value;
    var report := t.rows[i];
    report := report.(status := next.value);
    report := report.(handledBy := Some(admin));
    report := report.(handledAt := Some(now));
    t.rows := t.rows[i := report];
    return Ok(report);
  }

  function ReportCreatedAt(r: Report): real {
    r.createdAt as real
  }

  /** The `status` query parameter, "open" when it is missing. */
  function StatusFilter(status: Option<string>): string {
    if status.None? then "open" else status.value
  }

  /** A report the list shows for that filter: every report for "all", otherwise
      those whose status has that name. */
  predicate Shown(x: Report, s: string) {
    s == "all" || Some(x.status) == ParseReportStatus(s)
  }

  /** The reports that filter shows, in table order. */
  function WithStatus(rows: seq<Report>, s: string): seq<Report> {
    Filter(rows, (x: Report) => Shown(x, s))
  }

  /** GET /api/admin/reports?status=…: without a status the open reports, with "all"
      every report, with one of the enum's names the reports in that status; any
      other string fails in the query (500). Newest first. */
  function ReportsList(rows: seq<Report>, status: Option<string>): (r: Result<seq<Report>>)
    ensures r.Err? <==> status.Some? && status.value != "all" && ParseReportStatus(status.value).None?
    ensures r.Err? ==> r.error == ServerError
    ensures status.None? ==> r.Ok? && forall x :: x in r.value <==> x in rows && x.status == Open
    ensures status == Some("all") ==> r.Ok? && forall x :: x in r.value <==> x in rows
    ensures status.Some? && ParseReportStatus(status.value).Some? ==>
      r.Ok? && forall x :: x in r.value <==> x in rows && x.status == ParseReportStatus(status.value).value
    ensures r.Ok? ==> forall i, j :: 0 <= i < j < |r.value| ==> r.value[i].createdAt >= r.value[j].createdAt
    ensures r.Ok? ==> multiset(r.value) == multiset(WithStatus(rows, StatusFilter(status)))
  {
    var s := StatusFilter(status);
    if s != "all" && ParseReportStatus(s).None? then Err(ServerError)
    else
      var keep := WithStatus(rows, s);
      var sorted := SortDesc(keep, ReportCreatedAt);
      SameMembers(sorted, keep);
      assert forall i, j :: 0 <= i < j < |sorted| ==> ReportCreatedAt(sorted[i]) >= ReportCreatedAt(sorted[j]);
      Ok(sorted)
  }

  /** A handled report leaves the default (open) list unless it was set back to
      open, and shows up in the list of its new status. */
  lemma PatchedReportListed(rows: seq<Report>, i: nat, admin: Id, status: string, now: int)
    requires i < |rows| && ParseReportStatus(status).Some?
    ensures
      var x := rows[i].(status := ParseReportStatus(status).value, handledBy := Some(admin), handledAt := Some(now));
      var after := rows[i := x];
      && x in ReportsList(after, Some(status)).value
      && (x in ReportsList(after, None).value <==> status == "open")
  {
    var x := rows[i].(status := ParseReportStatus(status).value, handledBy := Some(admin), handledAt := Some(now));
    var after := rows[i := x];
    assert after[i] == x;
  }

  // ----- users -----

  /** The rows of the Users table, in some scan order. */
  ghost function Scan(m: map<Id, UserRow>): (r: seq<UserRow>)
    ensures forall u :: u in r <==> u in m.Values
    ensures |r| == |m|
    ensures (forall k :: k in m ==> m[k].id == k) ==> Distinct(r)
    decreases |m|
  {
    if m == map[] then []
    else
      var k :| k in m;
      var rest := m - {k};
      assert forall u :: u in m.Values <==> u == m[k] || u in rest.Values by {
        forall u | u in m.Values ensures u == m[k] || u in rest.Values {
          var k' :| k' in m && m[k'] == u;
          if k' != k {
            assert k' in rest;
          }
        }
      }
      var r := Scan(rest);
      assert (forall k :: k in m ==> m[k].id == k) ==> m[k] !in r by {
        if forall k :: k in m ==> m[k].id == k {
          forall u | u in r ensures u != m[k] {
            var k' :| k' in rest && rest[k'] == u;
            assert u.id == k' != k;
          }
        }
      }
      r + [m[k]]
  }

  /** The values the `role` column's enum accepts. */
  predicate RoleEnum(s: string) {
    s == "mentor" || s == "mentee" || s == UNSET
  }

  function UserCreatedAt(u: UserRow): real {
    u.createdAt as real
  }

  /** A user the admin list shows for that role filter. */
  predicate Listed(u: UserRow, role: string) {
    !u.deleted && (role == "" || role == "all" || u.role == role)
  }

  /** The listed users, in scan order. */
  ghost function ListedRows(users: map<Id, UserRow>, role: string): (r: seq<UserRow>)
    ensures forall u :: u in r <==> u in users.Values && Listed(u, role)
  {
    Filter(Scan(users), (u: UserRow) => Listed(u, role))
  }

  /** The listed users, newest first. */
  ghost function ListedUsers(users: map<Id, UserRow>, role: string): (r: seq<UserRow>)
    ensures forall u :: u in r <==> u in users.Values && Listed(u, role)
    ensures forall i, j :: 0 <= i < j < |r| ==> r[i].createdAt >= r[j].createdAt
    ensures multiset(r) == multiset(ListedRows(users, role))
  {
    var keep := ListedRows(users, role);
    var sorted := SortDesc(keep, UserCreatedAt);
    SameMembers(sorted, keep);
    assert forall i, j :: 0 <= i < j < |sorted| ==> UserCreatedAt(sorted[i]) >= UserCreatedAt(sorted[j]);
    sorted
  }

  /** GET /api/admin/users?role=…: the users that are not deleted, narrowed to one
      role when a role other than "all" is given, newest first. A role outside the
      enum fails in the query (500). */
  ghost function UsersList(users: map<Id, UserRow>, role: string): (r: Result<seq<UserRow>>)
    ensures r.Err? <==> role != "" && role != "all" && !RoleEnum(role)
    ensures r.Err? ==> r.error == ServerError
    ensures r.Ok? ==> forall u :: u in r.value <==>
      u in users.Values && !u.deleted && (role == "" || role == "all" || u.role == role)
    ensures r.Ok? ==> forall i, j :: 0 <= i < j < |r.value| ==> r.value[i].createdAt >= r.value[j].createdAt
    ensures r.Ok? ==> multiset(r.value) == multiset(ListedRows(users, role))
  {
    if role != "" && role != "all" && !RoleEnum(role) then Err(ServerError)
    else Ok(ListedUsers(users, role))
  }

  /** Since every row is keyed by its own id, the users list names each user once. */
  lemma UsersListDistinct(users: map<Id, UserRow>, role: string)
    requires forall k :: k in users ==> users[k].id == k
    ensures UsersList(users, role).Ok? ==> Distinct(UsersList(users, role).value)
  {
    FilterKeepsDistinct(Scan(users), (u: UserRow) => Listed(u, role));
    PermutationKeepsDistinct(ListedRows(users, role), ListedUsers(users, role));
  }

  /** DELETE /api/admin/reviews/:id: an unknown id is 404 with no write; otherwise
      that review is destroyed and every other review stays. */
  method DeleteReview(t: ReviewTable, id: nat) returns (res: Result<()>)
    requires t.Valid()
    modifies t
    ensures t.Valid() && t.nextId == old(t.nextId)
    ensures res.Ok? <==> exists i :: 0 <= i < |old(t.rows)| && old(t.rows)[i].id == id
    ensures res.Err? ==> res.error == NotFound && t.rows == old(t.rows)
    ensures res.Ok? ==>
      && |t.rows| == |old(t.rows)| - 1
      && (forall r :: r in t.rows ==> r in old(t.rows))
      && (forall r :: r in old(t.rows) && r.id != id ==> r in t.rows)
  {
    var k := FindByPk(t.rows, ReviewId, id);
    if k.None? {
      return Err(NotFound);
    }
    var i := k.value;
    ghost var before := t.rows;
    t.rows := t.rows[..i] + t.rows[i + 1..];
    forall r | r in before && r.id != id
      ensures r in t.rows
    {
      var j :| 0 <= j < |before| && before[j] == r;
      if j < i {
        assert t.rows[j] == r;
      } else {
        assert j != i;
        assert t.rows[j - 1] == r;
      }
    }
    return Ok(());
  }

  /** DELETE /api/admin/user/:id: an unknown id is 404; otherwise the row stays and
      is only marked deleted. Deleting twice is allowed. */
  method SoftDelete(users: UserTable, id: Id) returns (res: Result<()>)
    requires users.Valid()
    modifies users
    ensures users.Valid()
    ensures res.Ok? <==> id in old(users.rows)
    ensures res.Err? ==> res.error == NotFound && users.rows == old(users.rows)
    ensures res.Ok? ==> users.rows == old(users.rows)[id := old(users.rows)[id].(deleted := true)]
  {
    if id !in users.rows {
      return Err(NotFound);
    }
    users.rows := users.rows[id := users.rows[id].(deleted := true)];
    return Ok(());
  }

  /** A soft-deleted user is still in the table but no longer in any users list. */
  lemma DeletedNotListed(users: map<Id, UserRow>, id: Id, role: string)
    requires id in users
    requires UsersList(users, role).Ok?
    ensures
      var after := users[id := users[id].(deleted := true)];
      && id in after
      && after[id] !in UsersList(after, role).value
  {
  }

  /** PUT /api/admin/user/:id/block, as written: the handler assigns `blocked` on
      the loaded user and saves, but the Users model has no such attribute, so the
      save writes nothing while the answer reports success. */
  method BlockAsWritten(users: UserTable, id: Id, blocked: bool) returns (res: Result<()>)
    requires users.Valid()
    modifies users
    ensures users.Valid()
    ensures res.Ok? <==> id in old(users.rows)
    ensures res.Err? ==> res.error == NotFound
    ensures users.rows == old(users.rows)
  {
    if id !in users.rows {
      return Err(NotFound);
    }
    return Ok(());
  }

  /** The block the handler's answer describes: the user's `blocked` flag takes the
      given value and nothing else changes. */
  method Block(users: UserTable, id: Id, blocked: bool) returns (res: Result<()>)
    requires users.Valid()
    modifies users
    ensures users.Valid()
    ensures res.Ok? <==> id in old(users.rows)
    ensures res.Err? ==> res.error == NotFound && users.rows == old(users.rows)
    ensures res.Ok? ==> users.rows == old(users.rows)[id := old(users.rows)[id].(blocked := blocked)]
  {
    if id !in users.rows {
      return Err(NotFound);
    }
    users.rows := users.rows[id := users.rows[id].(blocked := blocked)];
    return Ok(());
  }

  /** The effect the handler announces, on the table: `id`'s flag is the value sent. */
  predicate BlockedAs(users: map<Id, UserRow>, id: Id, blocked: bool) {
    id in users && users[id].blocked == blocked
  }

  /** The discrepancy: an unblocked user, "blocked" successfully, is still
      unblocked after the handler as written. */
  method BlockAsWrittenLosesFlag(users: UserTable, id: Id) returns (res: Result<()>)
    requires users.Valid() && id in users.rows && !users.rows[id].blocked
    modifies users
    ensures res.Ok? && !BlockedAs(users.rows, id, true)
  {
    res := BlockAsWritten(users, id, true);
  }

  /** The corrected handler, on the same user, does what its answer says. */
  method BlockSetsFlag(users: UserTable, id: Id) returns (res: Result<()>)
    requires users.Valid() && id in users.rows && !users.rows[id].blocked
    modifies users
    ensures res.Ok? && BlockedAs(users.rows, id, true)
  {
    res := Block(users, id, true);
  }

  /** For every user and every value, the corrected block leaves the flag at the
      value sent, and unblocking undoes blocking. */
  lemma BlockRoundTrip(users: map<Id, UserRow>, id: Id)
    requires id in users
    ensures
      var blocked := users[id := users[id].(blocked := true)];
      var unblocked := blocked[id := blocked[id].(blocked := false)];
      && BlockedAs(blocked, id, true)
      && BlockedAs(unblocked, id, false)
      && (!users[id].blocked ==> unblocked == users)
  {
    var blocked := users[id := users[id].(blocked := true)];
    var unblocked := blocked[id := blocked[id].(blocked := false)];
    if !users[id].blocked {
      assert unblocked[id] == users[id];
    }
  }
}

=== FILE: auth.dfy ===
/** Sign-up, log-in and the Google callback (src/routes/auth.js): e-mail
    normalisation, the onboarding decision, the roles a new or returning user gets
    and where each is sent afterwards. Password hashing and comparison (bcrypt) are
    parameters; the OAuth exchange and the session are not part of this model. */
module Auth {
  import opened Schema
  import opened Text
  import Profile

  /** `normalizeEmail`: a missing value is the empty string, anything else is
      trimmed and then lower-cased. */
  function NormalizeEmail(e: Option<string>): (r: string)
    ensures e.None? ==> r == ""
    ensures Trimmed(r) && IsLower(r)
    ensures e.Some? && Trimmed(e.value) && IsLower(e.value) ==> r == e.value
    ensures e.Some? ==> r == Lower(Trim(e.value))
  {
    match e
    case None => ""
    case Some(s) =>
      TrimIsTrimmed(s);
      LowerKeepsTrimmed(Trim(s));
      LowerIsLower(Trim(s));
      NormalFixed(s);
      Lower(Trim(s))
  }

  lemma NormalFixed(s: string)
    ensures Trimmed(s) && IsLower(s) ==> Lower(Trim(s)) == s
  {
    if Trimmed(s) && IsLower(s) {
      TrimmedIsFixed(s);
      LowerOfLower(s);
    }
  }

  /** Normalising twice is normalising once. */
  lemma NormalizeEmailIdempotent(e: Option<string>)
    ensures NormalizeEmail(Some(NormalizeEmail(e))) == NormalizeEmail(e)
  {
  }

  /** Role values that count as "no role chosen yet". */
  predicate Unassigned(role: string) {
    role == "" || role == UNSET || role == "user"
  }

  /** `computeNeedsOnboarding`: no user, a user without a chosen role, or a user
      without a profile row must go through onboarding. */
  function NeedsOnboarding(user: Option<UserRow>, profiles: seq<ProfileRow>): (r: bool)
    ensures r <==> user.None? || Unassigned(user.value.role) || forall p :: p in profiles ==> p.userId != user.value.id
  {
    if user.None? then true
    else if Unassigned(user.value.role) then true
    else
      var found := Profile.FindProfile(profiles, user.value.id);
      assert found.Some? ==> profiles[found.value] in profiles;
      found.None?
  }

  /** A user with a chosen role and a profile is done with onboarding, whatever
      else the profile table holds. */
  lemma ProfileEndsOnboarding(user: UserRow, profiles: seq<ProfileRow>, p: ProfileRow)
    requires !Unassigned(user.role) && p.userId == user.id
    ensures !NeedsOnboarding(Some(user), profiles + [p])
    ensures NeedsOnboarding(Some(user), profiles) ==> NeedsOnboarding(Some(user.(role := UNSET)), profiles + [p])
  {
    assert p in profiles + [p];
  }

  /** The picture `toSafeUser` shows for a user without one. */
  const DEFAULT_AVATAR: string :=
    "https://static.vecteezy.com/system/resources/previews/025/379/504/non_2x/default-employee-avatar-profile-icon-businessman-photo-vector.jpg"

  /** The user fields the answers expose. */
  datatype SafeUser = SafeUser(id: Id, email: string, name: string, avatar: string, role: string, provider: string)

  /** `toSafeUser`: the identity, name, role and provider of the row, its picture or
      the default one, and nothing else; in particular never the password hash. */
  function ToSafeUser(u: UserRow): (s: SafeUser)
    ensures s.id == u.id && s.email == u.email && s.name == u.name
    ensures s.role == u.role && s.provider == u.provider
    ensures s.avatar != ""
    ensures u.avatar != "" ==> s.avatar == u.avatar
    ensures u.avatar == "" ==> s.avatar == DEFAULT_AVATAR
  {
    SafeUser(u.id, u.email, u.name, if u.avatar != "" then u.avatar else DEFAULT_AVATAR, u.role, u.provider)
  }

  /** The projection does not depend on the password hash or on the moderation
      flags: two rows that differ only there look the same in every answer. */
  lemma SafeUserHidesSecrets(u: UserRow, hash: Option<string>, deleted: bool, blocked: bool)
    ensures ToSafeUser(u.(passwordHash := hash, deleted := deleted, blocked := blocked)) == ToSafeUser(u)
  {
  }

  /** The answer after sign-up or log-in. */
  datatype Reply = Reply(user: SafeUser, needsOnboarding: bool, redirect: string)

  /** Some user has that e-mail address. */
  predicate EmailTaken(users: map<Id, UserRow>, email: string) {
    exists id :: id in users && users[id].email == email
  }

  /** The `unique` constraint on the e-mail column. */
  ghost predicate EmailsUnique(users: map<Id, UserRow>) {
    forall a, b :: a in users && b in users && a != b ==> users[a].email != users[b].email
  }

  /** The role a sign-up stores: the requested one if it is mentor or mentee, and
      "unset" for anything else, so that onboarding picks it. */
  function SignupRole(role: string): (r: string)
    ensures r == "mentor" || r == "mentee" || r == UNSET
    ensures r == role <==> role == "mentor" || role == "mentee" || role == UNSET
    ensures role != "mentor" && role != "mentee" ==> r == UNSET
  {
    if role == "mentor" || role == "mentee" then role else UNSET
  }

  /** POST /signup. An e-mail that normalises to nothing or an empty password is 400,
      and so is an address already registered; a clash on the new primary key is a
      unique-constraint error and answers 400 as well. Otherwise one user is added
      with the normalised address, the password hash, the name (or ""), and the
      sign-up role; the answer says whether onboarding is due. */
  method Signup(users: UserTable, profiles: seq<ProfileRow>, freshId: Id, name: string, email: Option<string>,
                password: string, role: string, hash: string, now: int)
    returns (res: Result<Reply>)
    requires users.Valid()
    modifies users
    ensures users.Valid()
    ensures EmailsUnique(old(users.rows)) ==> EmailsUnique(users.rows)
    ensures NormalizeEmail(email) == "" || password == "" ==> res == Err(BadRequest)
    ensures res.Ok? <==>
      && NormalizeEmail(email) != "" && password != ""
      && !EmailTaken(old(users.rows), NormalizeEmail(email)) && freshId !in old(users.rows)
    ensures res.Err? ==> res.error == BadRequest && users.rows == old(users.rows)
    ensures res.Ok? ==>
      var row := UserRow(freshId, NormalizeEmail(email), Some(hash), name, "", SignupRole(role), "local", false, false, now);
      && users.rows == old(users.rows)[freshId := row]
      && res.value.user == ToSafeUser(row)
      && res.value.needsOnboarding == NeedsOnboarding(Some(row), profiles)
      && res.value.redirect == (if res.value.needsOnboarding then "/onboarding" else "/dashboard")
  {
    var e := NormalizeEmail(email);
    if e == "" || password == "" {
      return Err(BadRequest);
    }
    if EmailTaken(users.rows, e) {
      return Err(BadRequest);
    }
    if freshId in users.rows {
      return Err(BadRequest);
    }
    var row := UserRow(freshId, e, Some(hash), name, "", SignupRole(role), "local", false, false, now);
    AddKeepsUnique(users.rows, row);
    AddUser(users, row);
    var needs := NeedsOnboarding(Some(row), profiles);
    return Ok(Reply(ToSafeUser(row), needs, if needs then "/onboarding" else "/dashboard"));
  }

  /** Adding a user under a new id and a new address keeps addresses unique. */
  lemma AddKeepsUnique(users: map<Id, UserRow>, row: UserRow)
    requires row.id !in users && !EmailTaken(users, row.email)
    ensures EmailsUnique(users) ==> EmailsUnique(users[row.id := row])
  {
  }

  /** `User.create`: the row is stored under its own id. */
  method AddUser(users: UserTable, row: UserRow)
    requires users.Valid() && row.id !in users.rows
    modifies users
    ensures users.Valid()
    ensures users.rows == old(users.rows)[row.id := row]
  {
    users.rows := users.rows[row.id := row];
  }

  /** A sign-up without a mentor or mentee role is always sent to onboarding. */
  lemma SignupWithoutRoleOnboards(row: UserRow, role: string, profiles: seq<ProfileRow>)
    requires role != "mentor" && role != "mentee" && row.role == SignupRole(role)
    ensures NeedsOnboarding(Some(row), profiles)
  {
  }

  /** The user registered under a normalised address, when there is one. */
  ghost function UserByEmail(users: map<Id, UserRow>, email: string): (r: Option<Id>)
    ensures r.Some? ==> r.value in users && users[r.value].email == email
    ensures r.None? <==> !EmailTaken(users, email)
  {
    if EmailTaken(users, email) then
      var id :| id in users && users[id].email == email;
      Some(id)
    else None
  }

  /** With unique addresses the lookup names the one holder of the address. */
  lemma UserByEmailUnique(users: map<Id, UserRow>, email: string, id: Id)
    requires EmailsUnique(users) && id in users && users[id].email == email
    ensures UserByEmail(users, email) == Some(id)
  {
  }

  /** The log-in redirect: onboarding first; then mentors to their dashboard and
      everyone else to the mentee dashboard. */
  function LoginRedirect(needsOnboarding: bool, role: string): (r: string)
    ensures needsOnboarding <==> r == "/onboarding"
    ensures r == "/dashboard/mentor" <==> !needsOnboarding && role == "mentor"
    ensures !needsOnboarding && role != "mentor" ==> r == "/dashboard/mentee"
  {
    if needsOnboarding then "/onboarding"
    else if role == "mentor" then "/dashboard/mentor"
    else "/dashboard/mentee"
  }

  /** Someone who no longer needs onboarding has a chosen role, so a user whose role
      is one of the enum's lands on the dashboard of that role. */
  lemma LoginRedirectMatchesRole(user: UserRow, profiles: seq<ProfileRow>)
    requires user.role == "mentor" || user.role == "mentee" || user.role == UNSET
    requires !NeedsOnboarding(Some(user), profiles)
    ensures LoginRedirect(false, user.role) == "/dashboard/" + user.role
  {
  }

  /** A stored password that can be checked: present and not empty. */
  predicate HasPassword(u: UserRow) {
    u.passwordHash.Some? && u.passwordHash.value != ""
  }

  /** POST /login. A missing address or password, an unknown address, an account
      without a password (Google sign-in) and a wrong password are all 400.
      `matches` stands for `bcrypt.compare`. The user table is not written. */
  method Login(users: UserTable, profiles: seq<ProfileRow>, email: Option<string>, password: string,
               matches: (string, string) -> bool)
    returns (res: Result<Reply>)
    requires EmailsUnique(users.rows)
    ensures NormalizeEmail(email) == "" || password == "" ==> res == Err(BadRequest)
    ensures res.Err? ==> res.error == BadRequest
    ensures res.Ok? <==>
      && NormalizeEmail(email) != "" && password != ""
      && UserByEmail(users.rows, NormalizeEmail(email)).Some?
      && var u := users.rows[UserByEmail(users.rows, NormalizeEmail(email)).value];
         HasPassword(u) && matches(password, u.passwordHash.value)
    ensures res.Ok? ==>
      var u := users.rows[UserByEmail(users.rows, NormalizeEmail(email)).value];
      && res.value.user == ToSafeUser(u)
      && res.value.needsOnboarding == NeedsOnboarding(Some(u), profiles)
      && res.value.redirect == LoginRedirect(res.value.needsOnboarding, u.role)
  {
    var e := NormalizeEmail(email);
    if e == "" || password == "" {
      return Err(BadRequest);
    }
    if !EmailTaken(users.rows, e) {
      return Err(BadRequest);
    }
    var id :| id in users.rows && users.rows[id].email == e;
    UserByEmailUnique(users.rows, e, id);
    var user := users.rows[id];
    if !HasPassword(user) {
      return Err(BadRequest);
    }
    if !matches(password, user.passwordHash.value) {
      return Err(BadRequest);
    }
    var needs := NeedsOnboarding(Some(user), profiles);
    return Ok(Reply(ToSafeUser(user), needs, LoginRedirect(needs, user.role)));
  }

  /** Sign up, then log in with the same address in any spelling that normalises
      alike: the lookup finds exactly the new account, and a password the hash
      accepts lets the user in. */
  lemma SignupThenLogin(users: map<Id, UserRow>, freshId: Id, row: UserRow, email: Option<string>)
    requires EmailsUnique(users) && freshId !in users
    requires row.id == freshId && row.email == NormalizeEmail(email) && !EmailTaken(users, row.email)
    ensures EmailsUnique(users[freshId := row])
    ensures UserByEmail(users[freshId := row], NormalizeEmail(email)) == Some(freshId)
  {
    var after := users[freshId := row];
    assert after[freshId].email == NormalizeEmail(email);
    UserByEmailUnique(after, NormalizeEmail(email), freshId);
  }

  // ----- Google callback -----

  /** The `state` query parameter of the callback: absent, not JSON, or JSON whose
      `role` is the given string ("" when it has none). */
  datatype OAuthState = NoState | Unparseable | Parsed(role: string)

  /** The role after the callback's upgrade: only a user without a chosen role takes
      a mentor or mentee role from the state; anything else keeps the role. */
  function UpgradedRole(role: string, state: OAuthState): (r: string)
    ensures r != role <==>
      (role == UNSET || role == "user") && state.Parsed? && (state.role == "mentor" || state.role == "mentee")
    ensures r != role ==> r == state.role
  {
    if (role == UNSET || role == "user") && state.Parsed? && (state.role == "mentor" || state.role == "mentee")
    then state.role
    else role
  }

  /** The upgrade never overwrites a chosen role, so it happens at most once. */
  lemma UpgradeOnce(role: string, s1: OAuthState, s2: OAuthState)
    ensures role == "mentor" || role == "mentee" ==> UpgradedRole(role, s1) == role
    ensures UpgradedRole(role, s1) != role ==> UpgradedRole(UpgradedRole(role, s1), s2) == UpgradedRole(role, s1)
  {
  }

  /** Where the callback sends a user: onboarding first, then the dashboard of a
      mentor or a mentee, and the plain dashboard for any other role. */
  function CallbackRedirect(needsOnboarding: bool, role: string): (r: string)
    ensures needsOnboarding <==> r == "/onboarding"
    ensures !needsOnboarding && (role == "mentor" || role == "mentee") ==> r == "/dashboard/" + role
    ensures !needsOnboarding && role != "mentor" && role != "mentee" ==> r == "/dashboard"
  {
    if needsOnboarding then "/onboarding"
    else if role == "mentor" then "/dashboard/mentor"
    else if role == "mentee" then "/dashboard/mentee"
    else "/dashboard"
  }

  /** GET /google/callback for the signed-in user `id` ("" when passport produced
      none): no user goes back to the login page; otherwise the role is upgraded
      from the state when it may be, and the user is sent on. */
  method GoogleCallback(users: UserTable, profiles: seq<ProfileRow>, id: Id, state: OAuthState)
    returns (redirect: string)
    requires users.Valid()
    modifies users
    ensures users.Valid()
    ensures id !in old(users.rows) ==> redirect == "/login" && users.rows == old(users.rows)
    ensures id in old(users.rows) ==>
      var user := old(users.rows)[id].(role := UpgradedRole(old(users.rows)[id].role, state));
      && users.rows == old(users.rows)[id := user]
      && redirect == CallbackRedirect(NeedsOnboarding(Some(user), profiles), user.role)
  {
    if id !in users.rows {
      return "/login";
    }
    var user := users.rows[id];
    var role := UpgradedRole(user.role, state);
    if role != user.role {
      user := user.(role := role);
      users.rows := users.rows[id := user];
    } else {
      assert users.rows == users.rows[id := user.(role := role)];
    }
    redirect := CallbackRedirect(NeedsOnboarding(Some(user), profiles), user.role);
  }

  /** The callback and the log-in agree on mentors, mentees and onboarding; they
      differ only for a role outside mentor and mentee. */
  lemma CallbackAgreesWithLogin(needsOnboarding: bool, role: string)
    ensures role == "mentor" || role == "mentee" || needsOnboarding ==>
      CallbackRedirect(needsOnboarding, role) == LoginRedirect(needsOnboarding, role)
  {
  }

  /** The `/me` answer: the safe user fields and the onboarding flag. */
  datatype MeReply = MeReply(user: SafeUser, needsOnboarding: bool)

  /** GET /me: 401 without a signed-in user, otherwise the user's safe fields and
      whether onboarding is due. */
  function Me(user: Option<UserRow>, profiles: seq<ProfileRow>): (r: Result<MeReply>)
    ensures r.Err? <==> user.None?
    ensures r.Err? ==> r.error == Unauthorized
    ensures r.Ok? ==> r.value.user == ToSafeUser(user.value)
    ensures r.Ok? ==> (r.value.needsOnboarding <==>
      Unassigned(user.value.role) || forall p :: p in profiles ==> p.userId != user.value.id)
  {
    if user.None? then Err(Unauthorized) else Ok(MeReply(ToSafeUser(user.value), NeedsOnboarding(user, profiles)))
  }
}

=== FILE: availability.dfy ===
/** Mentor availability slots (src/routes/availability.js): slot validation, the
    create handlers, the bulk replacement of future slots, the field-by-field patch,
    the two deletes and the listings. The Availabilities table is a `SlotTable`;
    times are parsed timestamps and `now` is a parameter. */
module Availability {
  import opened Schema
  import opened Seqs
  import Realtime

  /** A time field of a request body as `new Date(...)` sees it: missing (`undefined`
      or `null`), the empty string, a string that parses to the instant `t`, or a
      string that does not parse. Only `At` is truthy and parses. */
  datatype TimeArg = Absent | Blank | At(t: int) | Unparseable

  predicate Truthy(a: TimeArg) {
    a.At? || a.Unparseable?
  }

  /** `validateSlot`: both times parse and the end is strictly after the start. */
  function ValidateSlot(start: TimeArg, end: TimeArg): (ok: bool)
    ensures ok <==> start.At? && end.At? && end.t > start.t
  {
    match (start, end)
    case (At(s), At(e)) => !(e <= s)
    case _ => false
  }

  /** The inline check of `POST /`: `Number.isNaN(getTime())` on either time, then
      `end <= start`. */
  function RootCheck(start: TimeArg, end: TimeArg): Result<(int, int)> {
    if !start.At? || !end.At? then Err(BadRequest)
    else if end.t <= start.t then Err(BadRequest)
    else Ok((start.t, end.t))
  }

  /** The two create routes accept the same slots. */
  lemma RootCheckIsValidateSlot(start: TimeArg, end: TimeArg)
    ensures RootCheck(start, end).Ok? <==> ValidateSlot(start, end)
    ensures RootCheck(start, end).Ok? ==> RootCheck(start, end).value == (start.t, end.t)
  {
  }

  /** The `status` column's enum read from the string a request supplies; any
      other string has no value and fails the write. */
  function ParseSlotStatus(s: string): (r: Option<SlotStatus>)
    ensures r == Some(Available) <==> s == "available"
    ensures r == Some(Booked) <==> s == "booked"
    ensures r == Some(Blocked) <==> s == "blocked"
    ensures r.None? <==> s != "available" && s != "booked" && s != "blocked"
  {
    if s == "available" then Some(Available)
    else if s == "booked" then Some(Booked)
    else if s == "blocked" then Some(Blocked)
    else None
  }

  /** `status || "available"` as the column stores it: a missing or empty status is
      `available`, and a string outside the enum cannot be stored. */
  function StatusOr(status: string): (r: Option<SlotStatus>)
    ensures status == "" ==> r == Some(Available)
    ensures status != "" ==> r == ParseSlotStatus(status)
  {
    ParseSlotStatus(if status == "" then "available" else status)
  }

  /** `emitIfPossible(req, kind, payload, room)`: one event into the room when socket.io
      is wired, nothing otherwise. */
  function Notice(io: bool, room: Id, kind: Realtime.EventKind, payload: Realtime.Payload): (r: seq<Realtime.Event>)
    ensures io ==> r == [Realtime.Event(room, kind, payload)]
    ensures !io ==> r == []
  {
    if io then [Realtime.Event(room, kind, payload)] else []
  }

  // ----- listings -----

  /** Ascending start time as a descending sort on the negated start. */
  function Earliness(s: Slot): real {
    -(s.start as real)
  }

  predicate AscendingByStart(r: seq<Slot>) {
    forall i, j :: 0 <= i < j < |r| ==> r[i].start <= r[j].start
  }

  /** `findAll({ where, order: [["start_time", "ASC"]] })`. */
  function Listing(rows: seq<Slot>, keep: Slot -> bool): (r: seq<Slot>)
    ensures forall s :: s in r <==> s in rows && keep(s)
    ensures AscendingByStart(r)
    ensures multiset(r) == multiset(Filter(rows, keep))
  {
    var kept := Filter(rows, keep);
    var r := SortDesc(kept, Earliness);
    SameMembers(r, kept);
    assert forall i, j :: 0 <= i < j < |r| ==> Earliness(r[i]) >= Earliness(r[j]);
    r
  }

  /** GET /api/availability/me: the caller's available slots from now on. */
  function OwnOpenSlots(rows: seq<Slot>, caller: Id, role: string, now: int): (r: Result<seq<Slot>>)
    ensures r.Err? <==> role != "mentor"
    ensures r.Err? ==> r.error == Forbidden
    ensures r.Ok? ==>
      && AscendingByStart(r.value)
      && forall s :: s in r.value <==> s in rows && s.mentor == caller && s.status == Available && s.start >= now
  {
    if role != "mentor" then Err(Forbidden)
    else Ok(Listing(rows, (s: Slot) => s.mentor == caller && s.status == Available && s.start >= now))
  }

  /** GET /api/availability/:mentor_id: the mentor's available slots, past ones
      included; `me` stands for the caller and needs a session. */
  function MentorSlots(rows: seq<Slot>, param: string, caller: Option<Id>): (r: Result<seq<Slot>>)
    ensures r.Err? <==> param == "me" && caller.None?
    ensures r.Err? ==> r.error == Unauthorized
    ensures r.Ok? ==>
      var mentor := if param == "me" then caller.value else param;
      AscendingByStart(r.value) && forall s :: s in r.value <==> s in rows && s.mentor == mentor && s.status == Available
  {
    if param == "me" && caller.None? then Err(Unauthorized)
    else
      var mentor := if param == "me" then caller.value else param;
      Ok(Listing(rows, (s: Slot) => s.mentor == mentor && s.status == Available))
  }

  /** GET /api/availability/me/list: every slot of the caller. */
  function OwnAllSlots(rows: seq<Slot>, caller: Id, role: string): (r: Result<seq<Slot>>)
    ensures r.Err? <==> role != "mentor"
    ensures r.Err? ==> r.error == Forbidden
    ensures r.Ok? ==> AscendingByStart(r.value) && forall s :: s in r.value <==> s in rows && s.mentor == caller
  {
    if role != "mentor" then Err(Forbidden)
    else Ok(Listing(rows, (s: Slot) => s.mentor == caller))
  }

  /** `String(req.query.future || "1") === "1"`: future-only unless a truthy value
      other than "1" is given. */
  function FutureOnly(future: Option<string>): (b: bool)
    ensures future.None? || future == Some("") || future == Some("1") ==> b
    ensures future.Some? && future.value != "" && future.value != "1" ==> !b
  {
    var v := if future.None? || future.value == "" then "1" else future.value;
    v == "1"
  }

  /** GET /api/availability/slots/me: the caller's slots, future ones only by default. */
  function MySlots(rows: seq<Slot>, caller: Id, future: Option<string>, now: int): (r: seq<Slot>)
    ensures AscendingByStart(r)
    ensures forall s :: s in r <==> s in rows && s.mentor == caller && (FutureOnly(future) ==> s.start >= now)
  {
    var futureOnly := FutureOnly(future);
    Listing(rows, (s: Slot) => s.mentor == caller && (futureOnly ==> s.start >= now))
  }

  /** GET /api/availability/slots/of/:mentor_id: the mentor's available slots from
      now on, earliest first. */
  function OpenSlotsOf(rows: seq<Slot>, mentor: Id, now: int): (r: seq<Slot>)
    ensures AscendingByStart(r)
    ensures forall s :: s in r <==> s in rows && s.mentor == mentor && s.status == Available && s.start >= now
  {
    Listing(rows, (s: Slot) => s.mentor == mentor && s.status == Available && s.start >= now)
  }

  // ----- removal -----

  /** The table without the row at position `i` (`slot.destroy()`). */
  function RemoveAt(rows: seq<Slot>, i: nat): (r: seq<Slot>)
    requires i < |rows|
    ensures |r| == |rows| - 1
    ensures forall s :: s in r ==> s in rows
    ensures multiset(r) + multiset{rows[i]} == multiset(rows)
  {
    assert rows == rows[..i] + [rows[i]] + rows[i + 1..];
    rows[..i] + rows[i + 1..]
  }

  // ----- creation -----

  /** One element of a bulk body, or the body of a single create. `status` is the
      string the client sent, `""` when it sent none (or a falsy value). */
  datatype SlotInput = SlotInput(start: TimeArg, end: TimeArg, status: string)

  /** The times pass `validateSlot`. */
  predicate ValidInput(s: SlotInput) {
    ValidateSlot(s.start, s.end)
  }

  /** The status the row would get is one of the enum's. */
  predicate Storable(s: SlotInput) {
    StatusOr(s.status).Some?
  }

  /** The rows `bulkCreate` inserts for validated inputs, with fresh ids from `first`. */
  function NewSlots(items: seq<SlotInput>, caller: Id, first: nat): (r: seq<Slot>)
    requires forall k :: 0 <= k < |items| ==> ValidInput(items[k]) && Storable(items[k])
    ensures |r| == |items|
    ensures forall k :: 0 <= k < |r| ==>
      && ValidInput(items[k]) && Storable(items[k])
      && r[k] == Slot(first + k, caller, items[k].start.t, items[k].end.t, StatusOr(items[k].status).value)
  {
    if items == [] then []
    else
      var n := |items| - 1;
      assert ValidInput(items[n]) && Storable(items[n]);
      NewSlots(items[..n], caller, first)
        + [Slot(first + n, caller, items[n].start.t, items[n].end.t, StatusOr(items[n].status).value)]
  }

  /** POST /api/availability/create and POST /api/availability: a mentor creates one
      slot for themself, with the given status or `available`. A status outside the
      enum fails the insert (500). A created slot is announced in the mentor's room. */
  method Create(t: SlotTable, hub: Realtime.Hub, caller: Id, role: string, input: SlotInput, io: bool)
    returns (res: Result<Slot>)
    requires t.Valid()
    modifies t, hub
    ensures t.Valid()
    ensures role != "mentor" ==> res == Err(Forbidden)
    ensures role == "mentor" && !ValidInput(input) ==> res == Err(BadRequest)
    ensures role == "mentor" && ValidInput(input) && !Storable(input) ==> res == Err(ServerError)
    ensures res.Ok? <==> role == "mentor" && ValidInput(input) && Storable(input)
    ensures res.Err? ==> t.rows == old(t.rows) && t.nextId == old(t.nextId) && hub.events == old(hub.events)
    ensures res.Ok? ==>
      && res.value == Slot(old(t.nextId), caller, input.start.t, input.end.t, StatusOr(input.status).value)
      && t.rows == old(t.rows) + [res.value]
      && t.nextId == old(t.nextId) + 1
      && hub.events == old(hub.events) + Notice(io, caller, Realtime.SlotCreated, Realtime.SlotPayload(res.value))
    ensures hub.messages == old(hub.messages) && hub.nextId == old(hub.nextId) && hub.rooms == old(hub.rooms)
  {
    if role != "mentor" {
      return Err(Forbidden);
    }
    if !ValidateSlot(input.start, input.end) {
      return Err(BadRequest);
    }
    var status := StatusOr(input.status);
    if status.None? {
      return Err(ServerError);
    }
    var slot := Slot(t.nextId, caller, input.start.t, input.end.t, status.value);
    t.rows := t.rows + [slot];
    t.nextId := t.nextId + 1;
    hub.events := hub.events + Notice(io, caller, Realtime.SlotCreated, Realtime.SlotPayload(slot));
    return Ok(slot);
  }

  /** Every created slot belongs to the caller and ends after it starts. */
  lemma CreatedSlotsWellFormed(items: seq<SlotInput>, caller: Id, first: nat)
    requires forall k :: 0 <= k < |items| ==> ValidInput(items[k]) && Storable(items[k])
    ensures forall s :: s in NewSlots(items, caller, first) ==> s.mentor == caller && s.end > s.start && s.id >= first
  {
  }

  /** The rows a bulk replacement keeps: everything except the caller's slots that
      start at or after `now`. */
  function KeptByBulk(rows: seq<Slot>, caller: Id, now: int): (r: seq<Slot>)
    ensures forall s :: s in r <==> s in rows && !(s.mentor == caller && s.start >= now)
  {
    Filter(rows, (s: Slot) => !(s.mentor == caller && s.start >= now))
  }

  /** Every element's times are valid. */
  predicate AllValid(items: seq<SlotInput>) {
    forall k :: 0 <= k < |items| ==> ValidInput(items[k])
  }

  /** Every element's status can be stored. */
  predicate AllStorable(items: seq<SlotInput>) {
    forall k :: 0 <= k < |items| ==> Storable(items[k])
  }

  /** `Availability.destroy({ where: mentor, start_time >= now })`. */
  method DestroyFuture(t: SlotTable, caller: Id, now: int)
    requires t.Valid()
    modifies t
    ensures t.Valid()
    ensures t.rows == KeptByBulk(old(t.rows), caller, now) && t.nextId == old(t.nextId)
  {
    KeptUnique(t.rows, caller, now);
    t.rows := KeptByBulk(t.rows, caller, now);
  }

  /** The rows a bulk replacement keeps still have unique ids. */
  lemma KeptUnique(rows: seq<Slot>, caller: Id, now: int)
    requires UniqueSlotIds(rows)
    ensures UniqueSlotIds(KeptByBulk(rows, caller, now))
  {
    FilterKeepsKeysDistinct(rows, (s: Slot) => !(s.mentor == caller && s.start >= now), (s: Slot) => s.id);
  }

  /** `Availability.bulkCreate(...)` of validated elements. */
  method InsertAll(t: SlotTable, caller: Id, items: seq<SlotInput>) returns (created: seq<Slot>)
    requires t.Valid() && AllValid(items) && AllStorable(items)
    modifies t
    ensures t.Valid()
    ensures created == NewSlots(items, caller, old(t.nextId))
    ensures t.rows == old(t.rows) + created && t.nextId == old(t.nextId) + |items|
  {
    created := NewSlots(items, caller, t.nextId);
    t.rows := t.rows + created;
    t.nextId := t.nextId + |items|;
  }

  /** PUT /api/availability/bulk, as written: the times of every element are
      validated before anything is deleted; then the caller's future slots are
      destroyed and the submitted ones inserted in one statement. The statuses are
      not checked up front, so an element whose status is outside the enum fails the
      insert after the delete: the answer is 500 and the caller's future slots are
      gone. On success the replacement is announced in the mentor's room. */
  method Bulk(t: SlotTable, hub: Realtime.Hub, caller: Id, role: string, items: seq<SlotInput>, now: int, io: bool)
    returns (res: Result<seq<Slot>>)
    requires t.Valid()
    modifies t, hub
    ensures t.Valid()
    ensures role != "mentor" ==> res == Err(Forbidden)
    ensures role == "mentor" && (items == [] || !AllValid(items)) ==> res == Err(BadRequest)
    ensures role == "mentor" && items != [] && AllValid(items) && !AllStorable(items) ==>
      res == Err(ServerError) && t.rows == KeptByBulk(old(t.rows), caller, now)
    ensures res.Ok? <==> role == "mentor" && items != [] && AllValid(items) && AllStorable(items)
    ensures res.Err? && res.error != ServerError ==> t.rows == old(t.rows)
    ensures res.Err? ==> t.nextId == old(t.nextId) && hub.events == old(hub.events)
    ensures res.Ok? ==>
      && AllValid(items) && AllStorable(items)
      && res.value == NewSlots(items, caller, old(t.nextId))
      && t.rows == KeptByBulk(old(t.rows), caller, now) + res.value
      && t.nextId == old(t.nextId) + |items|
      && hub.events == old(hub.events)
           + Notice(io, caller, Realtime.SlotsReplaced, Realtime.ReplacedPayload(caller, |items|))
    ensures hub.messages == old(hub.messages) && hub.nextId == old(hub.nextId) && hub.rooms == old(hub.rooms)
  {
    if role != "mentor" {
      return Err(Forbidden);
    }
    if |items| == 0 {
      return Err(BadRequest);
    }
    for i := 0 to |items|
      invariant forall k :: 0 <= k < i ==> ValidInput(items[k])
    {
      if !ValidateSlot(items[i].start, items[i].end) {
        return Err(BadRequest);
      }
    }
    DestroyFuture(t, caller, now);
    for i := 0 to |items|
      invariant forall k :: 0 <= k < i ==> Storable(items[k])
    {
      if StatusOr(items[i].status).None? {
        return Err(ServerError);
      }
    }
    var created := InsertAll(t, caller, items);
    hub.events := hub.events + Notice(io, caller, Realtime.SlotsReplaced, Realtime.ReplacedPayload(caller, |items|));
    return Ok(created);
  }

  /** The data loss of the handler as written: a mentor's future slot is gone after
      a bulk request that failed with 500 because of one bad status. */
  method BulkBadStatusLosesSlot(t: SlotTable, hub: Realtime.Hub, caller: Id, items: seq<SlotInput>, now: int,
                                io: bool, s: Slot)
    returns (res: Result<seq<Slot>>)
    requires t.Valid() && items != [] && AllValid(items) && !AllStorable(items)
    requires s in t.rows && s.mentor == caller && s.start >= now
    modifies t, hub
    ensures res == Err(ServerError) && s !in t.rows
  {
    res := Bulk(t, hub, caller, "mentor", items, now, io);
  }

  /** The replacement the route describes: either every future slot is replaced or
      nothing changes. The statuses are checked together with the times, before the
      delete, so a failure leaves the table as it was. */
  method BulkAtomic(t: SlotTable, hub: Realtime.Hub, caller: Id, role: string, items: seq<SlotInput>, now: int,
                    io: bool)
    returns (res: Result<seq<Slot>>)
    requires t.Valid()
    modifies t, hub
    ensures t.Valid()
    ensures role != "mentor" ==> res == Err(Forbidden)
    ensures role == "mentor" && (items == [] || !AllValid(items)) ==> res == Err(BadRequest)
    ensures role == "mentor" && items != [] && AllValid(items) && !AllStorable(items) ==> res == Err(ServerError)
    ensures res.Ok? <==> role == "mentor" && items != [] && AllValid(items) && AllStorable(items)
    ensures res.Err? ==> t.rows == old(t.rows) && t.nextId == old(t.nextId) && hub.events == old(hub.events)
    ensures res.Ok? ==>
      && AllValid(items) && AllStorable(items)
      && res.value == NewSlots(items, caller, old(t.nextId))
      && t.rows == KeptByBulk(old(t.rows), caller, now) + res.value
      && t.nextId == old(t.nextId) + |items|
      && hub.events == old(hub.events)
           + Notice(io, caller, Realtime.SlotsReplaced, Realtime.ReplacedPayload(caller, |items|))
    ensures hub.messages == old(hub.messages) && hub.nextId == old(hub.nextId) && hub.rooms == old(hub.rooms)
  {
    if role != "mentor" {
      return Err(Forbidden);
    }
    if |items| == 0 {
      return Err(BadRequest);
    }
    for i := 0 to |items|
      invariant forall k :: 0 <= k < i ==> ValidInput(items[k])
    {
      if !ValidateSlot(items[i].start, items[i].end) {
        return Err(BadRequest);
      }
    }
    for i := 0 to |items|
      invariant forall k :: 0 <= k < i ==> Storable(items[k])
    {
      if StatusOr(items[i].status).None? {
        return Err(ServerError);
      }
    }
    DestroyFuture(t, caller, now);
    var created := InsertAll(t, caller, items);
    hub.events := hub.events + Notice(io, caller, Realtime.SlotsReplaced, Realtime.ReplacedPayload(caller, |items|));
    return Ok(created);
  }

  /** With the corrected handler, the same failing request keeps the slot. */
  method BulkAtomicKeepsSlot(t: SlotTable, hub: Realtime.Hub, caller: Id, items: seq<SlotInput>, now: int,
                             io: bool, s: Slot)
    returns (res: Result<seq<Slot>>)
    requires t.Valid() && items != [] && AllValid(items) && !AllStorable(items)
    requires s in t.rows && s.mentor == caller && s.start >= now
    modifies t, hub
    ensures res == Err(ServerError) && s in t.rows
  {
    res := BulkAtomic(t, hub, caller, "mentor", items, now, io);
  }

  /** After a bulk replacement: the caller's slots from `now` on are exactly the
      submitted ones that start from `now` on; the caller's past slots and every other
      mentor's slots are untouched. */
  lemma BulkEffect(rows: seq<Slot>, items: seq<SlotInput>, caller: Id, now: int, first: nat)
    requires AllValid(items) && AllStorable(items)
    requires forall s :: s in rows ==> s.id < first
    ensures forall s ::
      s in KeptByBulk(rows, caller, now) + NewSlots(items, caller, first) && s.mentor == caller && s.start >= now
      ==> s in NewSlots(items, caller, first)
    ensures forall s :: s in rows && s.mentor != caller ==> s in KeptByBulk(rows, caller, now) + NewSlots(items, caller, first)
    ensures forall s :: s in rows && s.start < now ==> s in KeptByBulk(rows, caller, now) + NewSlots(items, caller, first)
    ensures forall s :: s in KeptByBulk(rows, caller, now) + NewSlots(items, caller, first) && s.mentor != caller ==> s in rows
  {
    CreatedSlotsWellFormed(items, caller, first);
  }

  // ----- patch and delete -----

  /** `value ?? current`: only a missing value falls back. */
  function Merge(arg: TimeArg, current: int): TimeArg {
    if arg.Absent? then At(current) else arg
  }

  /** A supplied status (`if (status)`) must be one of the enum's for the save to
      succeed; no status keeps the current one. */
  predicate PatchStorable(input: SlotInput) {
    input.status == "" || ParseSlotStatus(input.status).Some?
  }

  /** The row after the field-by-field assignments of a validated patch. */
  function Patched(s: Slot, input: SlotInput): Slot
    requires PatchStorable(input)
  {
    var start := if input.start.At? then input.start.t else s.start;
    var end := if input.end.At? then input.end.t else s.end;
    var status := if input.status != "" then ParseSlotStatus(input.status).value else s.status;
    Slot(s.id, s.mentor, start, end, status)
  }

  /** PATCH /api/availability/:id: only the owner may patch; when a time is given the
      merged old/new times are validated; a status outside the enum fails the save
      (500); only the supplied fields change, and the updated slot is announced in
      the mentor's room. */
  method Patch(t: SlotTable, hub: Realtime.Hub, caller: Id, role: string, id: nat, input: SlotInput, io: bool)
    returns (res: Result<Slot>)
    requires t.Valid()
    modifies t, hub
    ensures t.Valid()
    ensures role != "mentor" ==> res == Err(Forbidden)
    ensures role == "mentor" && (FindByPk(old(t.rows), SlotId, id).None? || old(t.rows)[FindByPk(old(t.rows), SlotId, id).value].mentor != caller)
      ==> res == Err(NotFound)
    ensures res.Ok? <==>
      && role == "mentor" && FindByPk(old(t.rows), SlotId, id).Some?
      && var s := old(t.rows)[FindByPk(old(t.rows), SlotId, id).value];
      && s.mentor == caller
      && (Truthy(input.start) || Truthy(input.end) ==> ValidateSlot(Merge(input.start, s.start), Merge(input.end, s.end)))
      && PatchStorable(input)
    ensures role == "mentor" && FindByPk(old(t.rows), SlotId, id).Some? ==>
      var s := old(t.rows)[FindByPk(old(t.rows), SlotId, id).value];
      s.mentor == caller && (Truthy(input.start) || Truthy(input.end))
        && !ValidateSlot(Merge(input.start, s.start), Merge(input.end, s.end))
      ==> res == Err(BadRequest)
    ensures res.Err? && res.error == ServerError ==> !PatchStorable(input)
    ensures res.Err? ==> t.rows == old(t.rows) && hub.events == old(hub.events)
    ensures res.Ok? ==>
      var i := FindByPk(old(t.rows), SlotId, id).value;
      && PatchStorable(input)
      && res.value == Patched(old(t.rows)[i], input)
      && t.rows == old(t.rows)[i := res.value]
      && hub.events == old(hub.events) + Notice(io, caller, Realtime.SlotUpdated, Realtime.SlotPayload(res.value))
    ensures t.nextId == old(t.nextId)
    ensures hub.messages == old(hub.messages) && hub.nextId == old(hub.nextId) && hub.rooms == old(hub.rooms)
  {
    if role != "mentor" {
      return Err(Forbidden);
    }
    var found := FindByPk(t.rows, SlotId, id);
    if found.None? || t.rows[found.value].mentor != caller {
      return Err(NotFound);
    }
    var i := found.value;
    var slot := t.rows[i];
    if Truthy(input.start) || Truthy(input.end) {
      if !ValidateSlot(Merge(input.start, slot.start), Merge(input.end, slot.end)) {
        return Err(BadRequest);
      }
    }
    if input.start.At? { slot := slot.(start := input.start.t); }
    if input.end.At? { slot := slot.(end := input.end.t); }
    if input.status != "" {
      var status := ParseSlotStatus(input.status);
      if status.None? {
        return Err(ServerError);
      }
      slot := slot.(status := status.value);
    }
    t.rows := t.rows[i := slot];
    hub.events := hub.events + Notice(io, caller, Realtime.SlotUpdated, Realtime.SlotPayload(slot));
    return Ok(slot);
  }

  /** A patch changes only the fields it supplies; when it supplies a time, the row
      it leaves ends after it starts. */
  lemma PatchedFields(s: Slot, input: SlotInput)
    requires PatchStorable(input)
    requires Truthy(input.start) || Truthy(input.end) ==> ValidateSlot(Merge(input.start, s.start), Merge(input.end, s.end))
    ensures Patched(s, input).id == s.id && Patched(s, input).mentor == s.mentor
    ensures !input.start.At? ==> Patched(s, input).start == s.start
    ensures !input.end.At? ==> Patched(s, input).end == s.end
    ensures input.status == "" ==> Patched(s, input).status == s.status
    ensures input.status != "" ==> StatusName(Patched(s, input).status) == input.status
    ensures Truthy(input.start) || Truthy(input.end) ==> Patched(s, input).end > Patched(s, input).start
  {
  }

  /** The enum name of a status. */
  function StatusName(st: SlotStatus): (s: string)
    ensures ParseSlotStatus(s) == Some(st)
  {
    match st
    case Available => "available"
    case Booked => "booked"
    case Blocked => "blocked"
  }

  /** DELETE /api/availability/:id: a mentor deletes their own slot, whatever its
      status, and the deletion is announced in the mentor's room. */
  method Delete(t: SlotTable, hub: Realtime.Hub, caller: Id, role: string, id: nat, io: bool) returns (res: Result<bool>)
    requires t.Valid()
    modifies t, hub
    ensures t.Valid()
    ensures role != "mentor" ==> res == Err(Forbidden)
    ensures res.Ok? <==>
      && role == "mentor" && FindByPk(old(t.rows), SlotId, id).Some?
      && old(t.rows)[FindByPk(old(t.rows), SlotId, id).value].mentor == caller
    ensures res.Err? ==> res.error != ServerError && t.rows == old(t.rows) && hub.events == old(hub.events)
    ensures res.Ok? ==>
      && t.rows == RemoveAt(old(t.rows), FindByPk(old(t.rows), SlotId, id).value)
      && (forall s :: s in t.rows <==> s in old(t.rows) && s.id != id)
      && hub.events == old(hub.events) + Notice(io, caller, Realtime.SlotDeleted, Realtime.DeletedPayload(id))
    ensures t.nextId == old(t.nextId)
    ensures hub.messages == old(hub.messages) && hub.nextId == old(hub.nextId) && hub.rooms == old(hub.rooms)
  {
    if role != "mentor" {
      return Err(Forbidden);
    }
    var found := FindByPk(t.rows, SlotId, id);
    if found.None? || t.rows[found.value].mentor != caller {
      return Err(NotFound);
    }
    RemoveAtKeepsOthers(t.rows, found.value);
    t.rows := RemoveAt(t.rows, found.value);
    hub.events := hub.events + Notice(io, caller, Realtime.SlotDeleted, Realtime.DeletedPayload(id));
    return Ok(true);
  }

  /** DELETE /api/availability/slots/:id: the owner deletes a slot only while it is
      available; a booked or blocked slot is 400 and stays. */
  method DeleteOpenSlot(t: SlotTable, caller: Id, id: nat) returns (res: Result<bool>)
    requires t.Valid()
    modifies t
    ensures t.Valid()
    ensures FindByPk(old(t.rows), SlotId, id).None? || old(t.rows)[FindByPk(old(t.rows), SlotId, id).value].mentor != caller ==>
      res == Err(NotFound)
    ensures res.Err? && res.error != NotFound ==> res.error == BadRequest
    ensures res.Ok? <==>
      && FindByPk(old(t.rows), SlotId, id).Some?
      && old(t.rows)[FindByPk(old(t.rows), SlotId, id).value].mentor == caller
      && old(t.rows)[FindByPk(old(t.rows), SlotId, id).value].status == Available
    ensures res.Err? ==> t.rows == old(t.rows)
    ensures res.Ok? ==> t.rows == RemoveAt(old(t.rows), FindByPk(old(t.rows), SlotId, id).value)
    ensures res.Ok? ==> forall s :: s in t.rows <==> s in old(t.rows) && s.id != id
    ensures t.nextId == old(t.nextId)
  {
    var found := FindByPk(t.rows, SlotId, id);
    if found.None? || t.rows[found.value].mentor != caller {
      return Err(NotFound);
    }
    if t.rows[found.value].status != Available {
      return Err(BadRequest);
    }
    RemoveAtKeepsOthers(t.rows, found.value);
    t.rows := RemoveAt(t.rows, found.value);
    return Ok(true);
  }

  /** Where each remaining row came from. */
  lemma RemoveAtIndex(rows: seq<Slot>, i: nat)
    requires i < |rows|
    ensures forall k :: 0 <= k < i ==> RemoveAt(rows, i)[k] == rows[k]
    ensures forall k :: i <= k < |rows| - 1 ==> RemoveAt(rows, i)[k] == rows[k + 1]
  {
  }

  /** With ids unique, a delete removes exactly the slot with that id and keeps every
      other row, and the ids left are still unique. */
  lemma RemoveAtKeepsOthers(rows: seq<Slot>, i: nat)
    requires i < |rows|
    requires UniqueSlotIds(rows)
    ensures forall s :: s in RemoveAt(rows, i) <==> s in rows && s.id != rows[i].id
    ensures UniqueSlotIds(RemoveAt(rows, i))
  {
    var r := RemoveAt(rows, i);
    RemoveAtIndex(rows, i);
    forall s | s in rows && s.id != rows[i].id
      ensures s in r
    {
      var j :| 0 <= j < |rows| && rows[j] == s;
      if j < i {
        assert r[j] == s;
      } else {
        assert r[j - 1] == s;
      }
    }
    forall s | s in r
      ensures s.id != rows[i].id
    {
      var j :| 0 <= j < |r| && r[j] == s;
      if j >= i {
        assert s == rows[j + 1];
      }
    }
    forall a, b | 0 <= a < b < |r|
      ensures r[a].id != r[b].id
    {
      var a' := if a < i then a else a + 1;
      var b' := if b < i then b else b + 1;
      assert r[a] == rows[a'] && r[b] == rows[b'];
    }
  }

  /** POST /api/availability/slots: any caller inserts one or many slots for
      themself, all `available`, with no role check and no time validation. A missing
      or unparseable time violates the NOT NULL / date columns and the whole insert
      fails. */
  method CreateMany(t: SlotTable, caller: Id, items: seq<SlotInput>) returns (res: Result<seq<Slot>>)
    requires t.Valid()
    modifies t
    ensures t.Valid()
    ensures res.Err? <==> exists k :: 0 <= k < |items| && !(items[k].start.At? && items[k].end.At?)
    ensures res.Err? ==> res.error == ServerError && t.rows == old(t.rows) && t.nextId == old(t.nextId)
    ensures res.Ok? ==>
      && |res.value| == |items|
      && (forall k :: 0 <= k < |items| ==>
            res.value[k] == Slot(old(t.nextId) + k, caller, items[k].start.t, items[k].end.t, Available))
      && t.rows == old(t.rows) + res.value
      && t.nextId == old(t.nextId) + |items|
  {
    var created: seq<Slot> := [];
    for i := 0 to |items|
      invariant |created| == i
      invariant forall k :: 0 <= k < i ==> items[k].start.At? && items[k].end.At?
      invariant forall k :: 0 <= k < i ==>
        created[k] == Slot(t.nextId + k, caller, items[k].start.t, items[k].end.t, Available)
    {
      if !(items[i].start.At? && items[i].end.At?) {
        return Err(ServerError);
      }
      created := created + [Slot(t.nextId + i, caller, items[i].start.t, items[i].end.t, Available)];
    }
    t.rows := t.rows + created;
    t.nextId := t.nextId + |items|;
    return Ok(created);
  }
}

=== FILE: chat.dfy ===
/** The chat routes (src/routes/chat.js): the conversation list (latest message per
    counterpart, newest first), the history between two users (oldest first), and
    the HTTP send, which stores the trimmed text and notifies both rooms. */
module Chat {
  import opened Schema
  import opened Seqs
  import opened Text
  import opened Realtime

  predicate Involves(m: Message, me: Id) {
    m.sender == me || m.receiver == me
  }

  /** `m.sender_id === me ? m.receiver_id : m.sender_id`. */
  function Counterpart(m: Message, me: Id): Id {
    if m.sender == me then m.receiver else m.sender
  }

  function CreatedAt(m: Message): real {
    m.createdAt as real
  }

  /** `Message.findAll({ where: sender = me OR receiver = me, order: createdAt DESC })`;
      rows with equal timestamps keep table order. */
  function Mine(msgs: seq<Message>, me: Id): (r: seq<Message>)
    ensures forall m :: m in r <==> m in msgs && Involves(m, me)
    ensures SortedDesc(r, CreatedAt)
  {
    var mine := Filter(msgs, (m: Message) => Involves(m, me));
    var r := SortDesc(mine, CreatedAt);
    SameMembers(r, mine);
    r
  }

  /** The `byOther` map and its key order (a `Map` iterates in insertion order). */
  datatype Grouping = Grouping(keys: seq<Id>, last: map<Id, Message>)

  /** The `byOther` loop: the first message seen for each counterpart is kept. */
  function Group(ordered: seq<Message>, me: Id): Grouping {
    if ordered == [] then Grouping([], map[])
    else
      var g := Group(ordered[..|ordered| - 1], me);
      var m := ordered[|ordered| - 1];
      var other := Counterpart(m, me);
      if other in g.last then g else Grouping(g.keys + [other], g.last[other := m])
  }

  lemma GroupSnoc(ordered: seq<Message>, i: nat, me: Id)
    requires i < |ordered|
    ensures Group(ordered[..i + 1], me) ==
      var g := Group(ordered[..i], me);
      var other := Counterpart(ordered[i], me);
      if other in g.last then g else Grouping(g.keys + [other], g.last[other := ordered[i]])
  {
    assert ordered[..i + 1][..i] == ordered[..i];
  }

  /** The keys list each counterpart once, and exactly the counterparts kept. */
  lemma {:induction false} GroupKeys(ordered: seq<Message>, me: Id)
    ensures Distinct(Group(ordered, me).keys)
    ensures forall k :: k in Group(ordered, me).keys <==> k in Group(ordered, me).last
  {
    if ordered != [] {
      GroupKeys(ordered[..|ordered| - 1], me);
    }
  }

  /** The counterparts kept are exactly the counterparts of the messages. */
  lemma {:induction false} GroupDomain(ordered: seq<Message>, me: Id, k: Id)
    ensures k in Group(ordered, me).last <==> exists i :: 0 <= i < |ordered| && Counterpart(ordered[i], me) == k
  {
    if ordered != [] {
      var n := |ordered| - 1;
      var p := ordered[..n];
      GroupDomain(p, me, k);
      if exists i :: 0 <= i < |ordered| && Counterpart(ordered[i], me) == k {
        var i :| 0 <= i < |ordered| && Counterpart(ordered[i], me) == k;
        if i < n {
          assert Counterpart(p[i], me) == k;
        }
      }
      if k in Group(p, me).last {
        var i :| 0 <= i < |p| && Counterpart(p[i], me) == k;
        assert Counterpart(ordered[i], me) == k;
      }
    }
  }

  /** Each counterpart's kept message is the first message with that counterpart. */
  lemma {:induction false} GroupFirst(ordered: seq<Message>, me: Id, k: Id)
    requires k in Group(ordered, me).last
    ensures exists i ::
      && 0 <= i < |ordered|
      && ordered[i] == Group(ordered, me).last[k]
      && Counterpart(ordered[i], me) == k
      && forall j :: 0 <= j < i ==> Counterpart(ordered[j], me) != k
  {
    var n := |ordered| - 1;
    var p := ordered[..n];
    var g := Group(p, me);
    if k in g.last {
      GroupFirst(p, me, k);
      var i :| && 0 <= i < |p| && p[i] == g.last[k] && Counterpart(p[i], me) == k
               && forall j :: 0 <= j < i ==> Counterpart(p[j], me) != k;
      assert ordered[i] == p[i];
    } else {
      GroupDomain(p, me, k);
      assert forall j :: 0 <= j < n ==> Counterpart(ordered[j], me) != k by {
        forall j | 0 <= j < n
          ensures Counterpart(ordered[j], me) != k
        {
          assert Counterpart(p[j], me) != k;
        }
      }
    }
  }

  /** In createdAt-descending order the first message per counterpart is its newest. */
  lemma KeptIsNewest(ordered: seq<Message>, me: Id, k: Id, m: Message)
    requires SortedDesc(ordered, CreatedAt)
    requires k in Group(ordered, me).last
    requires m in ordered && Counterpart(m, me) == k
    ensures m.createdAt <= Group(ordered, me).last[k].createdAt
  {
    GroupFirst(ordered, me, k);
    var i :| && 0 <= i < |ordered| && ordered[i] == Group(ordered, me).last[k]
             && Counterpart(ordered[i], me) == k
             && forall j :: 0 <= j < i ==> Counterpart(ordered[j], me) != k;
    var j :| 0 <= j < |ordered| && ordered[j] == m;
    assert CreatedAt(ordered[i]) >= CreatedAt(ordered[j]);
  }

  /** One element of the `/conversations` answer. */
  datatype Conversation = Conversation(otherId: Id, name: string, avatar: Option<string>, role: string, lastMessage: string, lastAt: int)

  function LastAt(c: Conversation): real {
    c.lastAt as real
  }

  /** `u?.name || u?.email || "User"`, `u?.avatar || null` and `u?.role || "mentee"`. */
  function Entry(other: Id, last: Message, users: map<Id, UserRow>): (c: Conversation)
    ensures c.otherId == other && c.lastMessage == last.text && c.lastAt == last.createdAt
    ensures c.avatar.Some? <==> other in users && users[other].avatar != ""
    ensures c.avatar.Some? ==> c.avatar.value == users[other].avatar
    ensures other in users && users[other].name != "" ==> c.name == users[other].name
    ensures other in users && users[other].name == "" && users[other].email != "" ==> c.name == users[other].email
    ensures other !in users || users[other].name == users[other].email == "" ==> c.name == "User"
    ensures other in users && users[other].role != "" ==> c.role == users[other].role
    ensures other !in users || users[other].role == "" ==> c.role == "mentee"
  {
    var name := if other in users && users[other].name != "" then users[other].name
                else if other in users && users[other].email != "" then users[other].email
                else "User";
    var role := if other in users && users[other].role != "" then users[other].role else "mentee";
    Conversation(other, name, AvatarOf(users, other), role, last.text, last.createdAt)
  }

  /** `otherIds.map(...)`. */
  function Entries(keys: seq<Id>, last: map<Id, Message>, users: map<Id, UserRow>): (r: seq<Conversation>)
    requires forall k :: k in keys ==> k in last
    ensures |r| == |keys|
    ensures forall i :: 0 <= i < |r| ==> r[i] == Entry(keys[i], last[keys[i]], users)
  {
    if keys == [] then []
    else Entries(keys[..|keys| - 1], last, users) + [Entry(keys[|keys| - 1], last[keys[|keys| - 1]], users)]
  }

  /** GET /api/chat/conversations. */
  function ConversationsSpec(msgs: seq<Message>, users: map<Id, UserRow>, me: Id): seq<Conversation> {
    var g := Group(Mine(msgs, me), me);
    GroupKeys(Mine(msgs, me), me);
    SortDesc(Entries(g.keys, g.last, users), LastAt)
  }

  method Conversations(msgs: seq<Message>, users: map<Id, UserRow>, me: Id) returns (result: seq<Conversation>)
    ensures result == ConversationsSpec(msgs, users, me)
  {
    var ordered := Mine(msgs, me);
    var keys: seq<Id> := [];
    var byOther: map<Id, Message> := map[];
    for i := 0 to |ordered|
      invariant Grouping(keys, byOther) == Group(ordered[..i], me)
    {
      GroupSnoc(ordered, i, me);
      var m := ordered[i];
      var other := if m.sender == me then m.receiver else m.sender;
      if other !in byOther {
        byOther := byOther[other := m];
        keys := keys + [other];
      }
    }
    assert ordered[..|ordered|] == ordered;
    if |keys| == 0 {
      return [];
    }
    GroupKeys(ordered, me);
    result := SortDesc(Entries(keys, byOther, users), LastAt);
  }

  /** The list is newest-first, and empty when `me` has no message. */
  lemma ConversationsSorted(msgs: seq<Message>, users: map<Id, UserRow>, me: Id)
    ensures SortedDesc(ConversationsSpec(msgs, users, me), LastAt)
    ensures (forall x :: x in msgs ==> !Involves(x, me)) ==> ConversationsSpec(msgs, users, me) == []
  {
    var ordered := Mine(msgs, me);
    if ordered != [] {
      assert ordered[0] in ordered;
    }
  }

  /** An entry of the mapped list is the entry of one of the keys. */
  lemma EntriesMember(keys: seq<Id>, last: map<Id, Message>, users: map<Id, UserRow>, c: Conversation)
    requires forall k :: k in keys ==> k in last
    requires c in Entries(keys, last, users)
    ensures c.otherId in keys && c == Entry(c.otherId, last[c.otherId], users)
  {
    var i :| 0 <= i < |keys| && Entries(keys, last, users)[i] == c;
  }

  predicate DistinctIds(cs: seq<Conversation>) {
    forall i, j :: 0 <= i < j < |cs| ==> cs[i].otherId != cs[j].otherId
  }

  /** Sorting keeps the counterparts distinct. */
  lemma DistinctIdsPermutation(a: seq<Conversation>, b: seq<Conversation>)
    requires DistinctIds(a) && multiset(a) == multiset(b)
    ensures DistinctIds(b)
  {
    PermutationKeepsDistinct(a, b);
    SameMembers(a, b);
    forall i, j | 0 <= i < j < |b|
      ensures b[i].otherId != b[j].otherId
    {
      assert b[i] in b && b[j] in b;
      var x :| 0 <= x < |a| && a[x] == b[i];
      var y :| 0 <= y < |a| && a[y] == b[j];
      assert x != y;
    }
  }

  /** Each conversation carries the text and time of a message between `me` and its
      counterpart, and no message with that counterpart is newer. */
  lemma ConversationsNewest(msgs: seq<Message>, users: map<Id, UserRow>, me: Id, c: Conversation)
    requires c in ConversationsSpec(msgs, users, me)
    ensures exists last ::
      && last in msgs && Involves(last, me) && Counterpart(last, me) == c.otherId
      && c.lastMessage == last.text && c.lastAt == last.createdAt
    ensures forall m :: m in msgs && Involves(m, me) && Counterpart(m, me) == c.otherId ==> m.createdAt <= c.lastAt
  {
    var ordered := Mine(msgs, me);
    GroupKeys(ordered, me);
    var g := Group(ordered, me);
    var entries := Entries(g.keys, g.last, users);
    SameMembers(SortDesc(entries, LastAt), entries);
    EntriesMember(g.keys, g.last, users, c);
    var k := c.otherId;
    GroupFirst(ordered, me, k);
    var e :| 0 <= e < |ordered| && ordered[e] == g.last[k] && Counterpart(ordered[e], me) == k;
    assert ordered[e] in ordered;
    forall m | m in msgs && Involves(m, me) && Counterpart(m, me) == k
      ensures m.createdAt <= c.lastAt
    {
      KeptIsNewest(ordered, me, k, m);
    }
  }

  /** Every user `me` exchanged a message with has a conversation. */
  lemma ConversationsComplete(msgs: seq<Message>, users: map<Id, UserRow>, me: Id, m: Message)
    requires m in msgs && Involves(m, me)
    ensures exists c :: c in ConversationsSpec(msgs, users, me) && c.otherId == Counterpart(m, me)
  {
    var ordered := Mine(msgs, me);
    GroupKeys(ordered, me);
    var g := Group(ordered, me);
    var entries := Entries(g.keys, g.last, users);
    SameMembers(SortDesc(entries, LastAt), entries);
    var k := Counterpart(m, me);
    var j :| 0 <= j < |ordered| && ordered[j] == m;
    GroupDomain(ordered, me, k);
    var i :| 0 <= i < |g.keys| && g.keys[i] == k;
    assert entries[i] in entries;
  }

  /** No two conversations share a counterpart. */
  lemma ConversationsDistinct(msgs: seq<Message>, users: map<Id, UserRow>, me: Id)
    ensures DistinctIds(ConversationsSpec(msgs, users, me))
  {
    var ordered := Mine(msgs, me);
    GroupKeys(ordered, me);
    var g := Group(ordered, me);
    var entries := Entries(g.keys, g.last, users);
    assert DistinctIds(entries) by {
      forall i, j | 0 <= i < j < |entries|
        ensures entries[i].otherId != entries[j].otherId
      {
        assert entries[i].otherId == g.keys[i];
      }
    }
    DistinctIdsPermutation(entries, SortDesc(entries, LastAt));
  }

  // ----- history -----

  predicate Between(m: Message, a: Id, b: Id) {
    (m.sender == a && m.receiver == b) || (m.sender == b && m.receiver == a)
  }

  /** Ascending time as a descending sort on the negated time. */
  function Earliness(m: Message): real {
    -(m.createdAt as real)
  }

  function BetweenPred(a: Id, b: Id): Message -> bool {
    m => Between(m, a, b)
  }

  /** Descending earliness is ascending time. */
  lemma OldestFirst(r: seq<Message>)
    requires SortedDesc(r, Earliness)
    ensures forall i, j :: 0 <= i < j < |r| ==> r[i].createdAt <= r[j].createdAt
  {
    forall i, j | 0 <= i < j < |r|
      ensures r[i].createdAt <= r[j].createdAt
    {
      assert Earliness(r[i]) >= Earliness(r[j]);
    }
  }

  /** GET /api/chat/history/:otherId: the messages between the two users in either
      direction, oldest first. */
  function History(msgs: seq<Message>, me: Id, other: Id): (r: seq<Message>)
    ensures forall m :: m in r <==> m in msgs && Between(m, me, other)
    ensures forall i, j :: 0 <= i < j < |r| ==> r[i].createdAt <= r[j].createdAt
    ensures multiset(r) == multiset(Filter(msgs, BetweenPred(me, other)))
  {
    var between := Filter(msgs, BetweenPred(me, other));
    var r := SortDesc(between, Earliness);
    SameMembers(r, between);
    OldestFirst(r);
    r
  }

  /** Both parties see the same messages. */
  lemma HistorySymmetric(msgs: seq<Message>, a: Id, b: Id)
    ensures forall m :: m in History(msgs, a, b) <==> m in History(msgs, b, a)
  {
  }

  // ----- send -----

  /** The `receive_message` to the receiver's room and the `message_sent` to the
      sender's room of the HTTP send. */
  function HttpSendEvents(m: Message): seq<Event> {
    [Event(m.receiver, ReceiveMessage, MessagePayload(m)), Event(m.sender, MessageSent, MessagePayload(m))]
  }

  /** POST /api/chat/send by `caller`. A missing receiver or a text that is empty once
      trimmed is 400 and stores nothing; otherwise the trimmed text is stored and, when
      the socket server is attached (`io`), both rooms are notified. */
  method Send(hub: Hub, caller: Id, receiver: Id, text: string, io: bool, now: int) returns (res: Result<Message>)
    requires hub.Valid()
    modifies hub
    ensures hub.Valid()
    ensures res.Err? <==> receiver == "" || Trim(text) == ""
    ensures res.Err? ==>
      && res.error == BadRequest
      && hub.messages == old(hub.messages) && hub.nextId == old(hub.nextId) && hub.events == old(hub.events)
    ensures res.Ok? ==>
      && res.value == Message(old(hub.nextId), caller, receiver, Trim(text), None, now)
      && hub.messages == old(hub.messages) + [res.value]
      && hub.nextId == old(hub.nextId) + 1
      && hub.events == old(hub.events) + (if io then HttpSendEvents(res.value) else [])
    ensures hub.rooms == old(hub.rooms)
  {
    var clean := Trim(text);
    if receiver == "" || clean == "" {
      return Err(BadRequest);
    }
    var m := hub.Store(caller, receiver, clean, now);
    if io {
      hub.events := hub.events + HttpSendEvents(m);
    }
    return Ok(m);
  }

  /** The stored text of an HTTP send has no surrounding white space, unlike the
      socket send, which stores the text as given. */
  lemma HttpSendStoresTrimmed(text: string)
    requires Trim(text) != ""
    ensures Trimmed(Trim(text))
    ensures Trim(Trim(text)) == Trim(text)
  {
    TrimIsTrimmed(text);
    TrimIdempotent(text);
  }
}

=== FILE: chatlist.dfy ===
/** The older chat list (src/routes/chatList.js): walks the whole Messages table in
    table order, keeping per counterpart of `user` the last message seen, and
    answers one entry per counterpart in first-insertion order (the iteration order
    of a plain object whose keys are UUIDs). */
module ChatList {
  import opened Schema
  import opened Seqs
  import Chat

  /** The `chats` object: its keys in insertion order and its values. */
  datatype Chats = Chats(keys: seq<Id>, last: map<Id, Message>)

  /** `chats[k] = m`: a new key goes to the end, an existing key keeps its place. */
  function Put(c: Chats, k: Id, m: Message): Chats {
    if k in c.last then Chats(c.keys, c.last[k := m]) else Chats(c.keys + [k], c.last[k := m])
  }

  /** One iteration of the loop: both `if`s, in order. */
  function Step(c: Chats, m: Message, user: Id): Chats {
    var c1 := if m.sender == user then Put(c, m.receiver, m) else c;
    if m.receiver == user then Put(c1, m.sender, m) else c1
  }

  function Fold(msgs: seq<Message>, user: Id): Chats {
    if msgs == [] then Chats([], map[])
    else Step(Fold(msgs[..|msgs| - 1], user), msgs[|msgs| - 1], user)
  }

  /** The two `if`s amount to one write: a message involving `user` is stored under
      its counterpart, any other message is ignored. */
  lemma StepIsPut(c: Chats, m: Message, user: Id)
    ensures Step(c, m, user) == if Chat.Involves(m, user) then Put(c, Chat.Counterpart(m, user), m) else c
  {
    if m.sender == user && m.receiver == user {
      assert Put(Put(c, user, m), user, m) == Put(c, user, m);
    }
  }

  /** The keys are distinct and are exactly the keys with a value. */
  lemma {:induction false} FoldKeys(msgs: seq<Message>, user: Id)
    ensures Distinct(Fold(msgs, user).keys)
    ensures forall k :: k in Fold(msgs, user).keys <==> k in Fold(msgs, user).last
  {
    if msgs != [] {
      var n := |msgs| - 1;
      FoldKeys(msgs[..n], user);
      StepIsPut(Fold(msgs[..n], user), msgs[n], user);
    }
  }

  /** Only messages that involve `user` contribute, and each of their counterparts
      gets an entry. */
  lemma {:induction false} FoldDomain(msgs: seq<Message>, user: Id, k: Id)
    ensures k in Fold(msgs, user).last <==>
      exists i :: 0 <= i < |msgs| && Chat.Involves(msgs[i], user) && Chat.Counterpart(msgs[i], user) == k
  {
    if msgs != [] {
      var n := |msgs| - 1;
      var p := msgs[..n];
      FoldDomain(p, user, k);
      StepIsPut(Fold(p, user), msgs[n], user);
      if exists i :: 0 <= i < |msgs| && Chat.Involves(msgs[i], user) && Chat.Counterpart(msgs[i], user) == k {
        var i :| 0 <= i < |msgs| && Chat.Involves(msgs[i], user) && Chat.Counterpart(msgs[i], user) == k;
        if i < n {
          assert p[i] == msgs[i];
        }
      }
      if k in Fold(p, user).last {
        var i :| 0 <= i < |p| && Chat.Involves(p[i], user) && Chat.Counterpart(p[i], user) == k;
        assert msgs[i] == p[i];
      }
    }
  }

  /** Last wins: the value kept for a counterpart is the last message of the table
      that involves `user` and has that counterpart. */
  lemma {:induction false} FoldLastWins(msgs: seq<Message>, user: Id, k: Id)
    requires k in Fold(msgs, user).last
    ensures exists i ::
      && 0 <= i < |msgs|
      && msgs[i] == Fold(msgs, user).last[k]
      && Chat.Involves(msgs[i], user) && Chat.Counterpart(msgs[i], user) == k
      && forall j :: i < j < |msgs| ==> !(Chat.Involves(msgs[j], user) && Chat.Counterpart(msgs[j], user) == k)
  {
    var n := |msgs| - 1;
    var p := msgs[..n];
    StepIsPut(Fold(p, user), msgs[n], user);
    if Chat.Involves(msgs[n], user) && Chat.Counterpart(msgs[n], user) == k {
      assert msgs[n] == Fold(msgs, user).last[k];
    } else {
      FoldLastWins(p, user, k);
      var i :| && 0 <= i < |p| && p[i] == Fold(p, user).last[k]
               && Chat.Involves(p[i], user) && Chat.Counterpart(p[i], user) == k
               && forall j :: i < j < |p| ==> !(Chat.Involves(p[j], user) && Chat.Counterpart(p[j], user) == k);
      LastStaysLast(p, msgs, user, k, i);
    }
  }

  /** A last hit of the prefix stays the last hit when the final message misses. */
  lemma LastStaysLast(p: seq<Message>, msgs: seq<Message>, user: Id, k: Id, i: nat)
    requires |msgs| == |p| + 1 && p == msgs[..|p|] && 0 <= i < |p|
    requires !(Chat.Involves(msgs[|p|], user) && Chat.Counterpart(msgs[|p|], user) == k)
    requires forall j :: i < j < |p| ==> !(Chat.Involves(p[j], user) && Chat.Counterpart(p[j], user) == k)
    ensures forall j :: i < j < |msgs| ==> !(Chat.Involves(msgs[j], user) && Chat.Counterpart(msgs[j], user) == k)
  {
    forall j | i < j < |p|
      ensures msgs[j] == p[j]
    {
    }
  }

  lemma FoldSnoc(msgs: seq<Message>, i: nat, user: Id)
    requires i < |msgs|
    ensures Fold(msgs[..i + 1], user) == Step(Fold(msgs[..i], user), msgs[i], user)
  {
    assert msgs[..i + 1][..i] == msgs[..i];
  }

  /** The loop over the table, writing into `chats` as the handler does. */
  method LatestPerCounterpart(msgs: seq<Message>, user: Id) returns (keys: seq<Id>, chats: map<Id, Message>)
    ensures Chats(keys, chats) == Fold(msgs, user)
  {
    keys := [];
    chats := map[];
    for i := 0 to |msgs|
      invariant Chats(keys, chats) == Fold(msgs[..i], user)
    {
      FoldSnoc(msgs, i, user);
      var m := msgs[i];
      if m.sender == user {
        if m.receiver !in chats {
          keys := keys + [m.receiver];
        }
        chats := chats[m.receiver := m];
      }
      if m.receiver == user {
        if m.sender !in chats {
          keys := keys + [m.sender];
        }
        chats := chats[m.sender := m];
      }
    }
    assert msgs[..|msgs|] == msgs;
  }

  /** One element of the answer; `lastMessage == None` is a property JSON omits. */
  datatype ChatEntry = ChatEntry(otherId: Id, fullName: string, lastMessage: Option<string>)

  /** `user?.full_name || user?.email || "User"`. The Users table has no `full_name`
      column, so the first alternative is always undefined. */
  function ChatName(other: Id, users: map<Id, UserRow>): string {
    if other in users && users[other].email != "" then users[other].email else "User"
  }

  /** The entry as written: `last_message: msg.message`, a property Message rows do
      not have, so it is always undefined. */
  function EntryAsWritten(other: Id, m: Message, users: map<Id, UserRow>): ChatEntry {
    ChatEntry(other, ChatName(other, users), None)
  }

  /** The entry with the last message's text, as the field name promises. */
  function EntryOf(other: Id, m: Message, users: map<Id, UserRow>): ChatEntry {
    ChatEntry(other, ChatName(other, users), Some(m.text))
  }

  function EntriesAsWritten(keys: seq<Id>, chats: map<Id, Message>, users: map<Id, UserRow>): (r: seq<ChatEntry>)
    requires forall k :: k in keys ==> k in chats
    ensures |r| == |keys|
    ensures forall i :: 0 <= i < |r| ==> r[i] == EntryAsWritten(keys[i], chats[keys[i]], users)
  {
    if keys == [] then []
    else EntriesAsWritten(keys[..|keys| - 1], chats, users) + [EntryAsWritten(keys[|keys| - 1], chats[keys[|keys| - 1]], users)]
  }

  function EntriesOf(keys: seq<Id>, chats: map<Id, Message>, users: map<Id, UserRow>): (r: seq<ChatEntry>)
    requires forall k :: k in keys ==> k in chats
    ensures |r| == |keys|
    ensures forall i :: 0 <= i < |r| ==> r[i] == EntryOf(keys[i], chats[keys[i]], users)
  {
    if keys == [] then []
    else EntriesOf(keys[..|keys| - 1], chats, users) + [EntryOf(keys[|keys| - 1], chats[keys[|keys| - 1]], users)]
  }

  /** GET /list/:user_id as written. */
  function ListAsWritten(msgs: seq<Message>, users: map<Id, UserRow>, user: Id): seq<ChatEntry> {
    FoldKeys(msgs, user);
    EntriesAsWritten(Fold(msgs, user).keys, Fold(msgs, user).last, users)
  }

  /** GET /list/:user_id with `last_message` read from the message text. */
  function List(msgs: seq<Message>, users: map<Id, UserRow>, user: Id): seq<ChatEntry> {
    FoldKeys(msgs, user);
    EntriesOf(Fold(msgs, user).keys, Fold(msgs, user).last, users)
  }

  method ChatListHandler(msgs: seq<Message>, users: map<Id, UserRow>, user: Id) returns (response: seq<ChatEntry>)
    ensures response == List(msgs, users, user)
  {
    var keys, chats := LatestPerCounterpart(msgs, user);
    FoldKeys(msgs, user);
    response := EntriesOf(keys, chats, users);
  }

  /** As written, no entry ever carries a last message, whatever the table holds. */
  lemma AsWrittenDropsText(msgs: seq<Message>, users: map<Id, UserRow>, user: Id)
    ensures forall e :: e in ListAsWritten(msgs, users, user) ==> e.lastMessage == None
  {
  }

  /** The smallest case: one message "hi" from "a" to "b" is listed for "b" without
      its text. */
  lemma AsWrittenExample()
    ensures ListAsWritten([Message(0, "a", "b", "hi", None, 0)], map[], "b") == [ChatEntry("a", "User", None)]
    ensures List([Message(0, "a", "b", "hi", None, 0)], map[], "b") == [ChatEntry("a", "User", Some("hi"))]
  {
    var m := Message(0, "a", "b", "hi", None, 0);
    assert [m][..0] == [];
    assert Fold([m], "b") == Chats(["a"], map["a" := m]);
  }

  /** One entry per counterpart, exactly the users `user` exchanged a message with,
      each carrying the text of the last such message in table order. */
  lemma ListFacts(msgs: seq<Message>, users: map<Id, UserRow>, user: Id, e: ChatEntry)
    ensures forall i, j :: 0 <= i < j < |List(msgs, users, user)| ==>
      List(msgs, users, user)[i].otherId != List(msgs, users, user)[j].otherId
    ensures e in List(msgs, users, user) ==>
      exists i ::
        && 0 <= i < |msgs|
        && Chat.Involves(msgs[i], user) && Chat.Counterpart(msgs[i], user) == e.otherId
        && e.lastMessage == Some(msgs[i].text)
        && forall j :: i < j < |msgs| ==> !(Chat.Involves(msgs[j], user) && Chat.Counterpart(msgs[j], user) == e.otherId)
  {
    FoldKeys(msgs, user);
    var c := Fold(msgs, user);
    var r := List(msgs, users, user);
    forall i, j | 0 <= i < j < |r|
      ensures r[i].otherId != r[j].otherId
    {
      assert r[i].otherId == c.keys[i] && r[j].otherId == c.keys[j];
    }
    if e in r {
      var x :| 0 <= x < |r| && r[x] == e;
      FoldLastWins(msgs, user, c.keys[x]);
    }
  }

  /** Every counterpart of `user` is listed. */
  lemma ListComplete(msgs: seq<Message>, users: map<Id, UserRow>, user: Id, i: nat)
    requires i < |msgs| && Chat.Involves(msgs[i], user)
    ensures exists e :: e in List(msgs, users, user) && e.otherId == Chat.Counterpart(msgs[i], user)
  {
    FoldKeys(msgs, user);
    var c := Fold(msgs, user);
    FoldDomain(msgs, user, Chat.Counterpart(msgs[i], user));
    var x :| 0 <= x < |c.keys| && c.keys[x] == Chat.Counterpart(msgs[i], user);
    assert List(msgs, users, user)[x] in List(msgs, users, user);
  }
}

=== FILE: dashboard.dfy ===
/** The mentor's request dashboard (src/routes/dashboard.js): counters, the list of
    mentorship requests sent to the mentor, and accepting or declining one. */
module Dashboard {
  import opened Schema
  import opened Seqs

  /** The three counters of GET /stats. */
  datatype Stats = Stats(sessions: nat, requests: nat, mentees: nat)

  /** GET /stats for `mentor`: sessions they hold, requests still pending for them,
      and mentorships they are in. */
  function MentorStats(sessions: seq<Session>, requests: seq<Request>, mentorships: seq<Mentorship>, mentor: Id)
    : (r: Stats)
    ensures r.sessions == |set i | 0 <= i < |sessions| && sessions[i].mentor == mentor|
    ensures r.requests == |set i | 0 <= i < |requests| && PendingFor(requests[i], mentor)|
    ensures r.mentees == |set i | 0 <= i < |mentorships| && mentorships[i].mentor == mentor|
  {
    var sp := (s: Session) => s.mentor == mentor;
    var mp := (m: Mentorship) => m.mentor == mentor;
    CountIsPositions(sessions, sp);
    CountIsPositions(requests, PendingPred(mentor));
    CountIsPositions(mentorships, mp);
    assert Positions(sessions, sp) == set i | 0 <= i < |sessions| && sessions[i].mentor == mentor;
    assert Positions(requests, PendingPred(mentor)) == set i | 0 <= i < |requests| && PendingFor(requests[i], mentor);
    assert Positions(mentorships, mp) == set i | 0 <= i < |mentorships| && mentorships[i].mentor == mentor;
    Stats(Count(sessions, sp), Count(requests, PendingPred(mentor)), Count(mentorships, mp))
  }

  predicate PendingFor(r: Request, mentor: Id) {
    r.mentor == mentor && r.status == RequestPending
  }

  function PendingPred(mentor: Id): Request -> bool {
    r => PendingFor(r, mentor)
  }

  /** The `status` column's enum, read from a query string. */
  function ParseStatus(s: string): (r: Option<RequestStatus>)
    ensures r == Some(RequestPending) <==> s == "pending"
    ensures r == Some(RequestAccepted) <==> s == "accepted"
    ensures r == Some(RequestDeclined) <==> s == "declined"
  {
    if s == "pending" then Some(RequestPending)
    else if s == "accepted" then Some(RequestAccepted)
    else if s == "declined" then Some(RequestDeclined)
    else None
  }

  function CreatedAt(r: Request): real {
    r.createdAt as real
  }

  /** The requests addressed to mentor `caller`, narrowed to one status when the
      query names one, in table order. */
  function Incoming(rows: seq<Request>, caller: Id, status: string): seq<Request> {
    Filter(rows, (x: Request) => x.mentor == caller && (status == "" || Some(x.status) == ParseStatus(status)))
  }

  /** GET /mine?status=…: the requests sent to `caller`, narrowed to one status when
      the query names one, newest first. A status outside the enum makes the query
      fail (500). */
  function Mine(rows: seq<Request>, caller: Id, status: string): (r: Result<seq<Request>>)
    ensures r.Err? <==> status != "" && ParseStatus(status).None?
    ensures r.Err? ==> r.error == ServerError
    ensures r.Ok? ==> forall x :: x in r.value <==>
      x in rows && x.mentor == caller && (status == "" || Some(x.status) == ParseStatus(status))
    ensures r.Ok? ==> forall i, j :: 0 <= i < j < |r.value| ==> r.value[i].createdAt >= r.value[j].createdAt
    ensures r.Ok? ==> multiset(r.value) == multiset(Incoming(rows, caller, status))
  {
    if status != "" && ParseStatus(status).None? then Err(ServerError)
    else
      var keep := Incoming(rows, caller, status);
      var sorted := SortDesc(keep, CreatedAt);
      SameMembers(sorted, keep);
      assert forall i, j :: 0 <= i < j < |sorted| ==> CreatedAt(sorted[i]) >= CreatedAt(sorted[j]);
      Ok(sorted)
  }

  /** `Request.findOne({ where: { id, mentor_id } })`: the first row with that id
      addressed to that mentor. */
  function FindRequest(rows: seq<Request>, id: nat, mentor: Id): (r: Option<nat>)
    ensures r.Some? ==> r.value < |rows| && rows[r.value].id == id && rows[r.value].mentor == mentor
    ensures r.None? <==> forall i :: 0 <= i < |rows| ==> !(rows[i].id == id && rows[i].mentor == mentor)
  {
    if rows == [] then None
    else if rows[0].id == id && rows[0].mentor == mentor then Some(0)
    else
      var r := FindRequest(rows[1..], id, mentor);
      if r.Some? then Some(r.value + 1) else None
  }

  /** The status an action leads to. */
  function ActionStatus(action: string): (r: Option<RequestStatus>)
    ensures r.Some? <==> action == "accept" || action == "decline"
    ensures r == Some(RequestAccepted) <==> action == "accept"
    ensures r == Some(RequestDeclined) <==> action == "decline"
  {
    if action == "accept" then Some(RequestAccepted)
    else if action == "decline" then Some(RequestDeclined)
    else None
  }

  /** PATCH /:id/:action by `caller`. Only "accept" and "decline" are actions (400);
      a request with that id that is not addressed to the caller is as good as
      missing (404). Otherwise that one row takes the new status; nothing checks
      the old one. */
  method Patch(t: RequestTable, caller: Id, id: nat, action: string) returns (res: Result<Request>)
    modifies t
    ensures ActionStatus(action).None? ==> res == Err(BadRequest)
    ensures ActionStatus(action).Some? && FindRequest(old(t.rows), id, caller).None? ==> res == Err(NotFound)
    ensures res.Ok? <==> ActionStatus(action).Some? && FindRequest(old(t.rows), id, caller).Some?
    ensures res.Err? ==> t.rows == old(t.rows)
    ensures res.Ok? ==>
      var i := FindRequest(old(t.rows), id, caller).value;
      && res.value == old(t.rows)[i].(status := ActionStatus(action).value)
      && t.rows == old(t.rows)[i := res.value]
  {
    var next := ActionStatus(action);
    if next.None? {
      return Err(BadRequest);
    }
    var found := FindRequest(t.rows, id, caller);
    if found.None? {
      return Err(NotFound);
    }
    var i := found.value;
    var request := t.rows[i].(status := next.value);
    t.rows := t.rows[i := request];
    return Ok(request);
  }

  /** Answering a pending request takes exactly one off the mentor's pending
      counter; answering one that was already answered leaves it as it was. */
  lemma AnswerLowersPending(sessions: seq<Session>, rows: seq<Request>, mentorships: seq<Mentorship>,
                            caller: Id, i: nat, status: RequestStatus)
    requires i < |rows| && rows[i].mentor == caller && status != RequestPending
    ensures
      var before := MentorStats(sessions, rows, mentorships, caller);
      var after := MentorStats(sessions, rows[i := rows[i].(status := status)], mentorships, caller);
      && after.requests == before.requests - (if rows[i].status == RequestPending then 1 else 0)
      && after.sessions == before.sessions && after.mentees == before.mentees
  {
    CountUpdate(rows, i, rows[i].(status := status), PendingPred(caller));
  }

  /** A mentor's answer never moves another mentor's counters. */
  lemma AnswerKeepsOthersStats(sessions: seq<Session>, rows: seq<Request>, mentorships: seq<Mentorship>,
                               caller: Id, other: Id, i: nat, status: RequestStatus)
    requires i < |rows| && rows[i].mentor == caller && other != caller
    ensures MentorStats(sessions, rows[i := rows[i].(status := status)], mentorships, other)
         == MentorStats(sessions, rows, mentorships, other)
  {
    CountUpdate(rows, i, rows[i].(status := status), PendingPred(other));
  }

  /** After an accept, the request is listed under "accepted" and no longer under
      "pending". */
  lemma AcceptedListed(rows: seq<Request>, caller: Id, i: nat)
    requires i < |rows| && rows[i].mentor == caller
    ensures
      var after := rows[i := rows[i].(status := RequestAccepted)];
      && rows[i].(status := RequestAccepted) in Mine(after, caller, "accepted").value
      && rows[i].(status := RequestAccepted) !in Mine(after, caller, "pending").value
  {
    var after := rows[i := rows[i].(status := RequestAccepted)];
    assert after[i] in after;
    assert ParseStatus("accepted") == Some(RequestAccepted);
    assert ParseStatus("pending") == Some(RequestPending);
  }
}

=== FILE: match.dfy ===
/** The scoring half of the matcher (src/routes/match.js): tag sets parsed from
    comma-separated profile fields, their overlap counts, the expertise substring
    heuristic, and `scorePair`, which accumulates a weighted score together with an
    itemised list of reasons. Scores are exact reals rather than IEEE doubles. */
module Match {
  import opened Schema
  import opened Text
  import opened Seqs

  // ----- weights -----

  const W_HELP: real := 4.0
  const W_INTERESTS: real := 2.0
  const W_CATEGORIES: real := 3.0
  const W_EXPERTISE_HIT: real := 3.0
  const W_EXPERIENCE: real := 0.5
  const W_AVAILABILITY: real := 2.0
  const W_TIMEZONE: real := 1.0
  const W_PREFERRED_TIME: real := 1.0

  // ----- tag sets -----

  /** A token of a tag set: non-empty, trimmed and lower-case. */
  predicate IsToken(t: string) {
    t != [] && Trimmed(t) && IsLower(t)
  }

  /** A JavaScript `Set` of tokens, listed in insertion order. */
  predicate TokenSet(s: seq<string>) {
    Distinct(s) && forall t :: t in s ==> IsToken(t)
  }

  /** `s.trim().toLowerCase()`. */
  function Normalize(piece: string): (t: string)
    ensures t == [] || IsToken(t)
  {
    TrimIsTrimmed(piece);
    LowerKeepsTrimmed(Trim(piece));
    LowerIsLower(Trim(piece));
    Lower(Trim(piece))
  }

  function NormalizeAll(pieces: seq<string>): (r: seq<string>)
    ensures |r| == |pieces|
    ensures forall i :: 0 <= i < |pieces| ==> r[i] == Normalize(pieces[i])
  {
    seq(|pieces|, i requires 0 <= i < |pieces| => Normalize(pieces[i]))
  }

  /** `toSet(csv)`: split on commas, trim and lower-case each piece, drop the empty
      ones, de-duplicate keeping first occurrences. A missing field is `""`. */
  function ToSet(csv: string): (r: seq<string>)
    ensures TokenSet(r)
    ensures forall t :: t in r <==> t != "" && t in NormalizeAll(Split(csv))
  {
    var pieces := Filter(NormalizeAll(Split(csv)), NonBlank);
    PiecesAreTokens(NormalizeAll(Split(csv)), pieces);
    Dedup(pieces)
  }

  predicate NonBlank(t: string) {
    t != ""
  }

  lemma PiecesAreTokens(ns: seq<string>, pieces: seq<string>)
    requires forall t :: t in ns ==> t == [] || IsToken(t)
    requires pieces == Filter(ns, NonBlank)
    ensures forall t :: t in pieces ==> IsToken(t)
  {
  }

  /** A missing or empty field gives the empty set. */
  lemma ToSetOfEmpty()
    ensures ToSet("") == []
  {
    assert Split("") == [""];
    assert Normalize("") == "";
    assert NormalizeAll([""]) == [""];
    assert Filter([""], NonBlank) == Filter([], NonBlank) + [];
  }

  lemma SubsetCardinality(a: set<string>, b: set<string>)
    requires a <= b
    ensures |a| <= |b|
  {
    assert b == a + (b - a);
  }

  /** The elements two tag sets share. */
  function Common(a: seq<string>, b: seq<string>): set<string> {
    set x | x in a && x in b
  }

  /** `intersectCount(a, b)`: the size of the intersection of two sets. */
  function Overlap(a: seq<string>, b: seq<string>): nat {
    |Common(a, b)|
  }

  /** An intersection is no larger than either set, and does not depend on the
      order of its arguments. */
  lemma OverlapBounds(a: seq<string>, b: seq<string>)
    ensures Overlap(a, b) <= |a| && Overlap(a, b) <= |b|
    ensures Overlap(a, b) == Overlap(b, a)
    ensures a == [] || b == [] ==> Overlap(a, b) == 0
  {
    assert Common(a, b) == Common(b, a);
    SetCardinalityBound(a);
    SetCardinalityBound(b);
    SubsetCardinality(Common(a, b), set x | x in a);
    SubsetCardinality(Common(a, b), set x | x in b);
    if a == [] || b == [] {
      assert Common(a, b) == {};
    }
  }

  lemma CommonSnoc(a: seq<string>, x: string, b: seq<string>)
    requires x !in a
    ensures Overlap(a + [x], b) == Overlap(a, b) + (if x in b then 1 else 0)
  {
    if x in b {
      assert Common(a + [x], b) == Common(a, b) + {x};
    } else {
      assert Common(a + [x], b) == Common(a, b);
    }
  }

  /** `intersectCount`, walking `a` and counting the members also in `b`. */
  method IntersectCount(a: seq<string>, b: seq<string>) returns (c: nat)
    requires Distinct(a)
    ensures c == Overlap(a, b)
    ensures a == [] || b == [] ==> c == 0
    ensures c <= |a| && c <= |b|
    ensures c == Overlap(b, a)
  {
    OverlapBounds(a, b);
    if |a| == 0 || |b| == 0 {
      return 0;
    }
    c := 0;
    for i := 0 to |a|
      invariant c == Overlap(a[..i], b)
    {
      assert a[..i + 1] == a[..i] + [a[i]];
      CommonSnoc(a[..i], a[i], b);
      if a[i] in b {
        c := c + 1;
      }
    }
    assert a[..|a|] == a;
  }

  /** `containsAnyWord(hay, needles)`. */
  function ContainsAnyWord(hay: string, needles: seq<string>): (r: bool)
    ensures r <==> exists n :: n in needles && n != "" && Contains(Lower(hay), Lower(n))
  {
    if needles == [] then false
    else if needles[0] != "" && Contains(Lower(hay), Lower(needles[0])) then true
    else ContainsAnyWord(hay, needles[1..])
  }

  // ----- feature vectors -----

  /** The scoring-relevant part of `features(p, role)` with `id` attached. */
  datatype Features = Features(
    id: Id,
    expertise: seq<string>,
    skills: seq<string>,
    interests: seq<string>,
    help: seq<string>,
    categories: seq<string>,
    tz: string,
    prefTimes: seq<string>,
    expYears: int)

  predicate WellFormed(f: Features) {
    && TokenSet(f.expertise) && TokenSet(f.skills) && TokenSet(f.interests)
    && TokenSet(f.help) && TokenSet(f.categories) && TokenSet(f.prefTimes)
    && IsLower(f.tz)
  }

  /** `features(p, role)` followed by `f.id = id`. `experience_years` is an integer
      column, so `parseInt(x || 0) || 0` gives the stored value, or 0 when it is NULL. */
  function FeaturesOf(p: ProfileRow, id: Id): (f: Features)
    ensures WellFormed(f)
    ensures f.id == id
    ensures p.experienceYears.None? ==> f.expYears == 0
    ensures p.experienceYears.Some? ==> f.expYears == p.experienceYears.value
  {
    LowerIsLower(p.timezone);
    Features(
      id,
      ToSet(p.expertise),
      ToSet(p.skills),
      ToSet(p.interests),
      ToSet(p.helpAreas),
      ToSet(p.categories),
      Lower(p.timezone),
      ToSet(p.preferredTimes),
      match p.experienceYears case None => 0 case Some(y) => y)
  }

  // ----- reasons and scores -----

  datatype ReasonKind =
    | HelpVsSkills | InterestsVsSkills | CategoriesOverlap | ExpertiseExactHit
    | ExperienceYears | TimezoneMatch | PreferredTimeOverlap | AvailabilityAnyFuture

  /** The position of each kind in the order `scorePair` checks the signals. */
  function Rank(k: ReasonKind): nat {
    match k
    case HelpVsSkills => 0
    case InterestsVsSkills => 1
    case CategoriesOverlap => 2
    case ExpertiseExactHit => 3
    case ExperienceYears => 4
    case TimezoneMatch => 5
    case PreferredTimeOverlap => 6
    case AvailabilityAnyFuture => 7
  }

  /** One `{ k, v, w }` entry of the reasons list. */
  datatype Reason = Reason(k: ReasonKind, v: real, w: real)

  /** What a reason added to the score: `v * w`, except for the experience reason,
      whose `w` is the bonus itself and whose `v` is the number of years. */
  function Contribution(r: Reason): real {
    if r.k == ExperienceYears then r.w else r.v * r.w
  }

  function Total(rs: seq<Reason>): real {
    if rs == [] then 0.0 else Total(rs[..|rs| - 1]) + Contribution(rs[|rs| - 1])
  }

  /** `{ score: -Infinity, ... }` is the `Rejected` variant. */
  datatype ScoreResult =
    | Scored(score: real, reasons: seq<Reason>, hasAvail: bool)
    | Rejected(reasons: seq<Reason>)

  datatype Options = Options(requireAvailability: bool, checkAvailability: bool)

  /** `Math.round`: the nearest integer, halves rounded up. */
  function JsRound(x: real): int {
    (x + 0.5).Floor
  }

  /** The experience bonus, `Math.round((years / 4) * (0.5 * 2)) / 2`. */
  function ExperienceBonus(years: int): real {
    JsRound((years as real / 4.0) * (W_EXPERIENCE * 2.0)) as real / 2.0
  }

  function HelpHits(me: Features, mf: Features): nat {
    Overlap(me.help, mf.skills) + Overlap(me.help, mf.expertise)
  }

  /** The mentor's expertise, space-joined, contains some help area of the mentee. */
  predicate ExpertiseHit(me: Features, mf: Features) {
    ContainsAnyWord(Join(mf.expertise, " "), me.help)
  }

  predicate SameTimezone(me: Features, mf: Features) {
    me.tz != "" && mf.tz != "" && me.tz == mf.tz
  }

  predicate PreferredTimeMatch(me: Features, mf: Features) {
    |me.prefTimes| > 0 && |mf.prefTimes| > 0 && Overlap(me.prefTimes, mf.prefTimes) > 0
  }

  /** The seven profile signals `scorePair` measures, before it weighs them. */
  datatype Signals = Signals(
    help: nat,
    interests: nat,
    categories: nat,
    hit: bool,
    years: int,
    timezone: bool,
    preferredTime: bool)

  function SignalsOf(me: Features, mf: Features): Signals {
    Signals(
      HelpHits(me, mf),
      Overlap(me.interests, mf.skills),
      Overlap(me.categories, mf.categories),
      ExpertiseHit(me, mf),
      mf.expYears,
      SameTimezone(me, mf),
      PreferredTimeMatch(me, mf))
  }

  function When(c: bool, r: Reason): seq<Reason> {
    if c then [r] else []
  }

  function HelpReason(s: Signals): seq<Reason> {
    When(s.help > 0, Reason(HelpVsSkills, s.help as real, W_HELP))
  }

  function InterestsReason(s: Signals): seq<Reason> {
    When(s.interests > 0, Reason(InterestsVsSkills, s.interests as real, W_INTERESTS))
  }

  function CategoriesReason(s: Signals): seq<Reason> {
    When(s.categories > 0, Reason(CategoriesOverlap, s.categories as real, W_CATEGORIES))
  }

  function HitReason(s: Signals): seq<Reason> {
    When(s.hit, Reason(ExpertiseExactHit, 1.0, W_EXPERTISE_HIT))
  }

  function ExperienceReason(s: Signals): seq<Reason> {
    When(s.years > 0, Reason(ExperienceYears, s.years as real, ExperienceBonus(s.years)))
  }

  function TimezoneReason(s: Signals): seq<Reason> {
    When(s.timezone, Reason(TimezoneMatch, 1.0, W_TIMEZONE))
  }

  function PreferredTimeReason(s: Signals): seq<Reason> {
    When(s.preferredTime, Reason(PreferredTimeOverlap, 1.0, W_PREFERRED_TIME))
  }

  /** The reasons of the seven profile signals, in the order they are checked. */
  function SignalReasons(s: Signals): seq<Reason> {
    HelpReason(s) + InterestsReason(s) + CategoriesReason(s) + HitReason(s)
    + ExperienceReason(s) + TimezoneReason(s) + PreferredTimeReason(s)
  }

  const AvailabilityReason: Reason := Reason(AvailabilityAnyFuture, 1.0, W_AVAILABILITY)

  /** The result for measured signals `s` when the mentor's future-availability lookup
      answers `future`. The score is the sum of the reasons' contributions. */
  function Outcome(s: Signals, opts: Options, future: bool): ScoreResult {
    var rs := SignalReasons(s);
    if opts.checkAvailability && future then
      Scored(Total(rs) + W_AVAILABILITY, rs + [AvailabilityReason], true)
    else if opts.checkAvailability && opts.requireAvailability then
      Rejected(rs)
    else
      Scored(Total(rs), rs, false)
  }

  /** What `scorePair(me, mf, opts)` returns. */
  function ScoreSpec(me: Features, mf: Features, opts: Options, future: bool): ScoreResult {
    Outcome(SignalsOf(me, mf), opts, future)
  }

  lemma TotalSnoc(rs: seq<Reason>, r: Reason)
    ensures Total(rs + [r]) == Total(rs) + Contribution(r)
  {
    assert (rs + [r])[..|rs|] == rs;
  }

  /** Lines 90-100: the help areas of the mentee against the mentor's skills and
      expertise, counted separately and added up. */
  method AddHelp(me: Features, mf: Features, score: real, reasons: seq<Reason>)
    returns (score': real, reasons': seq<Reason>)
    requires WellFormed(me) && score == Total(reasons)
    ensures reasons' == reasons + HelpReason(SignalsOf(me, mf)) && score' == Total(reasons')
  {
    score', reasons' := score, reasons;
    var h1 := IntersectCount(me.help, mf.skills);
    var h2 := IntersectCount(me.help, mf.expertise);
    var help := h1 + h2;
    if help > 0 {
      var r := Reason(HelpVsSkills, help as real, W_HELP);
      TotalSnoc(reasons', r);
      score' := score' + help as real * W_HELP;
      reasons' := reasons' + [r];
    }
  }

  /** Lines 102-110: the mentee's interests against the mentor's skills. */
  method AddInterests(me: Features, mf: Features, score: real, reasons: seq<Reason>)
    returns (score': real, reasons': seq<Reason>)
    requires WellFormed(me) && score == Total(reasons)
    ensures reasons' == reasons + InterestsReason(SignalsOf(me, mf)) && score' == Total(reasons')
  {
    score', reasons' := score, reasons;
    var n := IntersectCount(me.interests, mf.skills);
    if n > 0 {
      var r := Reason(InterestsVsSkills, n as real, W_INTERESTS);
      TotalSnoc(reasons', r);
      score' := score' + n as real * W_INTERESTS;
      reasons' := reasons' + [r];
    }
  }

  /** Lines 112-120: shared categories. */
  method AddCategories(me: Features, mf: Features, score: real, reasons: seq<Reason>)
    returns (score': real, reasons': seq<Reason>)
    requires WellFormed(me) && score == Total(reasons)
    ensures reasons' == reasons + CategoriesReason(SignalsOf(me, mf)) && score' == Total(reasons')
  {
    score', reasons' := score, reasons;
    var n := IntersectCount(me.categories, mf.categories);
    if n > 0 {
      var r := Reason(CategoriesOverlap, n as real, W_CATEGORIES);
      TotalSnoc(reasons', r);
      score' := score' + n as real * W_CATEGORIES;
      reasons' := reasons' + [r];
    }
  }

  /** Lines 122-127: the expertise substring heuristic. */
  method AddExpertiseHit(me: Features, mf: Features, score: real, reasons: seq<Reason>)
    returns (score': real, reasons': seq<Reason>)
    requires score == Total(reasons)
    ensures reasons' == reasons + HitReason(SignalsOf(me, mf)) && score' == Total(reasons')
  {
    score', reasons' := score, reasons;
    var expertiseText := Join(mf.expertise, " ");
    if ContainsAnyWord(expertiseText, me.help) {
      var r := Reason(ExpertiseExactHit, 1.0, W_EXPERTISE_HIT);
      TotalSnoc(reasons', r);
      score' := score' + W_EXPERTISE_HIT;
      reasons' := reasons' + [r];
    }
  }

  /** Lines 129-135: the experience bonus; its reason carries the years as `v` and
      the bonus as `w`. */
  method AddExperience(me: Features, mf: Features, score: real, reasons: seq<Reason>)
    returns (score': real, reasons': seq<Reason>)
    requires score == Total(reasons)
    ensures reasons' == reasons + ExperienceReason(SignalsOf(me, mf)) && score' == Total(reasons')
  {
    score', reasons' := score, reasons;
    if mf.expYears > 0 {
      var bonus := JsRound((mf.expYears as real / 4.0) * (W_EXPERIENCE * 2.0)) as real / 2.0;
      var r := Reason(ExperienceYears, mf.expYears as real, bonus);
      TotalSnoc(reasons', r);
      score' := score' + bonus;
      reasons' := reasons' + [r];
    }
  }

  /** Lines 137-141: equal, non-empty time zones. */
  method AddTimezone(me: Features, mf: Features, score: real, reasons: seq<Reason>)
    returns (score': real, reasons': seq<Reason>)
    requires score == Total(reasons)
    ensures reasons' == reasons + TimezoneReason(SignalsOf(me, mf)) && score' == Total(reasons')
  {
    score', reasons' := score, reasons;
    if me.tz != "" && mf.tz != "" && me.tz == mf.tz {
      var r := Reason(TimezoneMatch, 1.0, W_TIMEZONE);
      TotalSnoc(reasons', r);
      score' := score' + W_TIMEZONE;
      reasons' := reasons' + [r];
    }
  }

  /** Lines 142-153: a shared preferred time, when both sides list any. */
  method AddPreferredTime(me: Features, mf: Features, score: real, reasons: seq<Reason>)
    returns (score': real, reasons': seq<Reason>)
    requires WellFormed(me) && score == Total(reasons)
    ensures reasons' == reasons + PreferredTimeReason(SignalsOf(me, mf)) && score' == Total(reasons')
  {
    score', reasons' := score, reasons;
    if |me.prefTimes| > 0 && |mf.prefTimes| > 0 {
      var n := IntersectCount(me.prefTimes, mf.prefTimes);
      if n > 0 {
        var r := Reason(PreferredTimeOverlap, 1.0, W_PREFERRED_TIME);
        TotalSnoc(reasons', r);
        score' := score' + W_PREFERRED_TIME;
        reasons' := reasons' + [r];
      }
    }
  }

  /** `scorePair`: adds the weighted signals one by one, pushing a reason for each
      signal that fires; `future` is the answer of `hasAnyFutureAvailability`, which is
      consulted only when `checkAvailability` holds. */
  method ScorePair(me: Features, mf: Features, opts: Options, future: bool) returns (res: ScoreResult)
    requires WellFormed(me)
    ensures res == ScoreSpec(me, mf, opts, future)
  {
    var score := 0.0;
    var reasons: seq<Reason> := [];
    score, reasons := AddHelp(me, mf, score, reasons);
    score, reasons := AddInterests(me, mf, score, reasons);
    score, reasons := AddCategories(me, mf, score, reasons);
    score, reasons := AddExpertiseHit(me, mf, score, reasons);
    score, reasons := AddExperience(me, mf, score, reasons);
    score, reasons := AddTimezone(me, mf, score, reasons);
    score, reasons := AddPreferredTime(me, mf, score, reasons);
    assert reasons == SignalReasons(SignalsOf(me, mf));

    var hasAvail := false;
    if opts.checkAvailability {
      hasAvail := future;
      if hasAvail {
        TotalSnoc(reasons, AvailabilityReason);
        score := score + W_AVAILABILITY;
        reasons := reasons + [AvailabilityReason];
      } else if opts.requireAvailability {
        return Rejected(reasons);
      }
    }
    return Scored(score, reasons, hasAvail);
  }


  // ----- properties of the score -----

  lemma {:induction false} TotalConcat(a: seq<Reason>, b: seq<Reason>)
    ensures Total(a + b) == Total(a) + Total(b)
    decreases |b|
  {
    if b == [] {
      assert a + b == a;
    } else {
      TotalConcat(a, b[..|b| - 1]);
      assert (a + b)[..|a + b| - 1] == a + b[..|b| - 1];
    }
  }

  function Indicator(c: bool, x: real): real {
    if c then x else 0.0
  }

  lemma TotalWhen(c: bool, r: Reason)
    ensures Total(When(c, r)) == Indicator(c, Contribution(r))
  {
    if c {
      assert [r][..0] == [];
    }
  }

  /** The score as a plain sum of weighted signals, independent of the order in which
      `scorePair` adds them: each overlap count times its weight, the flat weight of
      each flag that fires, and the experience bonus. */
  lemma ScoreFormula(s: Signals, opts: Options, future: bool)
    requires Outcome(s, opts, future).Scored?
    ensures Outcome(s, opts, future).score ==
      W_HELP * s.help as real
      + W_INTERESTS * s.interests as real
      + W_CATEGORIES * s.categories as real
      + Indicator(s.hit, W_EXPERTISE_HIT)
      + Indicator(s.years > 0, ExperienceBonus(s.years))
      + Indicator(s.timezone, W_TIMEZONE)
      + Indicator(s.preferredTime, W_PREFERRED_TIME)
      + Indicator(opts.checkAvailability && future, W_AVAILABILITY)
  {
    SignalsTotal(s);
  }

  lemma SignalsTotal(s: Signals)
    ensures Total(SignalReasons(s)) ==
      W_HELP * s.help as real
      + W_INTERESTS * s.interests as real
      + W_CATEGORIES * s.categories as real
      + Indicator(s.hit, W_EXPERTISE_HIT)
      + Indicator(s.years > 0, ExperienceBonus(s.years))
      + Indicator(s.timezone, W_TIMEZONE)
      + Indicator(s.preferredTime, W_PREFERRED_TIME)
  {
    TotalOfSeven(HelpReason(s), InterestsReason(s), CategoriesReason(s), HitReason(s),
                 ExperienceReason(s), TimezoneReason(s), PreferredTimeReason(s));
    ReasonTotals(s);
  }

  lemma ReasonTotals(s: Signals)
    ensures Total(HelpReason(s)) == W_HELP * s.help as real
    ensures Total(InterestsReason(s)) == W_INTERESTS * s.interests as real
    ensures Total(CategoriesReason(s)) == W_CATEGORIES * s.categories as real
    ensures Total(HitReason(s)) == Indicator(s.hit, W_EXPERTISE_HIT)
    ensures Total(ExperienceReason(s)) == Indicator(s.years > 0, ExperienceBonus(s.years))
    ensures Total(TimezoneReason(s)) == Indicator(s.timezone, W_TIMEZONE)
    ensures Total(PreferredTimeReason(s)) == Indicator(s.preferredTime, W_PREFERRED_TIME)
  {
    CountedTotal(s.help, HelpVsSkills, W_HELP);
    CountedTotal(s.interests, InterestsVsSkills, W_INTERESTS);
    CountedTotal(s.categories, CategoriesOverlap, W_CATEGORIES);
    TotalWhen(s.hit, Reason(ExpertiseExactHit, 1.0, W_EXPERTISE_HIT));
    TotalWhen(s.years > 0, Reason(ExperienceYears, s.years as real, ExperienceBonus(s.years)));
    TotalWhen(s.timezone, Reason(TimezoneMatch, 1.0, W_TIMEZONE));
    TotalWhen(s.preferredTime, Reason(PreferredTimeOverlap, 1.0, W_PREFERRED_TIME));
  }

  /** An overlap reason adds its count times its weight, which is 0 when it does not fire. */
  lemma CountedTotal(n: nat, k: ReasonKind, w: real)
    requires k != ExperienceYears
    ensures Total(When(n > 0, Reason(k, n as real, w))) == w * n as real
  {
    TotalWhen(n > 0, Reason(k, n as real, w));
  }

  lemma TotalOfSeven(h: seq<Reason>, i: seq<Reason>, c: seq<Reason>, x: seq<Reason>,
                     e: seq<Reason>, t: seq<Reason>, p: seq<Reason>)
    ensures Total(h + i + c + x + e + t + p)
         == Total(h) + Total(i) + Total(c) + Total(x) + Total(e) + Total(t) + Total(p)
  {
    TotalConcat(h, i);
    TotalConcat(h + i, c);
    TotalConcat(h + i + c, x);
    TotalConcat(h + i + c + x, e);
    TotalConcat(h + i + c + x + e, t);
    TotalConcat(h + i + c + x + e + t, p);
  }

  predicate RanksIncreasing(rs: seq<Reason>) {
    forall i, j :: 0 <= i < j < |rs| ==> Rank(rs[i].k) < Rank(rs[j].k)
  }

  predicate RanksBelow(rs: seq<Reason>, n: nat) {
    forall i :: 0 <= i < |rs| ==> Rank(rs[i].k) < n
  }

  lemma AppendInOrder(rs: seq<Reason>, add: seq<Reason>, n: nat)
    requires RanksIncreasing(rs) && RanksBelow(rs, n)
    requires |add| <= 1 && forall i :: 0 <= i < |add| ==> Rank(add[i].k) == n
    ensures RanksIncreasing(rs + add) && RanksBelow(rs + add, n + 1)
  {
  }

  /** Reasons appear in the fixed order help, interests, categories, expertise hit,
      experience, time zone, preferred time, availability, each kind at most once. */
  lemma ReasonsInOrder(s: Signals, opts: Options, future: bool)
    ensures RanksIncreasing(Outcome(s, opts, future).reasons)
  {
    OrderOfSeven(HelpReason(s), InterestsReason(s), CategoriesReason(s), HitReason(s),
                 ExperienceReason(s), TimezoneReason(s), PreferredTimeReason(s));
    AppendInOrder(SignalReasons(s), [AvailabilityReason], 7);
  }

  predicate AtMostOneOfRank(rs: seq<Reason>, n: nat) {
    |rs| <= 1 && forall i :: 0 <= i < |rs| ==> Rank(rs[i].k) == n
  }

  lemma OrderOfSeven(h: seq<Reason>, i: seq<Reason>, c: seq<Reason>, x: seq<Reason>,
                     e: seq<Reason>, t: seq<Reason>, p: seq<Reason>)
    requires AtMostOneOfRank(h, 0) && AtMostOneOfRank(i, 1) && AtMostOneOfRank(c, 2)
    requires AtMostOneOfRank(x, 3) && AtMostOneOfRank(e, 4) && AtMostOneOfRank(t, 5)
    requires AtMostOneOfRank(p, 6)
    ensures RanksIncreasing(h + i + c + x + e + t + p) && RanksBelow(h + i + c + x + e + t + p, 7)
  {
    AppendInOrder(h, i, 1);
    AppendInOrder(h + i, c, 2);
    AppendInOrder(h + i + c, x, 3);
    AppendInOrder(h + i + c + x, e, 4);
    AppendInOrder(h + i + c + x + e, t, 5);
    AppendInOrder(h + i + c + x + e + t, p, 6);
  }

  /** The signal behind each kind of reason. */
  predicate Fires(k: ReasonKind, s: Signals, opts: Options, future: bool) {
    match k
    case HelpVsSkills => s.help > 0
    case InterestsVsSkills => s.interests > 0
    case CategoriesOverlap => s.categories > 0
    case ExpertiseExactHit => s.hit
    case ExperienceYears => s.years > 0
    case TimezoneMatch => s.timezone
    case PreferredTimeOverlap => s.preferredTime
    case AvailabilityAnyFuture => opts.checkAvailability && future
  }

  predicate HasKind(rs: seq<Reason>, k: ReasonKind) {
    exists i :: 0 <= i < |rs| && rs[i].k == k
  }

  lemma HasKindConcat(a: seq<Reason>, b: seq<Reason>, k: ReasonKind)
    ensures HasKind(a + b, k) <==> HasKind(a, k) || HasKind(b, k)
  {
    if HasKind(a + b, k) {
      var i :| 0 <= i < |a + b| && (a + b)[i].k == k;
      if i >= |a| {
        assert b[i - |a|].k == k;
      } else {
        assert a[i].k == k;
      }
    }
    if HasKind(a, k) {
      var i :| 0 <= i < |a| && a[i].k == k;
      assert (a + b)[i] == a[i];
    }
    if HasKind(b, k) {
      var i :| 0 <= i < |b| && b[i].k == k;
      assert (a + b)[|a| + i] == b[i];
    }
  }

  lemma HasKindWhen(c: bool, r: Reason, k: ReasonKind)
    ensures HasKind(When(c, r), k) <==> c && r.k == k
  {
    if c && r.k == k {
      assert When(c, r)[0].k == k;
    }
  }

  /** A reason of kind `k` is listed exactly when its signal fires. */
  lemma ReasonPresentIff(s: Signals, opts: Options, future: bool, k: ReasonKind)
    ensures HasKind(Outcome(s, opts, future).reasons, k) <==> Fires(k, s, opts, future)
  {
    var h, i, c, x := HelpReason(s), InterestsReason(s), CategoriesReason(s), HitReason(s);
    var e, t, p := ExperienceReason(s), TimezoneReason(s), PreferredTimeReason(s);
    HasKindConcat(h, i, k);
    HasKindConcat(h + i, c, k);
    HasKindConcat(h + i + c, x, k);
    HasKindConcat(h + i + c + x, e, k);
    HasKindConcat(h + i + c + x + e, t, k);
    HasKindConcat(h + i + c + x + e + t, p, k);
    HasKindConcat(SignalReasons(s), [AvailabilityReason], k);
    HasKindWhen(s.help > 0, Reason(HelpVsSkills, s.help as real, W_HELP), k);
    HasKindWhen(s.interests > 0, Reason(InterestsVsSkills, s.interests as real, W_INTERESTS), k);
    HasKindWhen(s.categories > 0, Reason(CategoriesOverlap, s.categories as real, W_CATEGORIES), k);
    HasKindWhen(s.hit, Reason(ExpertiseExactHit, 1.0, W_EXPERTISE_HIT), k);
    HasKindWhen(s.years > 0, Reason(ExperienceYears, s.years as real, ExperienceBonus(s.years)), k);
    HasKindWhen(s.timezone, Reason(TimezoneMatch, 1.0, W_TIMEZONE), k);
    HasKindWhen(s.preferredTime, Reason(PreferredTimeOverlap, 1.0, W_PREFERRED_TIME), k);
    HasKindWhen(true, AvailabilityReason, k);
  }

  /** A help area that also occurs among the mentor's expertise makes the expertise
      text contain it, so the substring heuristic fires whenever that overlap does. */
  lemma ExpertiseOverlapHits(me: Features, mf: Features, t: string)
    requires t in me.help && t in mf.expertise && t != ""
    ensures ExpertiseHit(me, mf)
  {
    var i :| 0 <= i < |mf.expertise| && mf.expertise[i] == t;
    JoinContains(mf.expertise, " ", i);
    ContainsLower(Join(mf.expertise, " "), t);
  }

  /** A help token found in both the mentor's skills and expertise is counted twice
      by the help signal, and fires the expertise hit on top. */
  lemma HelpTokenCountsTwice(me: Features, mf: Features, opts: Options, future: bool, t: string)
    requires WellFormed(me)
    requires t in me.help && t in mf.skills && t in mf.expertise
    ensures HelpHits(me, mf) >= 2
    ensures ExpertiseHit(me, mf)
    ensures ScoreSpec(me, mf, opts, future).Scored? ==>
      ScoreSpec(me, mf, opts, future).score >= 2.0 * W_HELP + W_EXPERTISE_HIT
  {
    assert t in Common(me.help, mf.skills);
    assert t in Common(me.help, mf.expertise);
    ExpertiseOverlapHits(me, mf, t);
    var s := SignalsOf(me, mf);
    if Outcome(s, opts, future).Scored? {
      ScoreFormula(s, opts, future);
      if s.years > 0 {
        ExperienceBonusNonNegative(s.years);
      }
    }
  }

  /** With no shared tag, no expertise hit, no experience, no time-zone or
      preferred-time match and no availability lookup, the score is 0 with no reasons. */
  lemma NoSignalScoresZero(me: Features, mf: Features, opts: Options, future: bool)
    requires HelpHits(me, mf) == 0
    requires Overlap(me.interests, mf.skills) == 0 && Overlap(me.categories, mf.categories) == 0
    requires !ExpertiseHit(me, mf)
    requires mf.expYears <= 0 && !SameTimezone(me, mf) && !PreferredTimeMatch(me, mf)
    requires !opts.checkAvailability
    ensures ScoreSpec(me, mf, opts, future) == Scored(0.0, [], false)
  {
    var s := SignalsOf(me, mf);
    assert SignalReasons(s) == [];
  }

  /** The expertise hit is a substring test, so it fires without any shared tag:
      help area "java" against expertise "javascript" scores 3. */
  lemma SubstringHitWithoutOverlap()
    ensures
      var me := Features("a", [], [], [], ["java"], [], "", [], 0);
      var mf := Features("b", ["javascript"], [], [], [], [], "", [], 0);
      && WellFormed(me) && WellFormed(mf)
      && HelpHits(me, mf) == 0
      && ScoreSpec(me, mf, Options(false, false), false)
         == Scored(W_EXPERTISE_HIT, [Reason(ExpertiseExactHit, 1.0, W_EXPERTISE_HIT)], false)
  {
    var me := Features("a", [], [], [], ["java"], [], "", [], 0);
    var mf := Features("b", ["javascript"], [], [], [], [], "", [], 0);
    JavaFeaturesWellFormed();
    JavaSignals();
    HitOnlyOutcome();
    assert ScoreSpec(me, mf, Options(false, false), false)
        == Outcome(Signals(0, 0, 0, true, 0, false, false), Options(false, false), false);
  }

  lemma HitOnlyOutcome()
    ensures Outcome(Signals(0, 0, 0, true, 0, false, false), Options(false, false), false)
         == Scored(W_EXPERTISE_HIT, [Reason(ExpertiseExactHit, 1.0, W_EXPERTISE_HIT)], false)
  {
    var s := Signals(0, 0, 0, true, 0, false, false);
    assert SignalReasons(s) == [Reason(ExpertiseExactHit, 1.0, W_EXPERTISE_HIT)];
    TotalWhen(true, Reason(ExpertiseExactHit, 1.0, W_EXPERTISE_HIT));
  }

  lemma JavaFeaturesWellFormed()
    ensures WellFormed(Features("a", [], [], [], ["java"], [], "", [], 0))
    ensures WellFormed(Features("b", ["javascript"], [], [], [], [], "", [], 0))
  {
    assert IsToken("java");
    assert IsToken("javascript");
  }

  lemma JavaSignals()
    ensures SignalsOf(Features("a", [], [], [], ["java"], [], "", [], 0),
                      Features("b", ["javascript"], [], [], [], [], "", [], 0))
         == Signals(0, 0, 0, true, 0, false, false)
  {
    var me := Features("a", [], [], [], ["java"], [], "", [], 0);
    var mf := Features("b", ["javascript"], [], [], [], [], "", [], 0);
    assert "java" != "javascript";
    assert Common(["java"], []) == {};
    assert Common(["java"], ["javascript"]) == {};
    assert Common([], []) == {};
    assert Join(["javascript"], " ") == "javascript";
    ExpertiseHitJava();
  }

  lemma ExpertiseHitJava()
    ensures ContainsAnyWord("javascript", ["java"])
  {
    LowerOfLower("java");
    LowerOfLower("javascript");
    ContainsPrefix("java", "script");
    assert "java" + "script" == "javascript";
  }

  /** The bonus is half the number of four-year blocks, rounded to the nearest block:
      `((years + 2) div 4) / 2`. */
  lemma ExperienceBonusClosedForm(years: int)
    ensures ExperienceBonus(years) == ((years + 2) / 4) as real / 2.0
  {
    var q := (years + 2) / 4;
    assert 4 * q <= years + 2 < 4 * q + 4;
    var x := (years as real / 4.0) * (W_EXPERIENCE * 2.0) + 0.5;
    assert x == (years + 2) as real / 4.0;
    assert q as real <= x < q as real + 1.0;
    assert x.Floor == q;
  }

  lemma ExperienceBonusNonNegative(years: int)
    requires years > 0
    ensures ExperienceBonus(years) >= 0.0
  {
    ExperienceBonusClosedForm(years);
  }

  lemma ExperienceBonusMonotone(y1: int, y2: int)
    requires y1 <= y2
    ensures ExperienceBonus(y1) <= ExperienceBonus(y2)
  {
    ExperienceBonusClosedForm(y1);
    ExperienceBonusClosedForm(y2);
    assert (y1 + 2) / 4 <= (y2 + 2) / 4;
  }

  /** One year of experience earns no bonus but still lists its reason; four years
      earn half a point. */
  lemma ExperienceReasonWithoutBonus(s: Signals, opts: Options, future: bool)
    requires s.years == 1
    ensures ExperienceBonus(1) == 0.0 && ExperienceBonus(4) == 0.5
    ensures HasKind(Outcome(s, opts, future).reasons, ExperienceYears)
  {
    ExperienceBonusClosedForm(1);
    ExperienceBonusClosedForm(4);
    ReasonPresentIff(s, opts, future, ExperienceYears);
  }

  /** The availability rules: a required but missing future slot rejects the pair and
      nothing else does; `hasAvail` reports the lookup only when it is made, and
      without the check the lookup's answer changes nothing. */
  lemma AvailabilityRules(s: Signals, opts: Options, future: bool)
    ensures Outcome(s, opts, future).Rejected?
        <==> opts.checkAvailability && opts.requireAvailability && !future
    ensures Outcome(s, opts, future).Scored? ==>
      (Outcome(s, opts, future).hasAvail <==> opts.checkAvailability && future)
    ensures !opts.checkAvailability ==> Outcome(s, opts, true) == Outcome(s, opts, false)
  {
  }
}

=== FILE: match_routes.dfy ===
/** The ranking half of the matcher (src/routes/match.js): `/suggestions`, which scores
    every candidate profile of the opposite role, drops rejected mentors, adds the
    rating boost, rounds, sorts and truncates; and `/explain`, the score breakdown
    for one mentor. The database is a read-only snapshot passed in as `Db`. */
module MatchRoutes {
  import opened Schema
  import opened Text
  import opened Seqs
  import opened Match
  import Reviews

  const RATING_WEIGHT: real := 15.0

  /** What the handlers read: users by id, profiles, slots, reviews, and the clock. */
  datatype Db = Db(
    users: map<Id, UserRow>,
    profiles: seq<ProfileRow>,
    slots: seq<Slot>,
    reviews: seq<Review>,
    now: int)

  /** At most one profile per user (the primary key of the Profiles table). */
  predicate UniqueProfiles(profiles: seq<ProfileRow>) {
    forall i, j :: 0 <= i < j < |profiles| ==> profiles[i].userId != profiles[j].userId
  }

  // ----- query parameters -----

  datatype Direction = ForMentors | ForMentees

  /** `(req.query.for || "mentors").toLowerCase()`, read as a direction. */
  function ParseDirection(arg: string): (d: Option<Direction>)
    ensures arg == "" ==> d == Some(ForMentors)
    ensures d == Some(ForMentees) <==> Lower(arg) == "mentees"
  {
    var f := Lower(if arg == "" then "mentors" else arg);
    if f == "mentors" then Some(ForMentors)
    else if f == "mentees" then Some(ForMentees)
    else None
  }

  /** `Math.max(1, Math.min(50, Number(limit) || 12))`; `None` is a missing or
      non-numeric parameter. */
  function ClampLimit(arg: Option<int>): (n: nat)
    ensures 1 <= n <= 50
    ensures arg.None? || arg == Some(0) ==> n == 12
    ensures arg.Some? && 1 <= arg.value <= 50 ==> n == arg.value
    ensures arg.Some? && arg.value > 50 ==> n == 50
    ensures arg.Some? && arg.value < 0 ==> n == 1
  {
    var requested := if arg.None? || arg.value == 0 then 12 else arg.value;
    var capped := if requested <= 50 then requested else 50;
    if capped >= 1 then capped else 1
  }

  /** `String(req.query.requireAvailability || "0") === "1"`. */
  predicate RequireFlag(arg: string) {
    arg == "1"
  }

  // ----- lookups -----

  /** `Profile.findByPk(id)`. */
  function ProfileOf(profiles: seq<ProfileRow>, id: Id): (r: Option<ProfileRow>)
    ensures r.Some? ==> r.value in profiles && r.value.userId == id
    ensures r.None? ==> forall p :: p in profiles ==> p.userId != id
  {
    if profiles == [] then None
    else if profiles[0].userId == id then Some(profiles[0])
    else ProfileOf(profiles[1..], id)
  }

  /** `Profile.findAll({ where: { type }, order: [["updatedAt", "DESC"]] })`. */
  function Candidates(profiles: seq<ProfileRow>, kind: Role): (r: seq<ProfileRow>)
    ensures forall p :: p in r <==> p in profiles && p.kind == kind
    ensures SortedDesc(r, UpdatedAt)
  {
    var all := Filter(profiles, (p: ProfileRow) => p.kind == kind);
    var sorted := SortDesc(all, UpdatedAt);
    SameMembers(sorted, all);
    sorted
  }

  function UpdatedAt(p: ProfileRow): real {
    p.updatedAt as real
  }

  /** `hasAnyFutureAvailability(mentor)`: an available slot starting now or later. */
  predicate HasFutureAvailability(slots: seq<Slot>, mentor: Id, now: int) {
    exists i :: 0 <= i < |slots| && slots[i].mentor == mentor && slots[i].start >= now
                && slots[i].status == Available
  }

  datatype RatingAgg = RatingAgg(avg: real, count: nat)

  /** The per-mentor row of the `AVG(rating)`, `COUNT(id)` query grouped by mentor;
      a mentor without reviews has no row. */
  function RatingOf(reviews: seq<Review>, mentor: Id): Option<RatingAgg> {
    var mine := Reviews.MentorReviews(reviews, mentor);
    if mine == [] then None else Some(RatingAgg(Reviews.Average(mine), |mine|))
  }

  /** The grouped aggregate agrees with the per-mentor summary: a row exactly when the
      mentor has reviews, carrying the same average and count, and with ratings in
      [1, 5] an average in [1, 5]. */
  lemma RatingOfMatchesSummary(reviews: seq<Review>, mentor: Id)
    ensures RatingOf(reviews, mentor).None? <==> Reviews.MentorSummary(reviews, mentor).count == 0
    ensures RatingOf(reviews, mentor).Some? ==>
      && RatingOf(reviews, mentor).value.avg == Reviews.MentorSummary(reviews, mentor).avg
      && RatingOf(reviews, mentor).value.count == Reviews.MentorSummary(reviews, mentor).count
    ensures RatingOf(reviews, mentor).Some? && Reviews.RatingsInRange(reviews) ==>
      1.0 <= RatingOf(reviews, mentor).value.avg <= 5.0
  {
    Reviews.FilteredAverageInRange(reviews, Reviews.MentorReviews(reviews, mentor), mentor);
  }

  /** `r ? (r.avg / 5) * RATING_WEIGHT : 0`. */
  function RatingBoost(r: Option<RatingAgg>): real {
    if r.None? then 0.0 else r.value.avg / 5.0 * RATING_WEIGHT
  }

  /** With ratings in [1, 5] the boost of a reviewed mentor lies in [3, 15]; an
      unreviewed mentor gets none. */
  lemma RatingBoostRange(reviews: seq<Review>, mentor: Id)
    requires Reviews.RatingsInRange(reviews)
    ensures RatingOf(reviews, mentor).None? ==> RatingBoost(RatingOf(reviews, mentor)) == 0.0
    ensures RatingOf(reviews, mentor).Some? ==>
      3.0 <= RatingBoost(RatingOf(reviews, mentor)) <= RATING_WEIGHT
  {
    RatingOfMatchesSummary(reviews, mentor);
  }

  // ----- rounding -----

  /** `Math.round(x * 10) / 10`. */
  function Round1(x: real): real {
    JsRound(x * 10.0) as real / 10.0
  }

  /** Rounding to one decimal moves a score by at most 0.05. */
  lemma Round1Close(x: real)
    ensures x - 0.05 < Round1(x) <= x + 0.05
  {
    var k := JsRound(x * 10.0);
    assert k as real <= x * 10.0 + 0.5 < k as real + 1.0;
  }

  lemma Round1Examples()
    ensures Round1(7.26) == 7.3 && Round1(7.24) == 7.2
  {
    assert 7.26 * 10.0 + 0.5 == 73.1;
    assert (73.1).Floor == 73;
    assert 7.24 * 10.0 + 0.5 == 72.9;
    assert (72.9).Floor == 72;
  }

  lemma Round1Monotone(x: real, y: real)
    requires x <= y
    ensures Round1(x) <= Round1(y)
  {
    assert (x * 10.0 + 0.5).Floor <= (y * 10.0 + 0.5).Floor;
  }

  // ----- suggestions -----

  /** One entry of the answer. Mentee suggestions carry no availability or rating:
      their `hasAvailability` is false, `rating` is `None` and `reviewCount` is 0. */
  datatype Suggestion = Suggestion(
    id: Id,
    kind: Role,
    name: string,
    avatar: Option<string>,
    score: real,
    reasons: seq<Reason>,
    hasAvailability: bool,
    rating: Option<real>,
    reviewCount: nat)

  function ScoreOf(s: Suggestion): real {
    s.score
  }

  /** `m.full_name || m.user?.name || m.user?.email`. */
  function DisplayName(p: ProfileRow, users: map<Id, UserRow>): string {
    if p.fullName != "" then p.fullName
    else if p.userId in users && users[p.userId].name != "" then users[p.userId].name
    else if p.userId in users then users[p.userId].email
    else ""
  }

  // ----- scoring one candidate -----

  /** The raw score of mentor profile `p` for the requester `meF`: availability is
      checked, and required when the query asks for it. */
  function MentorScore(meF: Features, p: ProfileRow, db: Db, require: bool): ScoreResult {
    ScoreSpec(meF, FeaturesOf(p, p.userId), Options(require, true),
              HasFutureAvailability(db.slots, p.userId, db.now))
  }

  function MentorScorer(meF: Features, db: Db, require: bool): ProfileRow -> ScoreResult {
    p => MentorScore(meF, p, db, require)
  }

  /** The raw score of mentee profile `p` when the requester `meF` is the mentor:
      the roles of `scorePair` are swapped and availability is not checked. */
  function MenteeScore(meF: Features, p: ProfileRow): ScoreResult {
    ScoreSpec(FeaturesOf(p, p.userId), meF, Options(false, false), false)
  }

  function MenteeScorer(meF: Features): ProfileRow -> ScoreResult {
    p => MenteeScore(meF, p)
  }

  method ScoreMentor(meF: Features, m: ProfileRow, db: Db, require: bool) returns (res: ScoreResult)
    requires WellFormed(meF)
    ensures res == MentorScorer(meF, db, require)(m)
    ensures res.Rejected? <==> require && !HasFutureAvailability(db.slots, m.userId, db.now)
  {
    var mf := FeaturesOf(m, m.userId);
    var future := HasFutureAvailability(db.slots, m.userId, db.now);
    res := ScorePair(meF, mf, Options(require, true), future);
    AvailabilityRules(SignalsOf(meF, mf), Options(require, true), future);
  }

  method ScoreMentee(meF: Features, m: ProfileRow) returns (res: ScoreResult)
    ensures res == MenteeScorer(meF)(m)
    ensures res.Scored? && !res.hasAvail
  {
    var menteeF := FeaturesOf(m, m.userId);
    res := ScorePair(menteeF, meF, Options(false, false), false);
    AvailabilityRules(SignalsOf(menteeF, meF), Options(false, false), false);
  }

  // ----- the candidate loops -----

  /** The entry a scored mentor contributes, or nothing when it was rejected. */
  function MentorEntry(p: ProfileRow, res: ScoreResult, db: Db): seq<Suggestion> {
    if res.Rejected? then []
    else
      var r := RatingOf(db.reviews, p.userId);
      [Suggestion(
        p.userId, Mentor, DisplayName(p, db.users), AvatarOf(db.users, p.userId),
        Round1(res.score + RatingBoost(r)), res.reasons, res.hasAvail,
        if r.None? then None else Some(r.value.avg),
        if r.None? then 0 else r.value.count)]
  }

  function MentorPool(cands: seq<ProfileRow>, score: ProfileRow -> ScoreResult, db: Db): seq<Suggestion> {
    if cands == [] then []
    else MentorPool(cands[..|cands| - 1], score, db)
         + MentorEntry(cands[|cands| - 1], score(cands[|cands| - 1]), db)
  }

  /** The entry a scored mentee contributes; mentees are never rejected. */
  function MenteeEntry(p: ProfileRow, res: ScoreResult, db: Db): seq<Suggestion> {
    if res.Rejected? then []
    else [Suggestion(p.userId, Mentee, DisplayName(p, db.users), AvatarOf(db.users, p.userId), Round1(res.score), res.reasons,
                     false, None, 0)]
  }

  function MenteePool(cands: seq<ProfileRow>, score: ProfileRow -> ScoreResult, db: Db): seq<Suggestion> {
    if cands == [] then []
    else MenteePool(cands[..|cands| - 1], score, db)
         + MenteeEntry(cands[|cands| - 1], score(cands[|cands| - 1]), db)
  }

  lemma MenteesAlwaysScored(meF: Features, cands: seq<ProfileRow>)
    ensures forall p :: p in cands ==> MenteeScorer(meF)(p).Scored?
  {
    forall p | p in cands
      ensures MenteeScorer(meF)(p).Scored?
    {
      AvailabilityRules(SignalsOf(FeaturesOf(p, p.userId), meF), Options(false, false), false);
    }
  }

  /** The role a caller needs to ask for suggestions in direction `dir`: mentees ask
      for mentors, mentors for mentees. */
  function RequiredRole(dir: Direction): string {
    if dir == ForMentors then "mentee" else "mentor"
  }

  /** The entries of every candidate in direction `dir`, before sorting. */
  function PoolFor(db: Db, meF: Features, dir: Direction, require: bool): seq<Suggestion> {
    if dir == ForMentors then MentorPool(Candidates(db.profiles, Mentor), MentorScorer(meF, db, require), db)
    else MenteePool(Candidates(db.profiles, Mentee), MenteeScorer(meF), db)
  }

  /** `scored.sort((a, b) => b.score - a.score).slice(0, limit)`. */
  function Ranked(pool: seq<Suggestion>, limit: nat): (r: seq<Suggestion>)
    ensures SortedDesc(r, ScoreOf)
    ensures |r| <= limit && |r| <= |pool|
    ensures forall s :: s in r ==> s in pool
    ensures |pool| <= limit ==> multiset(r) == multiset(pool)
  {
    var sorted := SortDesc(pool, ScoreOf);
    SameMembers(sorted, pool);
    Take(sorted, limit)
  }

  /** Truncation keeps the best: an entry of the pool left out of the answer means
      the answer is full and every suggestion in it scores at least as high. */
  lemma RankedKeepsTop(pool: seq<Suggestion>, limit: nat, x: Suggestion)
    requires x in pool && x !in Ranked(pool, limit)
    ensures |Ranked(pool, limit)| == limit
    ensures forall y :: y in Ranked(pool, limit) ==> y.score >= x.score
  {
    var sorted := SortDesc(pool, ScoreOf);
    SameMembers(sorted, pool);
    TakeKeepsTop(sorted, ScoreOf, limit, x);
  }

  /** What GET /api/match/suggestions answers the caller. */
  function SuggestionsSpec(db: Db, caller: Id, forArg: string, limitArg: Option<int>, requireArg: string)
    : Result<seq<Suggestion>>
  {
    if caller !in db.users then Err(NotFound)
    else
      var mine := ProfileOf(db.profiles, caller);
      if mine.None? then Err(BadRequest)
      else
        var dir := ParseDirection(forArg);
        if dir.None? then Err(BadRequest)
        else if db.users[caller].role != RequiredRole(dir.value) then Err(Forbidden)
        else
          var pool := PoolFor(db, FeaturesOf(mine.value, caller), dir.value, RequireFlag(requireArg));
          Ok(Ranked(pool, ClampLimit(limitArg)))
  }

  lemma MentorPoolSnoc(cands: seq<ProfileRow>, i: nat, score: ProfileRow -> ScoreResult, db: Db)
    requires i < |cands|
    ensures MentorPool(cands[..i + 1], score, db)
         == MentorPool(cands[..i], score, db) + MentorEntry(cands[i], score(cands[i]), db)
  {
    assert cands[..i + 1][..i] == cands[..i];
  }

  lemma MenteePoolSnoc(cands: seq<ProfileRow>, i: nat, score: ProfileRow -> ScoreResult, db: Db)
    requires i < |cands|
    ensures MenteePool(cands[..i + 1], score, db)
         == MenteePool(cands[..i], score, db) + MenteeEntry(cands[i], score(cands[i]), db)
  {
    assert cands[..i + 1][..i] == cands[..i];
  }

  /** One turn of the mentor loop. */
  lemma MentorStep(cands: seq<ProfileRow>, i: nat, score: ProfileRow -> ScoreResult, db: Db,
                   scored: seq<Suggestion>, res: ScoreResult)
    requires i < |cands| && scored == MentorPool(cands[..i], score, db) && res == score(cands[i])
    ensures scored + MentorEntry(cands[i], res, db) == MentorPool(cands[..i + 1], score, db)
  {
    MentorPoolSnoc(cands, i, score, db);
  }

  /** One turn of the mentee loop. */
  lemma MenteeStep(cands: seq<ProfileRow>, i: nat, score: ProfileRow -> ScoreResult, db: Db,
                   scored: seq<Suggestion>, res: ScoreResult)
    requires i < |cands| && scored == MenteePool(cands[..i], score, db) && res == score(cands[i])
    ensures scored + MenteeEntry(cands[i], res, db) == MenteePool(cands[..i + 1], score, db)
  {
    MenteePoolSnoc(cands, i, score, db);
  }

  lemma MentorPoolWhole(cands: seq<ProfileRow>, score: ProfileRow -> ScoreResult, db: Db)
    ensures MentorPool(cands[..|cands|], score, db) == MentorPool(cands, score, db)
  {
    assert cands[..|cands|] == cands;
  }

  lemma MenteePoolWhole(cands: seq<ProfileRow>, score: ProfileRow -> ScoreResult, db: Db)
    ensures MenteePool(cands[..|cands|], score, db) == MenteePool(cands, score, db)
  {
    assert cands[..|cands|] == cands;
  }

  /** The loop over mentor candidates, skipping rejected ones. */
  method RankMentors(meF: Features, cands: seq<ProfileRow>, db: Db, require: bool) returns (scored: seq<Suggestion>)
    requires WellFormed(meF)
    ensures scored == MentorPool(cands, MentorScorer(meF, db, require), db)
  {
    ghost var score := MentorScorer(meF, db, require);
    scored := [];
    for i := 0 to |cands|
      invariant scored == MentorPool(cands[..i], score, db)
    {
      var res := ScoreMentor(meF, cands[i], db, require);
      MentorStep(cands, i, score, db, scored, res);
      scored := scored + MentorEntry(cands[i], res, db);
    }
    MentorPoolWhole(cands, score, db);
  }

  /** The loop over mentee candidates; none is ever skipped. */
  method RankMentees(meF: Features, cands: seq<ProfileRow>, db: Db) returns (scored: seq<Suggestion>)
    ensures scored == MenteePool(cands, MenteeScorer(meF), db)
  {
    ghost var score := MenteeScorer(meF);
    scored := [];
    for i := 0 to |cands|
      invariant scored == MenteePool(cands[..i], score, db)
    {
      var res := ScoreMentee(meF, cands[i]);
      MenteeStep(cands, i, score, db, scored, res);
      scored := scored + MenteeEntry(cands[i], res, db);
    }
    MenteePoolWhole(cands, score, db);
  }

  /** GET /api/match/suggestions. */
  method Suggestions(db: Db, caller: Id, forArg: string, limitArg: Option<int>, requireArg: string)
    returns (res: Result<seq<Suggestion>>)
    ensures res == SuggestionsSpec(db, caller, forArg, limitArg, requireArg)
  {
    if caller !in db.users {
      return Err(NotFound);
    }
    var me := db.users[caller];
    var dir := ParseDirection(forArg);
    var limit := ClampLimit(limitArg);
    var require := requireArg == "1";
    var mine := ProfileOf(db.profiles, caller);
    if mine.None? {
      return Err(BadRequest);
    }
    SuggestionsErrors(db, caller, forArg, limitArg, requireArg);
    if dir == Some(ForMentors) {
      if me.role != "mentee" {
        return Err(Forbidden);
      }
      SuggestionsOk(db, caller, forArg, limitArg, requireArg);
      var meF := FeaturesOf(mine.value, caller);
      var scored := RankMentors(meF, Candidates(db.profiles, Mentor), db, require);
      return Ok(Ranked(scored, limit));
    }
    if dir == Some(ForMentees) {
      if me.role != "mentor" {
        return Err(Forbidden);
      }
      SuggestionsOk(db, caller, forArg, limitArg, requireArg);
      var meF := FeaturesOf(mine.value, caller);
      var scored := RankMentees(meF, Candidates(db.profiles, Mentee), db);
      return Ok(Ranked(scored, limit));
    }
    return Err(BadRequest);
  }

  // ----- properties of the ranking -----

  /** What a mentor entry carries: the candidate's id, its unrejected raw score plus
      the rating boost rounded to one decimal, and the rating aggregate (absent, with
      count 0, for a mentor without reviews). */
  lemma MentorEntryFacts(p: ProfileRow, res: ScoreResult, db: Db, s: Suggestion)
    requires s in MentorEntry(p, res, db)
    ensures s.id == p.userId && s.kind == Mentor && res.Scored?
    ensures s.score == Round1(res.score + RatingBoost(RatingOf(db.reviews, p.userId)))
    ensures s.hasAvailability == res.hasAvail
    ensures s.rating.None? <==> RatingOf(db.reviews, p.userId).None?
    ensures s.rating.None? ==> s.reviewCount == 0
    ensures s.avatar.Some? <==> p.userId in db.users && db.users[p.userId].avatar != ""
    ensures s.avatar.Some? ==> s.avatar.value == db.users[p.userId].avatar
  {
  }

  /** What a mentee entry carries: the candidate's id, its raw score rounded to one
      decimal, the user's picture when there is one, and no availability or rating. */
  lemma MenteeEntryFacts(p: ProfileRow, res: ScoreResult, db: Db, s: Suggestion)
    requires s in MenteeEntry(p, res, db)
    ensures s.id == p.userId && s.kind == Mentee && res.Scored?
    ensures s.score == Round1(res.score)
    ensures !s.hasAvailability && s.rating.None? && s.reviewCount == 0
    ensures s.avatar.Some? <==> p.userId in db.users && db.users[p.userId].avatar != ""
    ensures s.avatar.Some? ==> s.avatar.value == db.users[p.userId].avatar
  {
  }

  /** Every mentor entry carries the id of a candidate, whose score was not rejected,
      and that score plus the rating boost, rounded to one decimal. */
  lemma MentorPoolEntryFacts(cands: seq<ProfileRow>, score: ProfileRow -> ScoreResult, db: Db, s: Suggestion)
    requires s in MentorPool(cands, score, db)
    ensures exists p ::
      && p in cands && p.userId == s.id && score(p).Scored?
      && s.score == Round1(score(p).score + RatingBoost(RatingOf(db.reviews, p.userId)))
  {
    MentorPoolJustified(cands, score, db);
    var p :| p in cands && s in MentorEntry(p, score(p), db);
    MentorEntryFacts(p, score(p), db, s);
  }

  /** Every mentor entry comes from one candidate. */
  lemma {:induction false} MentorPoolJustified(cands: seq<ProfileRow>, score: ProfileRow -> ScoreResult, db: Db)
    ensures |MentorPool(cands, score, db)| <= |cands|
    ensures forall s :: s in MentorPool(cands, score, db) ==>
      exists p :: p in cands && s in MentorEntry(p, score(p), db)
  {
    if cands != [] {
      var n := |cands| - 1;
      MentorPoolJustified(cands[..n], score, db);
      forall s | s in MentorPool(cands, score, db)
        ensures exists p :: p in cands && s in MentorEntry(p, score(p), db)
      {
        if s in MentorPool(cands[..n], score, db) {
          var p :| p in cands[..n] && s in MentorEntry(p, score(p), db);
          assert p in cands;
        } else {
          assert cands[n] in cands;
        }
      }
    }
  }

  /** A mentor entry exists for every candidate whose score was not rejected. */
  lemma {:induction false} MentorPoolComplete(cands: seq<ProfileRow>, score: ProfileRow -> ScoreResult, db: Db, p: ProfileRow)
    requires p in cands && score(p).Scored?
    ensures exists s :: s in MentorPool(cands, score, db) && s.id == p.userId
  {
    var n := |cands| - 1;
    if p == cands[n] {
      var s := MentorEntry(p, score(p), db)[0];
      assert s in MentorPool(cands, score, db);
    } else {
      assert p in cands[..n];
      MentorPoolComplete(cands[..n], score, db, p);
    }
  }

  /** Every mentee candidate is suggested to a mentor before truncation, in candidate
      order: mentees are never rejected. */
  lemma {:induction false} MenteePoolComplete(cands: seq<ProfileRow>, score: ProfileRow -> ScoreResult, db: Db)
    requires forall p :: p in cands ==> score(p).Scored?
    ensures |MenteePool(cands, score, db)| == |cands|
    ensures forall i :: 0 <= i < |cands| ==>
      [MenteePool(cands, score, db)[i]] == MenteeEntry(cands[i], score(cands[i]), db)
  {
    if cands != [] {
      MenteePoolComplete(cands[..|cands| - 1], score, db);
    }
  }

  /** The error answers: 404 for an unknown caller, 400 without a profile or for an
      unknown direction, 403 when the caller's role does not ask in that direction. */
  lemma SuggestionsErrors(db: Db, caller: Id, forArg: string, limitArg: Option<int>, requireArg: string)
    ensures caller !in db.users ==> SuggestionsSpec(db, caller, forArg, limitArg, requireArg) == Err(NotFound)
    ensures caller in db.users && ProfileOf(db.profiles, caller).None? ==>
      SuggestionsSpec(db, caller, forArg, limitArg, requireArg) == Err(BadRequest)
    ensures caller in db.users && ProfileOf(db.profiles, caller).Some? ==>
      (SuggestionsSpec(db, caller, forArg, limitArg, requireArg).Ok? <==>
         ParseDirection(forArg).Some? && db.users[caller].role == RequiredRole(ParseDirection(forArg).value))
    ensures SuggestionsSpec(db, caller, forArg, limitArg, requireArg) == Err(Forbidden) ==>
      ParseDirection(forArg).Some? && db.users[caller].role != RequiredRole(ParseDirection(forArg).value)
  {
  }

  lemma SuggestionsOk(db: Db, caller: Id, forArg: string, limitArg: Option<int>, requireArg: string)
    requires caller in db.users && ProfileOf(db.profiles, caller).Some? && ParseDirection(forArg).Some?
    requires db.users[caller].role == RequiredRole(ParseDirection(forArg).value)
    ensures SuggestionsSpec(db, caller, forArg, limitArg, requireArg)
         == Ok(Ranked(PoolFor(db, FeaturesOf(ProfileOf(db.profiles, caller).value, caller),
                              ParseDirection(forArg).value, RequireFlag(requireArg)),
                      ClampLimit(limitArg)))
  {
  }

  /** A successful answer is the ranked pool of the requested direction. */
  lemma SuggestionsShape(db: Db, caller: Id, forArg: string, limitArg: Option<int>, requireArg: string)
    requires SuggestionsSpec(db, caller, forArg, limitArg, requireArg).Ok?
    ensures caller in db.users && ProfileOf(db.profiles, caller).Some? && ParseDirection(forArg).Some?
    ensures SuggestionsSpec(db, caller, forArg, limitArg, requireArg).value
         == Ranked(PoolFor(db, FeaturesOf(ProfileOf(db.profiles, caller).value, caller),
                           ParseDirection(forArg).value, RequireFlag(requireArg)),
                   ClampLimit(limitArg))
  {
  }

  /** An answer is sorted by descending rounded score and holds at most `limit`
      (so at most 50) suggestions. */
  lemma SuggestionsSortedAndBounded(db: Db, caller: Id, forArg: string, limitArg: Option<int>, requireArg: string)
    requires SuggestionsSpec(db, caller, forArg, limitArg, requireArg).Ok?
    ensures SortedDesc(SuggestionsSpec(db, caller, forArg, limitArg, requireArg).value, ScoreOf)
    ensures |SuggestionsSpec(db, caller, forArg, limitArg, requireArg).value| <= ClampLimit(limitArg) <= 50
  {
    SuggestionsShape(db, caller, forArg, limitArg, requireArg);
  }

  /** The requester's features, for a caller with a profile. */
  function RequesterFeatures(db: Db, caller: Id): Features
    requires ProfileOf(db.profiles, caller).Some?
  {
    FeaturesOf(ProfileOf(db.profiles, caller).value, caller)
  }

  /** A suggested mentor is an entry of the mentor pool. */
  lemma MentorAnswerInPool(db: Db, caller: Id, forArg: string, limitArg: Option<int>, requireArg: string,
                           s: Suggestion)
    requires ParseDirection(forArg) == Some(ForMentors)
    requires SuggestionsSpec(db, caller, forArg, limitArg, requireArg).Ok?
    requires s in SuggestionsSpec(db, caller, forArg, limitArg, requireArg).value
    ensures ProfileOf(db.profiles, caller).Some?
    ensures s in MentorPool(Candidates(db.profiles, Mentor),
                            MentorScorer(RequesterFeatures(db, caller), db, RequireFlag(requireArg)), db)
  {
    SuggestionsShape(db, caller, forArg, limitArg, requireArg);
  }

  /** Every suggested mentor is a mentor profile whose score was not rejected (the
      score it carries is described by `MentorPoolEntryFacts`). */
  lemma SuggestedMentorsJustified(db: Db, caller: Id, forArg: string, limitArg: Option<int>, requireArg: string,
                                  s: Suggestion)
    requires ParseDirection(forArg) == Some(ForMentors)
    requires SuggestionsSpec(db, caller, forArg, limitArg, requireArg).Ok?
    requires s in SuggestionsSpec(db, caller, forArg, limitArg, requireArg).value
    ensures ProfileOf(db.profiles, caller).Some?
    ensures exists p ::
      && p in db.profiles && p.kind == Mentor
      && ScoredAs(s, p, MentorScorer(RequesterFeatures(db, caller), db, RequireFlag(requireArg)), db)
  {
    MentorAnswerInPool(db, caller, forArg, limitArg, requireArg, s);
    MentorCandidateEntryFacts(db.profiles, MentorScorer(RequesterFeatures(db, caller), db, RequireFlag(requireArg)), db, s);
  }

  /** Mentor entry `s` stands for profile `p`: same user, a score that was not
      rejected, and that score plus the rating boost rounded to one decimal. */
  predicate ScoredAs(s: Suggestion, p: ProfileRow, score: ProfileRow -> ScoreResult, db: Db) {
    && p.userId == s.id && score(p).Scored?
    && s.score == Round1(score(p).score + RatingBoost(RatingOf(db.reviews, p.userId)))
  }

  /** `MentorPoolEntryFacts` over the mentor candidates of a profile table. */
  lemma MentorCandidateEntryFacts(profiles: seq<ProfileRow>, score: ProfileRow -> ScoreResult, db: Db, s: Suggestion)
    requires s in MentorPool(Candidates(profiles, Mentor), score, db)
    ensures exists p :: p in profiles && p.kind == Mentor && ScoredAs(s, p, score, db)
  {
    var cands := Candidates(profiles, Mentor);
    MentorPoolEntryFacts(cands, score, db, s);
    var p :| && p in cands && p.userId == s.id && score(p).Scored?
             && s.score == Round1(score(p).score + RatingBoost(RatingOf(db.reviews, p.userId)));
    assert ScoredAs(s, p, score, db);
  }

  /** When availability is required, a mentor without a future available slot is
      never suggested. */
  lemma RequiredAvailabilityExcludes(db: Db, caller: Id, forArg: string, limitArg: Option<int>, requireArg: string,
                                     mentor: Id)
    requires ParseDirection(forArg) == Some(ForMentors) && RequireFlag(requireArg)
    requires SuggestionsSpec(db, caller, forArg, limitArg, requireArg).Ok?
    requires !HasFutureAvailability(db.slots, mentor, db.now)
    ensures forall s :: s in SuggestionsSpec(db, caller, forArg, limitArg, requireArg).value ==> s.id != mentor
  {
    forall s | s in SuggestionsSpec(db, caller, forArg, limitArg, requireArg).value
      ensures s.id != mentor
    {
      SuggestedMentorsJustified(db, caller, forArg, limitArg, requireArg, s);
      var meF := RequesterFeatures(db, caller);
      var p :| p in db.profiles && p.kind == Mentor && p.userId == s.id
        && MentorScorer(meF, db, true)(p).Scored?;
      var mf := FeaturesOf(p, p.userId);
      AvailabilityRules(SignalsOf(meF, mf), Options(true, true), HasFutureAvailability(db.slots, p.userId, db.now));
    }
  }

  /** When the candidates fit within the limit, the ranked mentee pool lists each. */
  lemma MenteeRankingListsAll(cands: seq<ProfileRow>, score: ProfileRow -> ScoreResult, db: Db, limit: nat,
                              p: ProfileRow)
    requires forall q :: q in cands ==> score(q).Scored?
    requires |cands| <= limit && p in cands
    ensures exists s :: s in Ranked(MenteePool(cands, score, db), limit) && s.id == p.userId
  {
    MenteePoolComplete(cands, score, db);
    var i :| 0 <= i < |cands| && cands[i] == p;
    var pool := MenteePool(cands, score, db);
    var s := pool[i];
    assert s in multiset(pool);
    assert s in Ranked(pool, limit);
  }

  /** When the mentee candidates fit within the limit, a mentor is shown every mentee
      profile. */
  lemma AllMenteesListed(db: Db, caller: Id, forArg: string, limitArg: Option<int>, requireArg: string, p: ProfileRow)
    requires ParseDirection(forArg) == Some(ForMentees)
    requires SuggestionsSpec(db, caller, forArg, limitArg, requireArg).Ok?
    requires |Candidates(db.profiles, Mentee)| <= ClampLimit(limitArg)
    requires p in db.profiles && p.kind == Mentee
    ensures exists s :: s in SuggestionsSpec(db, caller, forArg, limitArg, requireArg).value && s.id == p.userId
  {
    SuggestionsShape(db, caller, forArg, limitArg, requireArg);
    var meF := RequesterFeatures(db, caller);
    var cands := Candidates(db.profiles, Mentee);
    MenteesAlwaysScored(meF, cands);
    MenteeRankingListsAll(cands, MenteeScorer(meF), db, ClampLimit(limitArg), p);
  }

  // ----- explain -----

  datatype Explanation = Explanation(
    mentorId: Id,
    mentorName: string,
    score: real,
    reasons: seq<Reason>,
    hasAvailability: bool,
    rating: real,
    reviewCount: nat)

  /** The score `/explain` reports: the caller scored as a mentee, availability
      checked but never required, so never rejected. */
  function ExplainScore(mine: ProfileRow, mentor: ProfileRow, db: Db): (r: ScoreResult)
    ensures r.Scored?
    ensures r.hasAvail <==> HasFutureAvailability(db.slots, mentor.userId, db.now)
  {
    var meF := FeaturesOf(mine, mine.userId);
    var mf := FeaturesOf(mentor, mentor.userId);
    var future := HasFutureAvailability(db.slots, mentor.userId, db.now);
    CheckedNotRequired(meF, mf, future);
    ScoreSpec(meF, mf, Options(false, true), future)
  }

  /** Availability checked but not required: always scored, flagged exactly when
      there is a future slot. */
  lemma CheckedNotRequired(meF: Features, mf: Features, future: bool)
    ensures ScoreSpec(meF, mf, Options(false, true), future).Scored?
    ensures ScoreSpec(meF, mf, Options(false, true), future).hasAvail <==> future
  {
    AvailabilityRules(SignalsOf(meF, mf), Options(false, true), future);
  }

  /** The ungrouped `AVG(rating)`, `COUNT(id)` query: it always yields one row, and
      `Number(null)` turns the average of no reviews into 0. */
  function ExplainRating(reviews: seq<Review>, mentor: Id): RatingAgg {
    var mine := Reviews.MentorReviews(reviews, mentor);
    RatingAgg(Reviews.Average(mine), |mine|)
  }

  /** The aggregate agrees with the per-mentor summary; an unreviewed mentor reports
      rating 0 and count 0, and with ratings in [1, 5] a reviewed one an average in
      [1, 5]. */
  lemma ExplainRatingMatchesSummary(reviews: seq<Review>, mentor: Id)
    ensures ExplainRating(reviews, mentor).avg == Reviews.MentorSummary(reviews, mentor).avg
    ensures ExplainRating(reviews, mentor).count == Reviews.MentorSummary(reviews, mentor).count
    ensures ExplainRating(reviews, mentor).count == 0 ==> ExplainRating(reviews, mentor).avg == 0.0
    ensures Reviews.RatingsInRange(reviews) && ExplainRating(reviews, mentor).count > 0 ==>
      1.0 <= ExplainRating(reviews, mentor).avg <= 5.0
  {
    Reviews.FilteredAverageInRange(reviews, Reviews.MentorReviews(reviews, mentor), mentor);
  }

  /** What GET /api/match/explain/:mentor_id answers. */
  function ExplainSpec(db: Db, caller: Id, mentorId: Id): Result<Explanation> {
    if caller !in db.users then Err(BadRequest)
    else
      var mine := ProfileOf(db.profiles, caller);
      if mine.None? then Err(BadRequest)
      else
        var mentor := ProfileOf(db.profiles, mentorId);
        if mentor.None? || mentor.value.kind != Mentor then Err(NotFound)
        else
          var agg := ExplainRating(db.reviews, mentorId);
          var sr := ExplainScore(mine.value, mentor.value, db);
          Ok(Explanation(mentorId, DisplayName(mentor.value, db.users), Round1(sr.score),
                         sr.reasons, sr.hasAvail, agg.avg, agg.count))
  }

  /** The error answers of `/explain`: 400 without a user or a profile, 404 when the
      requested profile is missing or is not a mentor's. */
  lemma ExplainErrors(db: Db, caller: Id, mentorId: Id)
    ensures caller !in db.users || ProfileOf(db.profiles, caller).None? ==>
      ExplainSpec(db, caller, mentorId) == Err(BadRequest)
    ensures ExplainSpec(db, caller, mentorId) == Err(NotFound) <==>
      caller in db.users && ProfileOf(db.profiles, caller).Some?
      && (ProfileOf(db.profiles, mentorId).None? || ProfileOf(db.profiles, mentorId).value.kind != Mentor)
    ensures ExplainSpec(db, caller, mentorId).Ok? ==>
      ProfileOf(db.profiles, mentorId).Some? && ProfileOf(db.profiles, mentorId).value.kind == Mentor
  {
    var mentor := ProfileOf(db.profiles, mentorId);
    if caller in db.users && ProfileOf(db.profiles, caller).Some? && mentor.Some? && mentor.value.kind == Mentor {
      assert ExplainSpec(db, caller, mentorId).Ok?;
    }
  }

  /** A successful `/explain` answer names the requested mentor, reports availability
      exactly when the mentor has a future available slot, and the review aggregate. */
  lemma ExplainReports(db: Db, caller: Id, mentorId: Id)
    requires ExplainSpec(db, caller, mentorId).Ok?
    ensures ExplainSpec(db, caller, mentorId).value.mentorId == mentorId
    ensures ExplainSpec(db, caller, mentorId).value.hasAvailability
            <==> HasFutureAvailability(db.slots, mentorId, db.now)
    ensures ExplainSpec(db, caller, mentorId).value.rating == ExplainRating(db.reviews, mentorId).avg
    ensures ExplainSpec(db, caller, mentorId).value.reviewCount == ExplainRating(db.reviews, mentorId).count
  {
    var mentor := ProfileOf(db.profiles, mentorId).value;
    var sr := ExplainScore(ProfileOf(db.profiles, caller).value, mentor, db);
    assert mentor.userId == mentorId;
    assert ExplainSpec(db, caller, mentorId).value.hasAvailability == sr.hasAvail;
  }

  /** GET /api/match/explain/:mentor_id. */
  method Explain(db: Db, caller: Id, mentorId: Id) returns (res: Result<Explanation>)
    ensures res == ExplainSpec(db, caller, mentorId)
  {
    if caller !in db.users {
      return Err(BadRequest);
    }
    var mine := ProfileOf(db.profiles, caller);
    if mine.None? {
      return Err(BadRequest);
    }
    var mentor := ProfileOf(db.profiles, mentorId);
    if mentor.None? || mentor.value.kind != Mentor {
      return Err(NotFound);
    }
    var agg := ExplainRating(db.reviews, mentorId);
    var menteeF := FeaturesOf(mine.value, caller);
    var mf := FeaturesOf(mentor.value, mentor.value.userId);
    var result := ScorePair(menteeF, mf, Options(false, true),
                            HasFutureAvailability(db.slots, mentor.value.userId, db.now));
    assert result == ExplainScore(mine.value, mentor.value, db);
    return Ok(Explanation(
      mentorId, DisplayName(mentor.value, db.users), Round1(result.score), result.reasons,
      result.hasAvail, agg.avg, agg.count));
  }
}

=== FILE: match_service.dfy ===
/** The older tag-based matcher (src/services/matchService.js): a mentor's score is the
    number of its mentor-role tag rows whose tag id is among the mentee's mentee-role
    tag ids; mentors with no shared tag are dropped and the rest are sorted by score,
    highest first. The tables are read-only inputs. */
module MatchService {
  import opened Schema
  import opened Seqs

  /** One entry of the result list. */
  datatype MentorMatch = MentorMatch(mentorId: Id, fullName: string, bio: string, score: nat)

  function MatchScore(m: MentorMatch): real {
    m.score as real
  }

  /** `UserTag.findAll({ where: { user_id, role } }).map(t => t.tag_id)`, in table order. */
  function TagIdsOf(tags: seq<UserTag>, user: Id, role: Role): (ids: seq<nat>)
    ensures |ids| <= |tags|
    ensures forall t :: t in ids <==> exists u :: u in tags && u.userId == user && u.role == role && u.tagId == t
  {
    if tags == [] then []
    else
      var last := tags[|tags| - 1];
      var rest := TagIdsOf(tags[..|tags| - 1], user, role);
      if last.userId == user && last.role == role then rest + [last.tagId] else rest
  }

  /** `mentorTagIds.filter(tag_id => menteeTagIds.includes(tag_id))`: every mentor tag
      row that the mentee shares, duplicates included. */
  function Shared(mentorIds: seq<nat>, menteeIds: seq<nat>): (r: seq<nat>)
    ensures forall t :: t in r <==> t in mentorIds && t in menteeIds
    ensures |r| <= |mentorIds|
  {
    Filter(mentorIds, (t: nat) => t in menteeIds)
  }

  /** `mentor.full_name || mentor.User?.email`. */
  function MentorName(p: ProfileRow, users: map<Id, UserRow>): string {
    if p.fullName != "" then p.fullName
    else if p.userId in users then users[p.userId].email
    else ""
  }

  /** The entry one mentor contributes: nothing without a shared tag. */
  function MatchEntry(p: ProfileRow, tags: seq<UserTag>, menteeIds: seq<nat>, users: map<Id, UserRow>)
    : seq<MentorMatch>
  {
    var overlap := Shared(TagIdsOf(tags, p.userId, Mentor), menteeIds);
    if |overlap| > 0 then [MentorMatch(p.userId, MentorName(p, users), p.bio, |overlap|)] else []
  }

  function MatchPool(mentors: seq<ProfileRow>, tags: seq<UserTag>, menteeIds: seq<nat>, users: map<Id, UserRow>)
    : seq<MentorMatch>
  {
    if mentors == [] then []
    else MatchPool(mentors[..|mentors| - 1], tags, menteeIds, users)
         + MatchEntry(mentors[|mentors| - 1], tags, menteeIds, users)
  }

  predicate IsMentorProfile(p: ProfileRow) {
    p.kind == Mentor
  }

  /** What `getMentorSuggestions(menteeId)` returns. */
  function SuggestionsSpec(tags: seq<UserTag>, profiles: seq<ProfileRow>, users: map<Id, UserRow>, mentee: Id)
    : seq<MentorMatch>
  {
    var mentors := Filter(profiles, IsMentorProfile);
    SortDesc(MatchPool(mentors, tags, TagIdsOf(tags, mentee, Mentee), users), MatchScore)
  }

  lemma MatchPoolSnoc(mentors: seq<ProfileRow>, i: nat, tags: seq<UserTag>, menteeIds: seq<nat>,
                      users: map<Id, UserRow>)
    requires i < |mentors|
    ensures MatchPool(mentors[..i + 1], tags, menteeIds, users)
         == MatchPool(mentors[..i], tags, menteeIds, users) + MatchEntry(mentors[i], tags, menteeIds, users)
  {
    assert mentors[..i + 1][..i] == mentors[..i];
  }

  /** `getMentorSuggestions`: the loop over mentor profiles pushing the ones with a
      shared tag, then the in-place sort by descending score. */
  method GetMentorSuggestions(tags: seq<UserTag>, profiles: seq<ProfileRow>, users: map<Id, UserRow>, mentee: Id)
    returns (results: seq<MentorMatch>)
    ensures results == SuggestionsSpec(tags, profiles, users, mentee)
  {
    var menteeIds := TagIdsOf(tags, mentee, Mentee);
    var mentors := Filter(profiles, IsMentorProfile);
    results := [];
    for i := 0 to |mentors|
      invariant results == MatchPool(mentors[..i], tags, menteeIds, users)
    {
      var mentor := mentors[i];
      var overlap := Shared(TagIdsOf(tags, mentor.userId, Mentor), menteeIds);
      MatchPoolSnoc(mentors, i, tags, menteeIds, users);
      if |overlap| > 0 {
        results := results + [MentorMatch(mentor.userId, MentorName(mentor, users), mentor.bio, |overlap|)];
      }
    }
    assert mentors[..|mentors|] == mentors;
    results := SortDesc(results, MatchScore);
  }

  // ----- properties -----

  /** Every pool entry comes from one mentor with at least one shared tag, and its score
      counts that mentor's tag rows the mentee shares. */
  lemma {:induction false} MatchPoolJustified(mentors: seq<ProfileRow>, tags: seq<UserTag>, menteeIds: seq<nat>,
                                              users: map<Id, UserRow>)
    ensures |MatchPool(mentors, tags, menteeIds, users)| <= |mentors|
    ensures forall m :: m in MatchPool(mentors, tags, menteeIds, users) ==>
      exists p ::
        && p in mentors && p.userId == m.mentorId
        && m.score == |Shared(TagIdsOf(tags, p.userId, Mentor), menteeIds)| && m.score >= 1
  {
    if mentors != [] {
      var n := |mentors| - 1;
      MatchPoolJustified(mentors[..n], tags, menteeIds, users);
      forall m | m in MatchPool(mentors, tags, menteeIds, users)
        ensures exists p ::
          && p in mentors && p.userId == m.mentorId
          && m.score == |Shared(TagIdsOf(tags, p.userId, Mentor), menteeIds)| && m.score >= 1
      {
        if m in MatchPool(mentors[..n], tags, menteeIds, users) {
          var p :| p in mentors[..n] && p.userId == m.mentorId
            && m.score == |Shared(TagIdsOf(tags, p.userId, Mentor), menteeIds)| && m.score >= 1;
          assert p in mentors;
        } else {
          assert mentors[n] in mentors;
        }
      }
    }
  }

  /** A mentor with a shared tag has an entry in the pool. */
  lemma {:induction false} MatchPoolComplete(mentors: seq<ProfileRow>, tags: seq<UserTag>, menteeIds: seq<nat>,
                                             users: map<Id, UserRow>, p: ProfileRow)
    requires p in mentors && |Shared(TagIdsOf(tags, p.userId, Mentor), menteeIds)| > 0
    ensures exists m :: m in MatchPool(mentors, tags, menteeIds, users) && m.mentorId == p.userId
  {
    var n := |mentors| - 1;
    if p == mentors[n] {
      var m := MatchEntry(p, tags, menteeIds, users)[0];
      assert m in MatchPool(mentors, tags, menteeIds, users);
    } else {
      assert p in mentors[..n];
      MatchPoolComplete(mentors[..n], tags, menteeIds, users, p);
    }
  }

  /** Within the pool, a listed mentor has an entry exactly when it shares a tag. */
  lemma MatchPoolMembers(mentors: seq<ProfileRow>, tags: seq<UserTag>, menteeIds: seq<nat>,
                         users: map<Id, UserRow>, p: ProfileRow)
    requires p in mentors
    ensures (exists m :: m in MatchPool(mentors, tags, menteeIds, users) && m.mentorId == p.userId)
        <==> |Shared(TagIdsOf(tags, p.userId, Mentor), menteeIds)| > 0
  {
    if |Shared(TagIdsOf(tags, p.userId, Mentor), menteeIds)| > 0 {
      MatchPoolComplete(mentors, tags, menteeIds, users, p);
    } else {
      MatchPoolJustified(mentors, tags, menteeIds, users);
    }
  }

  /** A mentor profile appears in the results exactly when one of its mentor-role tag
      ids is among the mentee's mentee-role tag ids. */
  lemma AppearsIffSharedTag(tags: seq<UserTag>, profiles: seq<ProfileRow>, users: map<Id, UserRow>, mentee: Id,
                            p: ProfileRow)
    requires p in profiles && p.kind == Mentor
    ensures (exists m :: m in SuggestionsSpec(tags, profiles, users, mentee) && m.mentorId == p.userId)
        <==> (exists t :: t in TagIdsOf(tags, p.userId, Mentor) && t in TagIdsOf(tags, mentee, Mentee))
  {
    var mentors := Filter(profiles, IsMentorProfile);
    var menteeIds := TagIdsOf(tags, mentee, Mentee);
    var pool := MatchPool(mentors, tags, menteeIds, users);
    SameMembers(SortDesc(pool, MatchScore), pool);
    MatchPoolMembers(mentors, tags, menteeIds, users, p);
    var shared := Shared(TagIdsOf(tags, p.userId, Mentor), menteeIds);
    if shared != [] {
      assert shared[0] in shared;
    }
  }

  /** Every result has score at least 1, counting the mentor's tag rows that the
      mentee shares; there are no more results than mentor profiles; and the list is
      sorted by non-increasing score. */
  lemma ResultsShape(tags: seq<UserTag>, profiles: seq<ProfileRow>, users: map<Id, UserRow>, mentee: Id)
    ensures |SuggestionsSpec(tags, profiles, users, mentee)| <= |Filter(profiles, IsMentorProfile)|
    ensures SortedDesc(SuggestionsSpec(tags, profiles, users, mentee), MatchScore)
    ensures forall m :: m in SuggestionsSpec(tags, profiles, users, mentee) ==>
      && m.score >= 1
      && m.score == |Shared(TagIdsOf(tags, m.mentorId, Mentor), TagIdsOf(tags, mentee, Mentee))|
  {
    var mentors := Filter(profiles, IsMentorProfile);
    var menteeIds := TagIdsOf(tags, mentee, Mentee);
    var pool := MatchPool(mentors, tags, menteeIds, users);
    MatchPoolJustified(mentors, tags, menteeIds, users);
    SameMembers(SortDesc(pool, MatchScore), pool);
  }

  /** Duplicated tag rows count: a mentor tagged twice with the same shared tag scores 2. */
  lemma DuplicatesCount()
    ensures |Shared([7, 7], [7])| == 2
  {
    assert [7, 7][..1] == [7];
  }
}

=== FILE: profile.dfy ===
/** Profile editing (src/routes/profile.js): the body normalisers `toStr`,
    `toIntOrNull` and `validRole`, and the two handlers that resolve a role, keep
    `User.role` in step with `Profile.type`, and upsert the profile row. */
module Profile {
  import opened Schema
  import opened Seqs
  import opened Text
  import Match

  // ----- request body values -----

  /** A value of the JSON body: missing (undefined / null), a string, or an array of
      strings. */
  datatype Field = Absent | Text(s: string) | Items(xs: seq<string>)

  /** JavaScript truthiness: a missing value and the empty string are falsy; every
      array, even an empty one, is truthy. */
  predicate Truthy(f: Field) {
    match f
    case Absent => false
    case Text(s) => s != ""
    case Items(_) => true
  }

  /** `a || b`. */
  function Or(a: Field, b: Field): (r: Field)
    ensures Truthy(r) <==> Truthy(a) || Truthy(b)
  {
    if Truthy(a) then a else b
  }

  // ----- toStr -----

  function TrimAll(xs: seq<string>): (r: seq<string>)
    ensures |r| == |xs|
    ensures forall i :: 0 <= i < |xs| ==> r[i] == Trim(xs[i])
  {
    if xs == [] then [] else TrimAll(xs[..|xs| - 1]) + [Trim(xs[|xs| - 1])]
  }

  /** The trimmed elements are exactly the trims of the elements, all trimmed. */
  lemma TrimAllMembers(xs: seq<string>)
    ensures forall y :: y in TrimAll(xs) <==> exists x :: x in xs && y == Trim(x)
    ensures forall y :: y in TrimAll(xs) ==> Trimmed(y)
  {
    var ts := TrimAll(xs);
    forall y | y in ts
      ensures exists x :: x in xs && y == Trim(x)
      ensures Trimmed(y)
    {
      var i :| 0 <= i < |ts| && ts[i] == y;
      assert xs[i] in xs;
      TrimIsTrimmed(xs[i]);
    }
    forall y | exists x :: x in xs && y == Trim(x)
      ensures y in ts
    {
      var x :| x in xs && y == Trim(x);
      var i :| 0 <= i < |xs| && xs[i] == x;
      assert ts[i] == y;
    }
  }

  /** `.map((x) => String(x).trim()).filter(Boolean)`. */
  function Pieces(xs: seq<string>): (r: seq<string>)
    ensures forall y :: y in r <==> y != "" && exists x :: x in xs && y == Trim(x)
    ensures forall y :: y in r ==> y != "" && Trimmed(y)
  {
    TrimAllMembers(xs);
    Filter(TrimAll(xs), Match.NonBlank)
  }

  /** The pieces of a longer array: those of its prefix, then its last element
      trimmed unless that is blank. */
  lemma PiecesSnoc(xs: seq<string>, i: nat)
    requires i < |xs|
    ensures Pieces(xs[..i + 1]) == Pieces(xs[..i]) + (if Trim(xs[i]) != "" then [Trim(xs[i])] else [])
  {
    var p := xs[..i + 1];
    assert p[..i] == xs[..i];
    assert TrimAll(p)[..i] == TrimAll(xs[..i]);
  }

  /** `toStr(v)`: a falsy value is `""`; a string is trimmed; an array keeps its
      trimmed non-empty elements joined with `", "`. Whatever the input, the
      stored text has no white space at either end. */
  function ToStr(f: Field): (r: string)
    ensures Trimmed(r)
    ensures !Truthy(f) ==> r == ""
    ensures f.Text? ==> r == Trim(f.s)
  {
    match f
    case Absent => ""
    case Text(s) =>
      TrimIsTrimmed(s);
      if s == "" then "" else Trim(s)
    case Items(xs) =>
      JoinTrimmed(Pieces(xs));
      Join(Pieces(xs), ", ")
  }

  /** Joining non-empty trimmed pieces with `", "` gives a trimmed string that is
      empty only when there are no pieces. */
  lemma {:induction false} JoinTrimmed(ys: seq<string>)
    requires forall y :: y in ys ==> y != "" && Trimmed(y)
    ensures Trimmed(Join(ys, ", "))
    ensures ys != [] ==> Join(ys, ", ") != ""
  {
    if |ys| > 1 {
      assert forall y :: y in ys[1..] ==> y in ys;
      JoinTrimmed(ys[1..]);
      var rest := Join(ys[1..], ", ");
      var j := Join(ys, ", ");
      assert j == ys[0] + ", " + rest;
      assert ys[0] in ys;
      assert j[0] == ys[0][0];
      assert j[|j| - 1] == rest[|rest| - 1];
    } else if |ys| == 1 {
      assert ys[0] in ys;
    }
  }

  /** A stored value sent back as a plain string is stored unchanged. */
  lemma ToStrIdempotent(f: Field)
    ensures ToStr(Text(ToStr(f))) == ToStr(f)
  {
    TrimmedIsFixed(ToStr(f));
  }

  /** Trimming cannot introduce a comma. */
  lemma TrimKeepsCommaFree(x: string)
    requires ',' !in x
    ensures ',' !in Trim(x)
  {
    var a := TrimStart(x);
    var b := TrimEnd(a);
    assert forall c :: c in b ==> c in a;
    assert forall c :: c in a ==> c in x;
  }

  /** What `toSet` makes of `", "`-joined trimmed pieces: each piece lower-cased. */
  lemma {:induction false} NormalizeSpaced(ys: seq<string>, sp: seq<string>)
    requires |sp| == |ys| >= 1 && sp[0] == ys[0]
    requires forall i :: 1 <= i < |ys| ==> sp[i] == " " + ys[i]
    requires forall y :: y in ys ==> y != "" && Trimmed(y)
    ensures forall i :: 0 <= i < |ys| ==> Match.NormalizeAll(sp)[i] == Lower(ys[i])
  {
    forall i | 0 <= i < |ys|
      ensures Match.NormalizeAll(sp)[i] == Lower(ys[i])
    {
      assert ys[i] in ys;
      if i == 0 {
        TrimmedIsFixed(ys[0]);
      } else {
        TrimAfterBlank(ys[i]);
      }
    }
  }

  lemma {:induction false} ToSetOfJoined(ys: seq<string>)
    requires |ys| >= 1
    requires forall y :: y in ys ==> y != "" && Trimmed(y) && ',' !in y
    ensures forall t :: t in Match.ToSet(Join(ys, ", ")) <==> exists i :: 0 <= i < |ys| && t == Lower(ys[i])
  {
    SplitJoinCommaSpace(ys);
    ToSetOfSpaced(ys, Join(ys, ", "));
  }

  lemma {:induction false} ToSetOfSpaced(ys: seq<string>, j: string)
    requires |ys| >= 1
    requires forall y :: y in ys ==> y != "" && Trimmed(y)
    requires Split(j) == Spaced(ys)
    ensures forall t :: t in Match.ToSet(j) <==> exists i :: 0 <= i < |ys| && t == Lower(ys[i])
  {
    var sp := Split(j);
    NormalizeSpaced(ys, sp);
    LoweredPieces(ys, Match.NormalizeAll(sp), Match.ToSet(j));
  }

  lemma LoweredPieces(ys: seq<string>, ns: seq<string>, r: seq<string>)
    requires |ns| == |ys|
    requires forall y :: y in ys ==> y != ""
    requires forall i :: 0 <= i < |ys| ==> ns[i] == Lower(ys[i])
    requires forall t :: t in r <==> t != "" && t in ns
    ensures forall t :: t in r <==> exists i :: 0 <= i < |ys| && t == Lower(ys[i])
  {
    forall t | exists i :: 0 <= i < |ys| && t == Lower(ys[i])
      ensures t in r
    {
      var i :| 0 <= i < |ys| && t == Lower(ys[i]);
      assert ys[i] in ys;
      assert ns[i] == t;
    }
  }

  /** An array saved through `toStr` and read back by the matcher's `toSet` gives
      exactly the lower-cased trimmed non-empty elements, provided no element holds
      a comma. */
  lemma {:induction false} ToSetOfToStr(xs: seq<string>)
    requires forall x :: x in xs ==> ',' !in x
    ensures forall t :: t in Match.ToSet(ToStr(Items(xs))) <==>
      exists x :: x in xs && Trim(x) != "" && t == Lower(Trim(x))
  {
    var ys := Pieces(xs);
    assert ToStr(Items(xs)) == Join(ys, ", ");
    if ys == [] {
      Match.ToSetOfEmpty();
      NoPieces(xs);
    } else {
      PiecesCommaFree(xs);
      ToSetOfJoined(ys);
      PiecesLowered(xs, ys, Match.ToSet(Join(ys, ", ")));
    }
  }

  lemma NoPieces(xs: seq<string>)
    requires Pieces(xs) == []
    ensures forall x :: x in xs ==> Trim(x) == ""
  {
    forall x | x in xs
      ensures Trim(x) == ""
    {
      assert Trim(x) != "" ==> Trim(x) in Pieces(xs);
    }
  }

  lemma PiecesCommaFree(xs: seq<string>)
    requires forall x :: x in xs ==> ',' !in x
    ensures forall y :: y in Pieces(xs) ==> ',' !in y
  {
    forall y | y in Pieces(xs)
      ensures ',' !in y
    {
      var x :| x in xs && y == Trim(x);
      TrimKeepsCommaFree(x);
    }
  }

  lemma PiecesLowered(xs: seq<string>, ys: seq<string>, r: seq<string>)
    requires forall y :: y in ys <==> y != "" && exists x :: x in xs && y == Trim(x)
    requires forall t :: t in r <==> exists i :: 0 <= i < |ys| && t == Lower(ys[i])
    ensures forall t :: t in r <==> exists x :: x in xs && Trim(x) != "" && t == Lower(Trim(x))
  {
    forall t | t in r
      ensures exists x :: x in xs && Trim(x) != "" && t == Lower(Trim(x))
    {
      var i :| 0 <= i < |ys| && t == Lower(ys[i]);
      assert ys[i] in ys;
      var x :| x in xs && ys[i] == Trim(x);
    }
    forall t | exists x :: x in xs && Trim(x) != "" && t == Lower(Trim(x))
      ensures t in r
    {
      var x :| x in xs && Trim(x) != "" && t == Lower(Trim(x));
      assert Trim(x) in ys;
      var i :| 0 <= i < |ys| && ys[i] == Trim(x);
    }
  }

  // ----- toIntOrNull -----

  predicate IsDigit(c: char) {
    '0' <= c <= '9'
  }

  function DigitValue(c: char): nat
    requires IsDigit(c)
  {
    (c - '0') as nat
  }

  /** The longest prefix of decimal digits. */
  function DigitRun(s: string): (r: string)
    ensures |r| <= |s| && r == s[..|r|]
    ensures forall i :: 0 <= i < |r| ==> IsDigit(r[i])
    ensures |r| == |s| || !IsDigit(s[|r|])
  {
    if s == [] || !IsDigit(s[0]) then "" else [s[0]] + DigitRun(s[1..])
  }

  /** The number a run of digits denotes. */
  function DigitsValue(ds: string): nat
    requires forall i :: 0 <= i < |ds| ==> IsDigit(ds[i])
  {
    if ds == [] then 0 else DigitsValue(ds[..|ds| - 1]) * 10 + DigitValue(ds[|ds| - 1])
  }

  /** `Number.parseInt(s, 10)`: skip leading white space, read an optional sign,
      then the longest run of digits; no digit at all is `NaN`, here `None`. */
  function ParseInt(s: string): (r: Option<int>)
    ensures r.None? <==> DigitRun(Unsigned(TrimStart(s))) == ""
  {
    var t := TrimStart(s);
    var ds := DigitRun(Unsigned(t));
    if ds == "" then None
    else
      var v: int := DigitsValue(ds);
      if t[0] == '-' then Some(-v) else Some(v)
  }

  /** The text after a leading `+` or `-`. */
  function Unsigned(t: string): (r: string)
    ensures r == t || (t != [] && r == t[1..] && (t[0] == '+' || t[0] == '-'))
  {
    if t != [] && (t[0] == '+' || t[0] == '-') then t[1..] else t
  }

  /** `toIntOrNull(v)`: `parseInt` of `String(v)`. A missing value reads as
      `"undefined"` or `"null"` and an array as its elements joined with `","`. */
  function ToIntOrNull(f: Field): (r: Option<int>)
    ensures f.Absent? ==> r == None
    ensures f.Text? ==> r == ParseInt(f.s)
  {
    match f
    case Absent => None
    case Text(s) => ParseInt(s)
    case Items(xs) => ParseInt(Join(xs, ","))
  }

  /** The decimal digits of `n`, most significant first. */
  function Decimal(n: nat): (r: string)
    ensures r != "" && forall i :: 0 <= i < |r| ==> IsDigit(r[i])
  {
    var d := ['0' + (n % 10) as char];
    if n < 10 then d else Decimal(n / 10) + d
  }

  lemma {:induction false} DecimalValue(n: nat)
    ensures DigitsValue(Decimal(n)) == n
  {
    var r := Decimal(n);
    if n >= 10 {
      DecimalValue(n / 10);
      assert r[..|r| - 1] == Decimal(n / 10);
    }
  }

  lemma {:induction false} DigitRunOf(ds: string, rest: string)
    requires forall i :: 0 <= i < |ds| ==> IsDigit(ds[i])
    requires rest == [] || !IsDigit(rest[0])
    ensures DigitRun(ds + rest) == ds
  {
    if ds != [] {
      assert (ds + rest)[1..] == ds[1..] + rest;
      DigitRunOf(ds[1..], rest);
    }
  }

  /** `parseInt` reads back a decimal number and ignores whatever follows the
      digits (`"12px"` is 12). */
  lemma {:induction false} ParseIntOfDecimal(n: nat, rest: string)
    requires rest == [] || !IsDigit(rest[0])
    ensures ParseInt(Decimal(n) + rest) == Some(n)
  {
    var d := Decimal(n);
    var s := d + rest;
    var c := d[0];
    assert IsDigit(c);
    assert s[0] == c;
    assert !IsSpace(c);
    assert TrimStart(s) == s;
    assert Unsigned(s) == s;
    DigitRunOf(d, rest);
    DecimalValue(n);
  }

  /** With a minus sign in front, the negated number. */
  lemma {:induction false} ParseIntOfNegative(n: nat, rest: string)
    requires rest == [] || !IsDigit(rest[0])
    ensures ParseInt("-" + Decimal(n) + rest) == Some(-(n as int))
  {
    var d := Decimal(n);
    var s := "-" + d + rest;
    assert s[0] == '-';
    assert TrimStart(s) == s;
    assert s[1..] == d + rest;
    assert Unsigned(s) == d + rest;
    DigitRunOf(d, rest);
    DecimalValue(n);
  }

  // ----- validRole -----

  /** `validRole(r)`: the role when `r` names one, null otherwise. */
  function ValidRole(s: string): (r: Option<Role>)
    ensures r.Some? <==> s == "mentor" || s == "mentee"
    ensures r.Some? ==> RoleName(r.value) == s
  {
    if s == "mentor" then Some(Mentor) else if s == "mentee" then Some(Mentee) else None
  }

  lemma ValidRoleOfName(role: Role)
    ensures ValidRole(RoleName(role)) == Some(role)
  {
  }

  // ----- the profile row -----

  /** The fields of the request body the handlers read (`role` is `""` when
      missing). */
  datatype ProfileBody = ProfileBody(
    role: string,
    name: Field,
    fullName: Field,
    headline: Field,
    bio: Field,
    background: Field,
    expertise: Field,
    skills: Field,
    interests: Field,
    helpAreas: Field,
    categories: Field,
    goals: Field,
    timezone: Field,
    preferredTimes: Field,
    experienceYears: Field,
    hourlyRate: Field)

  /** The upsert payload both handlers build; the name is `name || full_name`. Every
      text column is stored trimmed. */
  function Payload(userId: Id, kind: Role, b: ProfileBody, hourlyRate: Option<int>, now: int): (p: ProfileRow)
    ensures p.userId == userId && p.kind == kind && p.hourlyRate == hourlyRate
  {
    ProfileRow(
      userId, kind,
      ToStr(Or(b.name, b.fullName)),
      ToStr(b.headline),
      ToStr(b.bio),
      ToStr(b.background),
      ToStr(b.expertise),
      ToStr(b.skills),
      ToStr(b.interests),
      ToStr(b.helpAreas),
      ToStr(b.categories),
      ToStr(b.goals),
      ToStr(b.timezone),
      ToStr(b.preferredTimes),
      ToIntOrNull(b.experienceYears),
      hourlyRate,
      now)
  }

  /** The stored name is `name` when that is truthy and `full_name` otherwise, and
      every text column is stored without white space at either end. */
  lemma PayloadNormalised(userId: Id, kind: Role, b: ProfileBody, hourlyRate: Option<int>, now: int)
    ensures var p := Payload(userId, kind, b, hourlyRate, now);
      && p.fullName == (if Truthy(b.name) then ToStr(b.name) else ToStr(b.fullName))
      && Trimmed(p.fullName) && Trimmed(p.headline) && Trimmed(p.bio) && Trimmed(p.background)
      && Trimmed(p.expertise) && Trimmed(p.skills) && Trimmed(p.interests) && Trimmed(p.helpAreas)
      && Trimmed(p.categories) && Trimmed(p.goals) && Trimmed(p.timezone) && Trimmed(p.preferredTimes)
  {
  }

  /** `Profile.findByPk(userId)`. */
  function FindProfile(rows: seq<ProfileRow>, id: Id): (r: Option<nat>)
    ensures r.Some? ==> r.value < |rows| && rows[r.value].userId == id
    ensures r.None? <==> forall i :: 0 <= i < |rows| ==> rows[i].userId != id
  {
    if rows == [] then None
    else if rows[0].userId == id then Some(0)
    else
      var r := FindProfile(rows[1..], id);
      if r.Some? then Some(r.value + 1) else None
  }

  /** `Profile.upsert(row)`: the user's profile becomes `row`, inserted when the
      user had none; the other users' profiles are kept. */
  function Upsert(rows: seq<ProfileRow>, row: ProfileRow): (r: seq<ProfileRow>)
    requires OnePerUser(rows)
    ensures OnePerUser(r)
    ensures forall p :: p in r <==> p == row || (p in rows && p.userId != row.userId)
  {
    match FindProfile(rows, row.userId)
    case Some(i) =>
      UpsertReplaces(rows, i, row);
      rows[i := row]
    case None => rows + [row]
  }

  lemma UpsertReplaces(rows: seq<ProfileRow>, i: nat, row: ProfileRow)
    requires OnePerUser(rows)
    requires i < |rows| && rows[i].userId == row.userId
    ensures OnePerUser(rows[i := row])
    ensures forall p :: p in rows[i := row] <==> p == row || (p in rows && p.userId != row.userId)
  {
    var r := rows[i := row];
    assert r[i] == row;
    forall p | p in rows && p.userId != row.userId
      ensures p in r
    {
      var j :| 0 <= j < |rows| && rows[j] == p;
      assert r[j] == p;
    }
    forall p | p in r && p != row
      ensures p in rows && p.userId != row.userId
    {
      var j :| 0 <= j < |r| && r[j] == p;
      assert j != i && rows[j] == p;
    }
  }

  /** After an upsert the user's profile is exactly `row`. */
  lemma UpsertFinds(rows: seq<ProfileRow>, row: ProfileRow)
    requires OnePerUser(rows)
    ensures FindProfile(Upsert(rows, row), row.userId).Some?
    ensures Upsert(rows, row)[FindProfile(Upsert(rows, row), row.userId).value] == row
  {
    var r := Upsert(rows, row);
    assert row in r;
    var k := FindProfile(r, row.userId).value;
    assert r[k] in r;
  }

  // ----- PUT /:user_id -----

  /** `newRole || user.role || "mentee"`, which must then be a value of the
      Profiles.type ENUM: a user whose stored role is `"unset"` and who sends no
      valid role makes the upsert fail. */
  function EffectiveRole(newRole: Option<Role>, userRole: string): (r: Result<Role>)
    ensures newRole.Some? ==> r == Ok(newRole.value)
    ensures newRole.None? && userRole == "" ==> r == Ok(Mentee)
    ensures newRole.None? && userRole != "" ==>
      && (r.Ok? <==> userRole == "mentor" || userRole == "mentee")
      && (r.Ok? ==> RoleName(r.value) == userRole)
    ensures r.Err? ==> r.error == ServerError
  {
    if newRole.Some? then Ok(newRole.value)
    else if userRole == "" then Ok(Mentee)
    else match ValidRole(userRole)
      case Some(role) => Ok(role)
      case None => Err(ServerError)
  }

  /** `user.role = role; await user.save()`, skipped when the role is already
      that one: only that user's role can change. */
  method SaveRole(users: UserTable, id: Id, role: string)
    requires users.Valid() && id in users.rows
    modifies users
    ensures users.Valid()
    ensures users.rows == old(users.rows)[id := old(users.rows)[id].(role := role)]
    ensures old(users.rows)[id].role == role ==> users.rows == old(users.rows)
  {
    if users.rows[id].role != role {
      users.rows := users.rows[id := users.rows[id].(role := role)];
    } else {
      assert users.rows[id := users.rows[id].(role := role)] == users.rows;
    }
  }

  /** `Profile.upsert(row)`. */
  method SaveRow(profiles: ProfileTable, row: ProfileRow)
    requires profiles.Valid()
    modifies profiles
    ensures profiles.Valid()
    ensures profiles.rows == Upsert(old(profiles.rows), row)
  {
    profiles.rows := Upsert(profiles.rows, row);
  }

  /** PUT /api/profile/:user_id. An unknown user is 404. A valid role in the body
      that differs from the stored one is saved on the user first. The profile is
      then upserted with the effective role and every normalised field. */
  method UpdateProfile(users: UserTable, profiles: ProfileTable, userId: Id, body: ProfileBody, now: int)
    returns (res: Result<ProfileRow>)
    requires users.Valid() && profiles.Valid()
    modifies users, profiles
    ensures users.Valid() && profiles.Valid()
    ensures userId !in old(users.rows) ==> res == Err(NotFound)
    ensures res.Ok? <==>
      && userId in old(users.rows)
      && EffectiveRole(ValidRole(body.role), old(users.rows)[userId].role).Ok?
    ensures res.Err? ==> users.rows == old(users.rows) && profiles.rows == old(profiles.rows)
    ensures res.Ok? ==>
      var user := old(users.rows)[userId];
      var newRole := ValidRole(body.role);
      && res.value == Payload(userId, EffectiveRole(newRole, user.role).value, body, ToIntOrNull(body.hourlyRate), now)
      && profiles.rows == Upsert(old(profiles.rows), res.value)
      && users.rows == if newRole.Some? && RoleName(newRole.value) != user.role
                       then old(users.rows)[userId := user.(role := RoleName(newRole.value))]
                       else old(users.rows)
    ensures res.Ok? && old(users.rows)[userId].role != "" ==> users.rows[userId].role == RoleName(res.value.kind)
  {
    if userId !in users.rows {
      return Err(NotFound);
    }
    var user := users.rows[userId];
    var newRole := ValidRole(body.role);
    if newRole.Some? {
      SaveRole(users, userId, RoleName(newRole.value));
    }
    var effective := EffectiveRole(newRole, user.role);
    if effective.Err? {
      return Err(ServerError);
    }
    var row := Payload(userId, effective.value, body, ToIntOrNull(body.hourlyRate), now);
    SaveRow(profiles, row);
    return Ok(row);
  }

  // ----- POST /onboarding -----

  /** `validRole(role) || validRole(user.role) || "mentee"`. */
  function DesiredRole(bodyRole: string, userRole: string): (r: Role)
    ensures ValidRole(bodyRole).Some? ==> r == ValidRole(bodyRole).value
    ensures ValidRole(bodyRole).None? && ValidRole(userRole).Some? ==> r == ValidRole(userRole).value
    ensures ValidRole(bodyRole).None? && ValidRole(userRole).None? ==> r == Mentee
  {
    match ValidRole(bodyRole)
    case Some(role) => role
    case None =>
      match ValidRole(userRole)
      case Some(role) => role
      case None => Mentee
  }

  /** Onboarding again without a role keeps the role the first onboarding chose. */
  lemma DesiredRoleStable(bodyRole: string, userRole: string, laterRole: string)
    requires ValidRole(laterRole).None?
    ensures DesiredRole(laterRole, RoleName(DesiredRole(bodyRole, userRole))) == DesiredRole(bodyRole, userRole)
  {
    ValidRoleOfName(DesiredRole(bodyRole, userRole));
  }

  /** POST /api/profile/onboarding for the logged-in `caller` (`""` when nobody is
      logged in, 401). An unknown user is 404. The user's role is set to the
      desired role, then the profile is upserted; the body carries no hourly rate,
      so an existing profile keeps its own. */
  method Onboard(users: UserTable, profiles: ProfileTable, caller: Id, body: ProfileBody, now: int)
    returns (res: Result<ProfileRow>)
    requires users.Valid() && profiles.Valid()
    modifies users, profiles
    ensures users.Valid() && profiles.Valid()
    ensures caller == "" ==> res == Err(Unauthorized)
    ensures caller != "" && caller !in old(users.rows) ==> res == Err(NotFound)
    ensures res.Ok? <==> caller != "" && caller in old(users.rows)
    ensures res.Err? ==> users.rows == old(users.rows) && profiles.rows == old(profiles.rows)
    ensures res.Ok? ==>
      var user := old(users.rows)[caller];
      var role := DesiredRole(body.role, user.role);
      var existing := FindProfile(old(profiles.rows), caller);
      var hourly := if existing.Some? then old(profiles.rows)[existing.value].hourlyRate else None;
      && res.value == Payload(caller, role, body, hourly, now)
      && profiles.rows == Upsert(old(profiles.rows), res.value)
      && users.rows == old(users.rows)[caller := user.(role := RoleName(role))]
    ensures res.Ok? ==> users.rows[caller].role == RoleName(res.value.kind)
  {
    if caller == "" {
      return Err(Unauthorized);
    }
    if caller !in users.rows {
      return Err(NotFound);
    }
    var user := users.rows[caller];
    var role := DesiredRole(body.role, user.role);
    SaveRole(users, caller, RoleName(role));
    var existing := FindProfile(profiles.rows, caller);
    var hourly := if existing.Some? then profiles.rows[existing.value].hourlyRate else None;
    var row := Payload(caller, role, body, hourly, now);
    SaveRow(profiles, row);
    return Ok(row);
  }
}

=== FILE: profilecontroller.dfy ===
/** `saveProfile` (src/controllers/profileController.js): validates the body, upserts
    the basic profile fields, deletes the user's tag links and creates one link per
    non-blank tag name, finding or creating the Tag row of that name. */
module ProfileController {
  import opened Schema
  import opened Seqs
  import opened Text
  import Profile

  /** The body: `tags` is `None` when it is not an array. Missing strings are `""`. */
  datatype SaveBody = SaveBody(userId: Id, kind: string, fullName: string, bio: string, tags: Option<seq<string>>)

  /** `Array.isArray(tags) ? tags : []`. */
  function TagNames(b: SaveBody): seq<string> {
    if b.tags.Some? then b.tags.value else []
  }

  // ----- tags -----

  /** `Tag.findOne({ where: { name } })`: the index of the row with that name. */
  function FindTag(tags: seq<Tag>, name: string): (r: Option<nat>)
    ensures r.Some? ==> r.value < |tags| && tags[r.value].name == name
    ensures r.Some? ==> forall j :: 0 <= j < r.value ==> tags[j].name != name
    ensures r.None? <==> forall j :: 0 <= j < |tags| ==> tags[j].name != name
  {
    if tags == [] then None
    else if tags[0].name == name then Some(0)
    else
      var r := FindTag(tags[1..], name);
      if r.Some? then Some(r.value + 1) else None
  }

  /** A row appended at the end does not change where an existing name is found. */
  lemma FindTagExtend(tags: seq<Tag>, t: Tag, name: string)
    requires FindTag(tags, name).Some?
    ensures FindTag(tags + [t], name) == FindTag(tags, name)
  {
    var i := FindTag(tags, name).value;
    assert (tags + [t])[i] == tags[i];
  }

  /** The Tags table, its id counter, and the UserTags table. */
  datatype TagState = TagState(tags: seq<Tag>, nextId: nat, links: seq<UserTag>)

  /** One iteration of the loop: a blank name is skipped; otherwise the tag of that
      name is found or created and a link with weight 1 is added. */
  function SaveStep(st: TagState, raw: string, user: Id, role: Role): TagState {
    var name := Trim(raw);
    if name == "" then st
    else match FindTag(st.tags, name)
      case Some(i) => st.(links := st.links + [UserTag(user, st.tags[i].id, role, 1)])
      case None =>
        TagState(st.tags + [Tag(st.nextId, name)], st.nextId + 1, st.links + [UserTag(user, st.nextId, role, 1)])
  }

  function SaveTags(st: TagState, names: seq<string>, user: Id, role: Role): TagState {
    if names == [] then st
    else SaveStep(SaveTags(st, names[..|names| - 1], user, role), names[|names| - 1], user, role)
  }

  lemma SaveTagsSnoc(st: TagState, names: seq<string>, i: nat, user: Id, role: Role)
    requires i < |names|
    ensures SaveTags(st, names[..i + 1], user, role) == SaveStep(SaveTags(st, names[..i], user, role), names[i], user, role)
  {
    assert names[..i + 1][..i] == names[..i];
  }

  /** Tags are only ever added, at the end, with fresh ids and names not already
      present. */
  lemma {:induction false} SaveTagsKeepsTags(st: TagState, names: seq<string>, user: Id, role: Role)
    requires TagsWellFormed(st.tags, st.nextId)
    ensures TagsWellFormed(SaveTags(st, names, user, role).tags, SaveTags(st, names, user, role).nextId)
    ensures st.tags <= SaveTags(st, names, user, role).tags
  {
    if names != [] {
      var n := |names| - 1;
      SaveTagsKeepsTags(st, names[..n], user, role);
      SaveStepKeepsTags(SaveTags(st, names[..n], user, role), names[n], user, role);
    }
  }

  /** One step keeps the Tags table well formed and only appends to it. */
  lemma SaveStepKeepsTags(st: TagState, raw: string, user: Id, role: Role)
    requires TagsWellFormed(st.tags, st.nextId)
    ensures TagsWellFormed(SaveStep(st, raw, user, role).tags, SaveStep(st, raw, user, role).nextId)
    ensures st.tags <= SaveStep(st, raw, user, role).tags
  {
    var name := Trim(raw);
    if name != "" && FindTag(st.tags, name).None? {
      var tags := st.tags + [Tag(st.nextId, name)];
      assert forall i :: 0 <= i < |st.tags| ==> tags[i] == st.tags[i];
    }
  }

  /** The links after position `base` are one per name of `ps`, in order, each for
      `user` with `role` and weight 1, and each pointing at the tag that carries
      that name. */
  predicate LinksFor(r: TagState, base: nat, ps: seq<string>, user: Id, role: Role) {
    && |r.links| == base + |ps|
    && forall k :: 0 <= k < |ps| ==> LinkAt(r, base + k, ps[k], user, role)
  }

  /** Link `i` belongs to `user` with `role` and weight 1 and points at the tag
      named `name`. */
  predicate LinkAt(r: TagState, i: nat, name: string, user: Id, role: Role) {
    && i < |r.links|
    && r.links[i].userId == user && r.links[i].role == role && r.links[i].weight == 1
    && FindTag(r.tags, name).Some?
    && r.tags[FindTag(r.tags, name).value].id == r.links[i].tagId
  }

  lemma SaveStepLinks(prev: TagState, raw: string, base: nat, ps: seq<string>, user: Id, role: Role)
    requires LinksFor(prev, base, ps, user, role)
    ensures LinksFor(SaveStep(prev, raw, user, role), base, ps + (if Trim(raw) != "" then [Trim(raw)] else []), user, role)
  {
    var name := Trim(raw);
    if name != "" {
      var r := SaveStep(prev, raw, user, role);
      var found := FindTag(prev.tags, name);
      var t := Tag(prev.nextId, name);
      var id := if found.Some? then prev.tags[found.value].id else prev.nextId;
      assert r.links == prev.links + [UserTag(user, id, role, 1)];
      assert r.tags == if found.Some? then prev.tags else prev.tags + [t];
      forall k | 0 <= k < |ps|
        ensures FindTag(r.tags, ps[k]) == FindTag(prev.tags, ps[k])
      {
        if found.None? {
          FindTagExtend(prev.tags, t, ps[k]);
        }
      }
      if found.None? {
        assert r.tags[|prev.tags|] == t;
      }
      assert r.tags[FindTag(r.tags, name).value].id == id;
      LinksForSnoc(prev, r, base, ps, name, UserTag(user, id, role, 1), user, role);
    }
  }

  lemma LinksForSnoc(prev: TagState, r: TagState, base: nat, ps: seq<string>, name: string, l: UserTag, user: Id, role: Role)
    requires LinksFor(prev, base, ps, user, role)
    requires r.links == prev.links + [l]
    requires forall k :: 0 <= k < |ps| ==> FindTag(r.tags, ps[k]) == FindTag(prev.tags, ps[k])
    requires prev.tags <= r.tags
    requires l.userId == user && l.role == role && l.weight == 1
    requires FindTag(r.tags, name).Some? && r.tags[FindTag(r.tags, name).value].id == l.tagId
    ensures LinksFor(r, base, ps + [name], user, role)
  {
    var ps' := ps + [name];
    forall k | 0 <= k < |ps'|
      ensures LinkAt(r, base + k, ps'[k], user, role)
    {
      if k < |ps| {
        assert ps'[k] == ps[k] && r.links[base + k] == prev.links[base + k];
        assert LinkAt(prev, base + k, ps[k], user, role);
        var j := FindTag(prev.tags, ps[k]).value;
        assert r.tags[j] == prev.tags[j];
      } else {
        assert ps'[k] == name && r.links[base + k] == l;
      }
    }
  }

  /** The links a save adds are one per piece of the name list (trimmed, non-blank,
      in order), for `user` with `role` and weight 1, each pointing at the tag of
      that name. */
  lemma {:induction false} SaveTagsLinks(st: TagState, names: seq<string>, user: Id, role: Role)
    ensures LinksFor(SaveTags(st, names, user, role), |st.links|, Profile.Pieces(names), user, role)
  {
    if names != [] {
      var n := |names| - 1;
      assert names[..n + 1] == names;
      SaveTagsLinks(st, names[..n], user, role);
      Profile.PiecesSnoc(names, n);
      SaveStepLinks(SaveTags(st, names[..n], user, role), names[n], |st.links|, Profile.Pieces(names[..n]), user, role);
    }
  }

  /** Saving names that all already have a tag creates no tag. */
  lemma {:induction false} SaveTagsNoNewTags(st: TagState, names: seq<string>, user: Id, role: Role)
    requires forall x :: x in names && Trim(x) != "" ==> FindTag(st.tags, Trim(x)).Some?
    ensures SaveTags(st, names, user, role).tags == st.tags
    ensures SaveTags(st, names, user, role).nextId == st.nextId
  {
    if names != [] {
      var n := |names| - 1;
      var p := names[..n];
      assert forall x :: x in p ==> x in names;
      SaveTagsNoNewTags(st, p, user, role);
      assert names[n] in names;
      SaveStepNoNewTag(SaveTags(st, p, user, role), names[n], user, role);
    }
  }

  lemma SaveStepNoNewTag(prev: TagState, raw: string, user: Id, role: Role)
    requires Trim(raw) != "" ==> FindTag(prev.tags, Trim(raw)).Some?
    ensures SaveStep(prev, raw, user, role).tags == prev.tags
    ensures SaveStep(prev, raw, user, role).nextId == prev.nextId
  {
  }

  /** Saving the same list a second time reuses every tag: the Tags table does not
      grow. */
  lemma {:induction false} SaveTwiceReusesTags(st: TagState, names: seq<string>, user: Id, role: Role, links: seq<UserTag>)
    ensures
      var first := SaveTags(st, names, user, role);
      SaveTags(first.(links := links), names, user, role).tags == first.tags
  {
    var first := SaveTags(st, names, user, role);
    SaveTagsLinks(st, names, user, role);
    var ps := Profile.Pieces(names);
    forall x | x in names && Trim(x) != ""
      ensures FindTag(first.tags, Trim(x)).Some?
    {
      assert Trim(x) in ps;
      var k :| 0 <= k < |ps| && ps[k] == Trim(x);
      assert LinkAt(first, |st.links| + k, ps[k], user, role);
    }
    SaveTagsNoNewTags(first.(links := links), names, user, role);
  }

  // ----- the profile row -----

  /** `Profile.upsert({ user_id, type, full_name, bio })`: an existing profile keeps
      its other columns; a new one has them empty. */
  function SavedProfile(rows: seq<ProfileRow>, b: SaveBody, role: Role, now: int): (p: ProfileRow)
    ensures p.userId == b.userId && p.kind == role && p.fullName == b.fullName && p.bio == b.bio
    ensures Profile.FindProfile(rows, b.userId).Some? ==>
      p == rows[Profile.FindProfile(rows, b.userId).value].(kind := role, fullName := b.fullName, bio := b.bio, updatedAt := now)
  {
    match Profile.FindProfile(rows, b.userId)
    case Some(i) => rows[i].(kind := role, fullName := b.fullName, bio := b.bio, updatedAt := now)
    case None => ProfileRow(b.userId, role, b.fullName, "", b.bio, "", "", "", "", "", "", "", "", "", None, None, now)
  }

  /** `UserTag.destroy({ where: { user_id } })`. */
  function OtherUsersLinks(links: seq<UserTag>, user: Id): (r: seq<UserTag>)
    ensures forall l :: l in r <==> l in links && l.userId != user
  {
    Filter(links, (l: UserTag) => l.userId != user)
  }

  /** `saveProfile`. A missing `user_id` or a type other than mentor/mentee fails
      (500) before any write. Otherwise the profile is upserted, the user's links are
      deleted, and the tag names are saved one by one. */
  method SaveProfile(profiles: ProfileTable, tags: TagTable, userTags: UserTagTable, b: SaveBody, now: int)
    returns (res: Result<()>)
    requires profiles.Valid() && tags.Valid()
    modifies profiles, tags, userTags
    ensures profiles.Valid() && tags.Valid()
    ensures res.Ok? <==> b.userId != "" && Profile.ValidRole(b.kind).Some?
    ensures res.Err? ==>
      && res.error == ServerError
      && profiles.rows == old(profiles.rows) && tags.rows == old(tags.rows) && tags.nextId == old(tags.nextId)
      && userTags.rows == old(userTags.rows)
    ensures res.Ok? ==>
      var role := Profile.ValidRole(b.kind).value;
      var st := SaveTags(TagState(old(tags.rows), old(tags.nextId), OtherUsersLinks(old(userTags.rows), b.userId)),
                         TagNames(b), b.userId, role);
      && profiles.rows == Profile.Upsert(old(profiles.rows), SavedProfile(old(profiles.rows), b, role, now))
      && tags.rows == st.tags && tags.nextId == st.nextId
      && userTags.rows == st.links
  {
    if b.userId == "" {
      return Err(ServerError);
    }
    var valid := Profile.ValidRole(b.kind);
    if valid.None? {
      return Err(ServerError);
    }
    var role := valid.value;
    profiles.rows := Profile.Upsert(profiles.rows, SavedProfile(profiles.rows, b, role, now));
    var kept := OtherUsersLinks(userTags.rows, b.userId);
    var st0 := TagState(tags.rows, tags.nextId, kept);
    var st := SaveTagRows(st0, TagNames(b), b.userId, role);
    SaveTagsKeepsTags(st0, TagNames(b), b.userId, role);
    tags.rows, tags.nextId, userTags.rows := st.tags, st.nextId, st.links;
    return Ok(());
  }

  /** The loop over the names, one find-or-create and one link at a time. */
  method SaveTagRows(st0: TagState, names: seq<string>, user: Id, role: Role) returns (st: TagState)
    ensures st == SaveTags(st0, names, user, role)
  {
    var rows, nextId, links := st0.tags, st0.nextId, st0.links;
    for i := 0 to |names|
      invariant TagState(rows, nextId, links) == SaveTags(st0, names[..i], user, role)
    {
      SaveTagsSnoc(st0, names, i, user, role);
      var name := Trim(names[i]);
      if name == "" {
        continue;
      }
      var found := FindTag(rows, name);
      var id: nat;
      if found.Some? {
        id := rows[found.value].id;
      } else {
        id := nextId;
        rows := rows + [Tag(id, name)];
        nextId := nextId + 1;
      }
      links := links + [UserTag(user, id, role, 1)];
    }
    assert names[..|names|] == names;
    st := TagState(rows, nextId, links);
  }

  /** After a save that started from other users' links only, the links are the
      old ones followed by the user's new ones: other users' links are exactly as
      before, and every link of the user has the saved role and weight 1. */
  lemma {:induction false} SavedLinks(st: TagState, names: seq<string>, user: Id, role: Role)
    requires forall l :: l in st.links ==> l.userId != user
    ensures
      var r := SaveTags(st, names, user, role);
      && st.links <= r.links
      && (forall l :: l in r.links && l.userId != user <==> l in st.links)
      && (forall l :: l in r.links && l.userId == user ==> l.role == role && l.weight == 1)
  {
    SaveTagsLinks(st, names, user, role);
    SaveTagsAppendsLinks(st, names, user, role);
    AddedLinks(st.links, SaveTags(st, names, user, role), Profile.Pieces(names), user, role);
  }

  lemma AddedLinks(links: seq<UserTag>, r: TagState, ps: seq<string>, user: Id, role: Role)
    requires forall l :: l in links ==> l.userId != user
    requires links <= r.links
    requires LinksFor(r, |links|, ps, user, role)
    ensures forall l :: l in r.links && l.userId != user <==> l in links
    ensures forall l :: l in r.links && l.userId == user ==> l.role == role && l.weight == 1
  {
    var added := r.links[|links|..];
    assert r.links == links + added;
    forall l | l in added
      ensures l.userId == user && l.role == role && l.weight == 1
    {
      var k :| 0 <= k < |added| && added[k] == l;
      assert LinkAt(r, |links| + k, ps[k], user, role);
      assert added[k] == r.links[|links| + k];
    }
    SplitByUser(links, added, user);
  }

  lemma SplitByUser(a: seq<UserTag>, b: seq<UserTag>, user: Id)
    requires forall l :: l in a ==> l.userId != user
    requires forall l :: l in b ==> l.userId == user
    ensures forall l :: l in a + b && l.userId != user <==> l in a
    ensures forall l :: l in a + b && l.userId == user <==> l in b
  {
  }

  /** Links are only ever appended. */
  lemma {:induction false} SaveTagsAppendsLinks(st: TagState, names: seq<string>, user: Id, role: Role)
    ensures st.links <= SaveTags(st, names, user, role).links
  {
    if names != [] {
      SaveTagsAppendsLinks(st, names[..|names| - 1], user, role);
    }
  }
}

=== FILE: reports.dfy ===
/** User reports (src/routes/reports.js): a logged-in user reports another user,
    optionally pointing at a message of their conversation, and lists the reports
    they filed. */
module Reports {
  import opened Schema
  import opened Seqs

  /** The `reason` column is `STRING(80)`. */
  const REASON_MAX: nat := 80

  /** The message was exchanged between `reporter` and `target`, in either
      direction. */
  predicate InThread(m: Message, reporter: Id, target: Id) {
    || (m.sender == reporter && m.receiver == target)
    || (m.sender == target && m.receiver == reporter)
  }

  /** Who reports whom does not matter to the thread check. */
  lemma InThreadSymmetric(m: Message, a: Id, b: Id)
    ensures InThread(m, a, b) <==> InThread(m, b, a)
  {
  }

  /** `Message.findByPk(id)`. */
  function FindMessage(msgs: seq<Message>, id: nat): (r: Option<Message>)
    ensures r.Some? ==> r.value in msgs && r.value.id == id
    ensures r.None? <==> forall m :: m in msgs ==> m.id != id
  {
    if msgs == [] then None
    else if msgs[0].id == id then Some(msgs[0])
    else FindMessage(msgs[1..], id)
  }

  /** Whether a referenced message passes the check: absent, or present and in the
      thread of `reporter` and `target`. */
  predicate MessageOk(msgs: seq<Message>, reporter: Id, target: Id, messageId: Option<nat>) {
    messageId.None? ||
      (FindMessage(msgs, messageId.value).Some? && InThread(FindMessage(msgs, messageId.value).value, reporter, target))
  }

  /** The message check does not depend on which of the two files the report. */
  lemma MessageOkSymmetric(msgs: seq<Message>, a: Id, b: Id, messageId: Option<nat>)
    ensures MessageOk(msgs, a, b, messageId) <==> MessageOk(msgs, b, a, messageId)
  {
    if messageId.Some? && FindMessage(msgs, messageId.value).Some? {
      InThreadSymmetric(FindMessage(msgs, messageId.value).value, a, b);
    }
  }

  /** POST /api/reports by `reporter`. A missing target or reason is 400, and so is
      a message id that names no message or a message outside the conversation of
      reporter and target. A reason longer than the column is rejected by the
      database (500). Otherwise exactly one open report is appended. */
  method Create(t: ReportTable, msgs: seq<Message>, reporter: Id, target: Id, reason: string, details: string,
                messageId: Option<nat>, now: int)
    returns (res: Result<Report>)
    requires t.Valid()
    modifies t
    ensures t.Valid()
    ensures target == "" || reason == "" ==> res == Err(BadRequest)
    ensures target != "" && reason != "" && !MessageOk(msgs, reporter, target, messageId) ==> res == Err(BadRequest)
    ensures res.Ok? <==> target != "" && reason != "" && MessageOk(msgs, reporter, target, messageId) && |reason| <= REASON_MAX
    ensures res.Err? ==> t.rows == old(t.rows) && t.nextId == old(t.nextId)
    ensures res.Ok? ==>
      && res.value == Report(old(t.nextId), reporter, target, messageId, reason, details, Open, None, None, now)
      && t.rows == old(t.rows) + [res.value]
      && t.nextId == old(t.nextId) + 1
  {
    if target == "" || reason == "" {
      return Err(BadRequest);
    }
    if messageId.Some? {
      var m := FindMessage(msgs, messageId.value);
      if m.None? {
        return Err(BadRequest);
      }
      if !InThread(m.value, reporter, target) {
        return Err(BadRequest);
      }
    }
    if |reason| > REASON_MAX {
      return Err(ServerError);
    }
    var report := Report(t.nextId, reporter, target, messageId, reason, details, Open, None, None, now);
    t.rows := t.rows + [report];
    t.nextId := t.nextId + 1;
    return Ok(report);
  }

  function CreatedAt(r: Report): real {
    r.createdAt as real
  }

  /** The reports `me` filed, in table order. */
  function Filed(rows: seq<Report>, me: Id): seq<Report> {
    Filter(rows, (x: Report) => x.reporter == me)
  }

  /** GET /api/reports/mine: the caller's reports, newest first. */
  function Mine(rows: seq<Report>, me: Id): (r: seq<Report>)
    ensures forall x :: x in r <==> x in rows && x.reporter == me
    ensures forall i, j :: 0 <= i < j < |r| ==> r[i].createdAt >= r[j].createdAt
    ensures multiset(r) == multiset(Filed(rows, me))
  {
    var mine := Filed(rows, me);
    var r := SortDesc(mine, CreatedAt);
    SameMembers(r, mine);
    assert forall i, j :: 0 <= i < j < |r| ==> CreatedAt(r[i]) >= CreatedAt(r[j]);
    r
  }

  /** A report just filed shows up in its reporter's list, and in nobody else's. */
  lemma FiledReportListed(rows: seq<Report>, r: Report, me: Id)
    ensures r in Mine(rows + [r], me) <==> r.reporter == me
  {
  }
}

=== FILE: review.dfy ===
/** Mentor reviews (src/routes/review.js): creating a review with a clamped rating,
    and the per-mentor aggregate (average and count) that the summary endpoint returns
    and that the matcher turns into a rating boost. */
module Reviews {
  import opened Schema
  import opened Seqs

  /** The `rating` field of a request body, as the handler sees it: falsy (missing,
      `null`, `""`, `0`), a truthy value whose `Number(...)` is `x`, or a truthy
      value whose `Number(...)` is `NaN`. */
  datatype RatingArg = NoRating | Numeric(x: real) | NotNumeric

  function Max(a: real, b: real): real { if a >= b then a else b }
  function Min(a: real, b: real): real { if a <= b then a else b }

  /** `Math.min(5, Math.max(1, x))`. */
  function ClampRating(x: real): (r: real)
    ensures 1.0 <= r <= 5.0
    ensures 1.0 <= x <= 5.0 ==> r == x
    ensures x < 1.0 ==> r == 1.0
    ensures x > 5.0 ==> r == 5.0
  {
    Min(5.0, Max(1.0, x))
  }

  /** POST /api/reviews: the caller (a mentee) reviews `mentor`. A `NaN` rating is
      taken to fail the model's `min`/`max` validation, which the handler answers
      with 500. */
  method Create(t: ReviewTable, caller: Id, mentor: Id, rating: RatingArg, comment: string, now: int)
    returns (res: Result<Review>)
    requires t.Valid()
    modifies t
    ensures t.Valid()
    ensures (mentor == "" || rating.NoRating?) ==> res == Err(BadRequest)
    ensures mentor != "" && !rating.NoRating? && mentor == caller ==> res == Err(BadRequest)
    ensures mentor != "" && mentor != caller && rating.NotNumeric? ==> res == Err(ServerError)
    ensures res.Err? ==> t.rows == old(t.rows) && t.nextId == old(t.nextId)
    ensures res.Ok? <==> mentor != "" && mentor != caller && rating.Numeric?
    ensures res.Ok? ==>
      && res.value == Review(old(t.nextId), mentor, caller, ClampRating(rating.x), comment, now)
      && t.rows == old(t.rows) + [res.value]
      && t.nextId == old(t.nextId) + 1
  {
    if mentor == "" || rating.NoRating? {
      return Err(BadRequest);
    }
    if mentor == caller {
      return Err(BadRequest);
    }
    if rating.NotNumeric? {
      return Err(ServerError);
    }
    var r := Review(t.nextId, mentor, caller, ClampRating(rating.x), comment, now);
    t.rows := t.rows + [r];
    t.nextId := t.nextId + 1;
    return Ok(r);
  }

  // ----- aggregates -----

  function RatingSum(rs: seq<Review>): real {
    if rs == [] then 0.0 else RatingSum(rs[..|rs| - 1]) + rs[|rs| - 1].rating
  }

  /** `AVG(rating)` over `rs`, with the empty aggregate (SQL `NULL`) read as 0. */
  function Average(rs: seq<Review>): real {
    if rs == [] then 0.0 else RatingSum(rs) / (|rs| as real)
  }

  predicate RatingsInRange(rs: seq<Review>) {
    forall i :: 0 <= i < |rs| ==> 1.0 <= rs[i].rating <= 5.0
  }

  lemma {:induction false} RatingSumBounds(rs: seq<Review>)
    requires RatingsInRange(rs)
    ensures |rs| as real <= RatingSum(rs) <= 5.0 * |rs| as real
  {
    if rs != [] {
      RatingSumBounds(rs[..|rs| - 1]);
    }
  }

  /** The average of ratings that each lie in [1, 5] lies in [1, 5] too. */
  lemma AverageInRange(rs: seq<Review>)
    requires RatingsInRange(rs) && rs != []
    ensures 1.0 <= Average(rs) <= 5.0
  {
    RatingSumBounds(rs);
    var n := |rs| as real;
    var a := Average(rs);
    assert a * n == RatingSum(rs);
  }

  lemma FilteredAverageInRange(reviews: seq<Review>, mine: seq<Review>, mentor: Id)
    requires mine == Filter(reviews, (r: Review) => r.mentor == mentor)
    ensures RatingsInRange(reviews) && mine != [] ==> 1.0 <= Average(mine) <= 5.0
  {
    if mine != [] && RatingsInRange(reviews) {
      forall i | 0 <= i < |mine|
        ensures 1.0 <= mine[i].rating <= 5.0
      {
        assert mine[i] in reviews;
      }
      AverageInRange(mine);
    }
  }

  /** The reviews of one mentor, in table order (`WHERE mentor_id = ...`). */
  function MentorReviews(reviews: seq<Review>, mentor: Id): seq<Review> {
    Filter(reviews, (r: Review) => r.mentor == mentor)
  }

  /** The reviews of one mentor, newest first (`ORDER BY createdAt DESC`). */
  function ReviewsOf(reviews: seq<Review>, mentor: Id): (items: seq<Review>)
    ensures forall r :: r in items <==> r in reviews && r.mentor == mentor
    ensures SortedDesc(items, (r: Review) => r.createdAt as real)
    ensures multiset(items) == multiset(Filter(reviews, (r: Review) => r.mentor == mentor))
  {
    var mine := Filter(reviews, (r: Review) => r.mentor == mentor);
    var items := SortDesc(mine, (r: Review) => r.createdAt as real);
    SameMembers(items, mine);
    items
  }

  datatype Summary = Summary(avg: real, count: nat, items: seq<Review>)

  /** GET /api/reviews/mentor/:mentor_id: average, count and the reviews themselves. */
  function MentorSummary(reviews: seq<Review>, mentor: Id): (s: Summary)
    ensures s.count == |s.items|
    ensures forall r :: r in s.items <==> r in reviews && r.mentor == mentor
    ensures s.count == 0 ==> s.avg == 0.0
    ensures RatingsInRange(reviews) && s.count > 0 ==> 1.0 <= s.avg <= 5.0
  {
    var mine := Filter(reviews, (r: Review) => r.mentor == mentor);
    FilteredAverageInRange(reviews, mine, mentor);
    Summary(Average(mine), |mine|, ReviewsOf(reviews, mentor))
  }

  /** GET /api/reviews/me: the caller's reviews as a mentor, newest first. */
  function Mine(reviews: seq<Review>, caller: Id): (items: seq<Review>)
    ensures forall r :: r in items <==> r in reviews && r.mentor == caller
    ensures SortedDesc(items, (r: Review) => r.createdAt as real)
    ensures multiset(items) == multiset(Filter(reviews, (r: Review) => r.mentor == caller))
  {
    ReviewsOf(reviews, caller)
  }

  /** Creating a review only ever grows the mentor's aggregate count by one. */
  lemma CreateGrowsCount(reviews: seq<Review>, r: Review)
    ensures |Filter(reviews + [r], (x: Review) => x.mentor == r.mentor)|
         == |Filter(reviews, (x: Review) => x.mentor == r.mentor)| + 1
  {
    assert (reviews + [r])[..|reviews|] == reviews;
  }
}

=== FILE: schema.dfy ===
/** The rows and enums of the persistence layer (the Sequelize models), the
    error outcomes the handlers answer with, and one class per table whose rows the
    handlers insert, update or delete. A table is an in-memory sequence (or map,
    for tables keyed by user id) with a counter for fresh primary keys. */
module Schema {

  datatype Option<+T> = None | Some(value: T)

  datatype Result<+T> = Ok(value: T) | Err(error: HttpError)

  /** `Model.findByPk(id)` over a table: the position of the first row whose primary
      key is `id`, or none when no row has it. */
  function FindByPk<T>(rows: seq<T>, key: T -> nat, id: nat): (r: Option<nat>)
    ensures r.Some? ==> r.value < |rows| && key(rows[r.value]) == id
    ensures r.Some? ==> forall i :: 0 <= i < r.value ==> key(rows[i]) != id
    ensures r.None? <==> forall i :: 0 <= i < |rows| ==> key(rows[i]) != id
  {
    if rows == [] then None
    else if key(rows[0]) == id then Some(0)
    else
      var r := FindByPk(rows[1..], key, id);
      if r.Some? then Some(r.value + 1) else None
  }

  /** The HTTP status classes the handlers answer with (400, 401, 403, 404, 500). */
  datatype HttpError = BadRequest | Unauthorized | Forbidden | NotFound | ServerError

  /** User ids are UUID strings; a missing (null / undefined) id is the empty string,
      which JavaScript treats as falsy just like the missing value. */
  type Id = string

  /** The two roles a profile or a user tag can carry (ENUM "mentor", "mentee"). */
  datatype Role = Mentor | Mentee

  function RoleName(r: Role): (s: string)
    ensures s == "mentor" || s == "mentee"
  {
    match r
    case Mentor => "mentor"
    case Mentee => "mentee"
  }

  const UNSET: string := "unset"

  /** A row of the Users table. `role` is kept as the string the code compares
      against: "mentor", "mentee", "unset", or anything an external writer left.
      A NULL `name` or `avatar` is the empty string; `provider` is "local" or
      "google". `blocked` is not a column of the Users table; only the corrected
      block operation of the admin module writes it. */
  datatype UserRow = UserRow(
    id: Id,
    email: string,
    passwordHash: Option<string>,
    name: string,
    avatar: string,
    role: string,
    provider: string,
    deleted: bool,
    blocked: bool,
    createdAt: int)

  /** `u?.avatar || null` for the user with that id, when the answers show one. */
  function AvatarOf(users: map<Id, UserRow>, id: Id): (r: Option<string>)
    ensures r.Some? <==> id in users && users[id].avatar != ""
    ensures r.Some? ==> r.value == users[id].avatar
  {
    if id in users && users[id].avatar != "" then Some(users[id].avatar) else None
  }

  /** A row of the Profiles table (primary key `userId`). Text columns that are NULL
      are the empty string: every reader applies `|| ""` before using them. */
  datatype ProfileRow = ProfileRow(
    userId: Id,
    kind: Role,
    fullName: string,
    headline: string,
    bio: string,
    background: string,
    expertise: string,
    skills: string,
    interests: string,
    helpAreas: string,
    categories: string,
    goals: string,
    timezone: string,
    preferredTimes: string,
    experienceYears: Option<int>,
    hourlyRate: Option<int>,
    updatedAt: int)

  /** A row of the Messages table; `readAt == None` means unread. */
  datatype Message = Message(
    id: nat,
    sender: Id,
    receiver: Id,
    text: string,
    readAt: Option<int>,
    createdAt: int)

  datatype SlotStatus = Available | Booked | Blocked

  /** A row of the Availabilities table. */
  datatype Slot = Slot(id: nat, mentor: Id, start: int, end: int, status: SlotStatus)

  function SlotId(s: Slot): nat { s.id }

  datatype SessionStatus = Pending | Accepted | Declined | Cancelled

  /** A row of the Sessions table. */
  datatype Session = Session(
    id: nat,
    mentor: Id,
    mentee: Id,
    start: int,
    end: int,
    status: SessionStatus,
    notes: string)

  function SessionId(s: Session): nat { s.id }

  /** A row of the reviews table. */
  datatype Review = Review(
    id: nat,
    mentor: Id,
    mentee: Id,
    rating: real,
    comment: string,
    createdAt: int)

  function ReviewId(r: Review): nat { r.id }

  datatype ReportStatus = Open | Reviewing | Resolved | Dismissed

  /** A row of the Reports table. */
  datatype Report = Report(
    id: nat,
    reporter: Id,
    target: Id,
    messageId: Option<nat>,
    reason: string,
    details: string,
    status: ReportStatus,
    handledBy: Option<Id>,
    handledAt: Option<int>,
    createdAt: int)

  function ReportId(r: Report): nat { r.id }

  datatype RequestStatus = RequestPending | RequestAccepted | RequestDeclined

  /** A row of the Requests table (mentorship requests a mentee sends a mentor). */
  datatype Request = Request(
    id: nat,
    mentor: Id,
    mentee: Id,
    message: string,
    status: RequestStatus,
    createdAt: int)

  /** A row of the Mentorships table. */
  datatype Mentorship = Mentorship(mentor: Id, mentee: Id, startedAt: int)

  /** A row of the Tags table; names are unique. */
  datatype Tag = Tag(id: nat, name: string)

  /** A row of the UserTags table. */
  datatype UserTag = UserTag(userId: Id, tagId: nat, role: Role, weight: int)

  // ----- tables -----

  /** Fresh ids below the counter, and unique names (the `unique` constraint on
      Tag.name). */
  predicate TagsWellFormed(rows: seq<Tag>, nextId: nat) {
    && (forall i :: 0 <= i < |rows| ==> rows[i].id < nextId)
    && (forall i, j :: 0 <= i < j < |rows| ==> rows[i].name != rows[j].name)
  }

  /** At most one profile per user: `userId` is the primary key of Profiles. */
  predicate OnePerUser(rows: seq<ProfileRow>) {
    forall i, j :: 0 <= i < j < |rows| ==> rows[i].userId != rows[j].userId
  }

  class UserTable {
    var rows: map<Id, UserRow>

    ghost predicate Valid()
      reads this
    {
      forall id :: id in rows ==> rows[id].id == id
    }
  }

  class ProfileTable {
    var rows: seq<ProfileRow>

    ghost predicate Valid()
      reads this
    {
      OnePerUser(rows)
    }
  }

  /** No two slots share an id (the primary key). */
  predicate UniqueSlotIds(rows: seq<Slot>) {
    forall i, j :: 0 <= i < j < |rows| ==> rows[i].id != rows[j].id
  }

  class SlotTable {
    var rows: seq<Slot>
    var nextId: nat

    /** Ids are below the counter and unique. */
    ghost predicate Valid()
      reads this
    {
      && (forall i :: 0 <= i < |rows| ==> rows[i].id < nextId)
      && UniqueSlotIds(rows)
    }
  }

  class SessionTable {
    var rows: seq<Session>
    var nextId: nat

    ghost predicate Valid()
      reads this
    {
      forall i :: 0 <= i < |rows| ==> rows[i].id < nextId
    }
  }

  class ReviewTable {
    var rows: seq<Review>
    var nextId: nat

    /** Fresh ids, and every stored rating lies in [1, 5]. */
    ghost predicate Valid()
      reads this
    {
      forall i :: 0 <= i < |rows| ==> rows[i].id < nextId && 1.0 <= rows[i].rating <= 5.0
    }
  }

  class ReportTable {
    var rows: seq<Report>
    var nextId: nat

    ghost predicate Valid()
      reads this
    {
      forall i :: 0 <= i < |rows| ==> rows[i].id < nextId
    }
  }

  class RequestTable {
    var rows: seq<Request>
  }

  class TagTable {
    var rows: seq<Tag>
    var nextId: nat

    ghost predicate Valid()
      reads this
    {
      TagsWellFormed(rows, nextId)
    }
  }

  class UserTagTable {
    var rows: seq<UserTag>
  }
}

=== FILE: seqs.dfy ===
/** Sequence helpers shared by the handlers: filtering (SQL `WHERE`, `Array.filter`),
    de-duplication in insertion order (`new Set(...)`), truncation (`slice(0, n)`)
    and a stable sort by a numeric key (`Array.prototype.sort`, SQL `ORDER BY`). */
module Seqs {

  predicate Distinct<T(==)>(s: seq<T>) {
    forall i, j :: 0 <= i < j < |s| ==> s[i] != s[j]
  }

  /** The elements of `s` that satisfy `p`, in order. */
  function Filter<T(==,!new)>(s: seq<T>, p: T -> bool): (r: seq<T>)
    ensures |r| <= |s|
    ensures forall x :: x in r <==> x in s && p(x)
  {
    if s == [] then []
    else Filter(s[..|s| - 1], p) + (if p(s[|s| - 1]) then [s[|s| - 1]] else [])
  }

  lemma {:induction false} FilterAll<T(!new)>(s: seq<T>, p: T -> bool)
    requires forall x :: x in s ==> p(x)
    ensures Filter(s, p) == s
  {
    if s != [] {
      FilterAll(s[..|s| - 1], p);
      assert s[..|s| - 1] + [s[|s| - 1]] == s;
    }
  }

  /** Filtering keeps pairwise distinct keys pairwise distinct. */
  lemma {:induction false} FilterKeepsKeysDistinct<T(!new)>(s: seq<T>, p: T -> bool, key: T -> int)
    requires forall i, j :: 0 <= i < j < |s| ==> key(s[i]) != key(s[j])
    ensures forall i, j :: 0 <= i < j < |Filter(s, p)| ==> key(Filter(s, p)[i]) != key(Filter(s, p)[j])
  {
    if s != [] {
      var n := |s| - 1;
      var q := s[..n];
      FilterKeepsKeysDistinct(q, p, key);
      var fq := Filter(q, p);
      if p(s[n]) {
        forall i | 0 <= i < |fq|
          ensures key(fq[i]) != key(s[n])
        {
          assert fq[i] in q;
          var j :| 0 <= j < n && q[j] == fq[i];
          assert key(s[j]) != key(s[n]);
        }
      }
    }
  }

  /** Filtering a sequence without duplicates gives one without duplicates. */
  lemma {:induction false} FilterKeepsDistinct<T(!new)>(s: seq<T>, p: T -> bool)
    requires Distinct(s)
    ensures Distinct(Filter(s, p))
  {
    if s != [] {
      var n := |s| - 1;
      var q := s[..n];
      FilterKeepsDistinct(q, p);
      if p(s[n]) {
        forall x | x in Filter(q, p)
          ensures x != s[n]
        {
          var j :| 0 <= j < n && q[j] == x;
          assert s[j] == x;
        }
      }
    }
  }

  lemma FilterNone<T(!new)>(s: seq<T>, p: T -> bool)
    requires forall x :: x in s ==> !p(x)
    ensures Filter(s, p) == []
  {
  }

  /** Number of elements of `s` that satisfy `p`. */
  function Count<T(==,!new)>(s: seq<T>, p: T -> bool): nat {
    |Filter(s, p)|
  }

  /** The positions of `s` whose element satisfies `p`: an independent way of counting. */
  function Positions<T(==,!new)>(s: seq<T>, p: T -> bool): set<nat> {
    set i: nat | i < |s| && p(s[i])
  }

  lemma {:induction false} CountIsPositions<T(!new)>(s: seq<T>, p: T -> bool)
    ensures Count(s, p) == |Positions(s, p)|
  {
    if s != [] {
      var n := |s| - 1;
      CountIsPositions(s[..n], p);
      var before := Positions(s[..n], p);
      if p(s[n]) {
        assert Positions(s, p) == before + {n};
      } else {
        assert Positions(s, p) == before;
      }
    }
  }

  /** Overwriting one element changes the count by what leaves and what arrives. */
  lemma {:induction false} CountUpdate<T(!new)>(s: seq<T>, i: nat, x: T, p: T -> bool)
    requires i < |s|
    ensures Count(s[i := x], p) + (if p(s[i]) then 1 else 0) == Count(s, p) + (if p(x) then 1 else 0)
  {
    var t := s[i := x];
    CountIsPositions(s, p);
    CountIsPositions(t, p);
    var rest := Positions(s, p) - {i};
    PositionsSplit(s, i, rest, p);
    PositionsSplit(t, i, rest, p);
  }

  lemma PositionsSplit<T(!new)>(s: seq<T>, i: nat, rest: set<nat>, p: T -> bool)
    requires i < |s|
    requires forall j: nat :: j in rest <==> j < |s| && j != i && p(s[j])
    ensures |Positions(s, p)| == |rest| + (if p(s[i]) then 1 else 0)
  {
    if p(s[i]) {
      assert Positions(s, p) == rest + {i};
    } else {
      assert Positions(s, p) == rest;
    }
  }

  /** `new Set(s)` read back in iteration order: first occurrences, in order. */
  function Dedup<T(==,!new)>(s: seq<T>): (r: seq<T>)
    ensures Distinct(r)
    ensures forall x :: x in r <==> x in s
    ensures |r| <= |s|
  {
    if s == [] then []
    else
      var d := Dedup(s[..|s| - 1]);
      var x := s[|s| - 1];
      if x in d then d else d + [x]
  }

  lemma DedupOfDistinct<T(!new)>(s: seq<T>)
    requires Distinct(s)
    ensures Dedup(s) == s
  {
    if s != [] {
      DedupOfDistinct(s[..|s| - 1]);
      assert s[..|s| - 1] + [s[|s| - 1]] == s;
    }
  }

  /** A distinct sequence holds each value at most once. */
  lemma {:induction false} DistinctMultiplicity<T(!new)>(s: seq<T>, x: T)
    requires Distinct(s)
    ensures multiset(s)[x] <= 1
  {
    if s != [] {
      var n := |s| - 1;
      DistinctMultiplicity(s[..n], x);
      assert s == s[..n] + [s[n]];
      if x == s[n] {
        assert x !in s[..n];
      }
    }
  }

  /** Reordering a distinct sequence keeps it distinct. */
  lemma PermutationKeepsDistinct<T(!new)>(a: seq<T>, b: seq<T>)
    requires Distinct(a) && multiset(a) == multiset(b)
    ensures Distinct(b)
  {
    forall i, j | 0 <= i < j < |b|
      ensures b[i] != b[j]
    {
      if b[i] == b[j] {
        var x := b[i];
        assert b == b[..j] + [b[j]] + b[j + 1..];
        assert x in b[..j];
        assert multiset(b)[x] >= multiset(b[..j])[x] + 1 >= 2;
        DistinctMultiplicity(a, x);
      }
    }
  }

  /** A distinct sequence has as many elements as the set it lists. */
  lemma {:induction false} DistinctCardinality<T(!new)>(s: seq<T>)
    requires Distinct(s)
    ensures |set x | x in s| == |s|
  {
    if s != [] {
      var n := |s| - 1;
      DistinctCardinality(s[..n]);
      assert (set x | x in s) == (set x | x in s[..n]) + {s[n]};
      assert s[n] !in (set x | x in s[..n]);
    }
  }

  /** A sequence has at least as many entries as the set it lists. */
  lemma {:induction false} SetCardinalityBound<T(!new)>(s: seq<T>)
    ensures |set x | x in s| <= |s|
  {
    if s != [] {
      var n := |s| - 1;
      SetCardinalityBound(s[..n]);
      assert (set x | x in s) == (set x | x in s[..n]) + {s[n]};
    }
  }

  /** `s.slice(0, n)`. */
  function Take<T>(s: seq<T>, n: nat): (r: seq<T>)
    ensures |r| <= n && |r| <= |s|
    ensures r == s[..|r|]
    ensures |s| <= n ==> r == s
  {
    if n >= |s| then s else s[..n]
  }

  // ----- stable sort by a key, largest key first -----

  predicate SortedDesc<T>(s: seq<T>, key: T -> real) {
    forall i, j :: 0 <= i < j < |s| ==> key(s[i]) >= key(s[j])
  }

  /** Puts `x` after every element whose key is at least its own. */
  function InsertDesc<T>(x: T, s: seq<T>, key: T -> real): (r: seq<T>)
    requires SortedDesc(s, key)
    ensures SortedDesc(r, key)
    ensures multiset(r) == multiset(s) + multiset{x}
    ensures |r| == |s| + 1
  {
    if s == [] then [x]
    else if key(s[0]) >= key(x) then
      assert s == [s[0]] + s[1..];
      var t := InsertDesc(x, s[1..], key);
      HeadBoundsInserted(s[0], x, s[1..], t, key);
      [s[0]] + t
    else [x] + s
  }

  lemma HeadBoundsInserted<T>(h: T, x: T, s: seq<T>, t: seq<T>, key: T -> real)
    requires key(h) >= key(x)
    requires forall y :: y in s ==> key(h) >= key(y)
    requires multiset(t) == multiset(s) + multiset{x}
    ensures forall y :: y in t ==> key(h) >= key(y)
  {
    forall y | y in t
      ensures key(h) >= key(y)
    {
      assert y in multiset(t);
      if y != x {
        assert y in multiset(s);
      }
    }
  }

  /** Insertion sort, largest key first. Elements with equal keys keep their relative
      order, as `Array.prototype.sort` guarantees. */
  function SortDesc<T>(s: seq<T>, key: T -> real): (r: seq<T>)
    ensures SortedDesc(r, key)
    ensures multiset(r) == multiset(s)
    ensures |r| == |s|
  {
    if s == [] then []
    else
      assert s == s[..|s| - 1] + [s[|s| - 1]];
      InsertDesc(s[|s| - 1], SortDesc(s[..|s| - 1], key), key)
  }

  lemma SameMembers<T>(a: seq<T>, b: seq<T>)
    requires multiset(a) == multiset(b)
    ensures forall x :: x in a <==> x in b
  {
    forall x
      ensures x in a <==> x in b
    {
      assert x in a <==> x in multiset(a);
      assert x in b <==> x in multiset(b);
    }
  }

  lemma {:induction false} InsertDescAtEnd<T>(x: T, s: seq<T>, key: T -> real)
    requires SortedDesc(s, key)
    requires forall y :: y in s ==> key(y) >= key(x)
    ensures InsertDesc(x, s, key) == s + [x]
  {
    if s != [] {
      InsertDescAtEnd(x, s[1..], key);
      assert s == [s[0]] + s[1..];
    }
  }

  /** Sorting an already sorted sequence changes nothing. */
  lemma {:induction false} SortDescOfSorted<T>(s: seq<T>, key: T -> real)
    requires SortedDesc(s, key)
    ensures SortDesc(s, key) == s
  {
    if s != [] {
      var n := |s| - 1;
      SortDescOfSorted(s[..n], key);
      InsertDescAtEnd(s[n], s[..n], key);
      assert s[..n] + [s[n]] == s;
    }
  }

  /** Truncating a sorted sequence keeps its best elements: whatever is cut off
      ranks no higher than anything kept. */
  lemma TakeKeepsTop<T>(s: seq<T>, key: T -> real, n: nat, x: T)
    requires SortedDesc(s, key)
    requires x in s && x !in Take(s, n)
    ensures |Take(s, n)| == n
    ensures forall y :: y in Take(s, n) ==> key(y) >= key(x)
  {
    var j :| 0 <= j < |s| && s[j] == x;
    assert j >= n;
  }
}

=== FILE: sessions.dfy ===
/** Session booking (src/routes/sessions.js): a mentee books a free slot, which
    creates a pending session and marks the slot booked; the mentor accepts or
    declines, and declining frees the matching slots again. */
module Sessions {
  import opened Schema
  import opened Seqs
  import opened Availability

  /** `Availability.findOne({ where: mentor, status "available", start, end })`: the
      first matching row. */
  function FindOpen(rows: seq<Slot>, mentor: Id, start: int, end: int): (r: Option<nat>)
    ensures r.Some? ==> r.value < |rows| && OpenMatch(rows[r.value], mentor, start, end)
    ensures r.Some? ==> forall j :: 0 <= j < r.value ==> !OpenMatch(rows[j], mentor, start, end)
    ensures r.None? <==> forall j :: 0 <= j < |rows| ==> !OpenMatch(rows[j], mentor, start, end)
  {
    if rows == [] then None
    else if OpenMatch(rows[0], mentor, start, end) then Some(0)
    else
      var r := FindOpen(rows[1..], mentor, start, end);
      if r.Some? then Some(r.value + 1) else None
  }

  predicate OpenMatch(s: Slot, mentor: Id, start: int, end: int) {
    s.mentor == mentor && s.status == Available && s.start == start && s.end == end
  }

  /** POST /api/sessions/book by the mentee `caller`. Missing fields are 400; a time
      that does not parse fails in the query (500); no free slot with exactly that
      mentor, start and end is 400. Otherwise a pending session is created and the
      slot becomes booked. */
  method Book(slots: SlotTable, sessions: SessionTable, caller: Id, mentor: Id, start: TimeArg, end: TimeArg,
              notes: string)
    returns (res: Result<Session>)
    requires slots.Valid() && sessions.Valid()
    modifies slots, sessions
    ensures slots.Valid() && sessions.Valid()
    ensures mentor == "" || !Truthy(start) || !Truthy(end) ==> res == Err(BadRequest)
    ensures mentor != "" && Truthy(start) && Truthy(end) && (start.Unparseable? || end.Unparseable?) ==>
      res == Err(ServerError)
    ensures mentor != "" && start.At? && end.At? && FindOpen(old(slots.rows), mentor, start.t, end.t).None? ==>
      res == Err(BadRequest)
    ensures res.Ok? <==>
      && mentor != "" && start.At? && end.At?
      && FindOpen(old(slots.rows), mentor, start.t, end.t).Some?
    ensures res.Err? ==>
      && slots.rows == old(slots.rows) && sessions.rows == old(sessions.rows)
      && sessions.nextId == old(sessions.nextId)
    ensures res.Ok? ==>
      var i := FindOpen(old(slots.rows), mentor, start.t, end.t).value;
      && res.value == Session(old(sessions.nextId), mentor, caller, start.t, end.t, Pending, notes)
      && sessions.rows == old(sessions.rows) + [res.value]
      && sessions.nextId == old(sessions.nextId) + 1
      && slots.rows == old(slots.rows)[i := old(slots.rows)[i].(status := Booked)]
    ensures slots.nextId == old(slots.nextId)
  {
    if mentor == "" || !Truthy(start) || !Truthy(end) {
      return Err(BadRequest);
    }
    if start.Unparseable? || end.Unparseable? {
      return Err(ServerError);
    }
    var found := FindOpen(slots.rows, mentor, start.t, end.t);
    if found.None? {
      return Err(BadRequest);
    }
    var session := Session(sessions.nextId, mentor, caller, start.t, end.t, Pending, notes);
    sessions.rows := sessions.rows + [session];
    sessions.nextId := sessions.nextId + 1;
    var i := found.value;
    slots.rows := slots.rows[i := slots.rows[i].(status := Booked)];
    return Ok(session);
  }

  /** PATCH /api/sessions/:id/accept: only the session's mentor; the status becomes
      accepted and no slot is touched. */
  method Accept(sessions: SessionTable, caller: Id, id: nat) returns (res: Result<Session>)
    requires sessions.Valid()
    modifies sessions
    ensures sessions.Valid()
    ensures res.Ok? <==>
      && FindByPk(old(sessions.rows), SessionId, id).Some?
      && old(sessions.rows)[FindByPk(old(sessions.rows), SessionId, id).value].mentor == caller
    ensures res.Err? ==> res.error == NotFound && sessions.rows == old(sessions.rows)
    ensures res.Ok? ==>
      var i := FindByPk(old(sessions.rows), SessionId, id).value;
      && res.value == old(sessions.rows)[i].(status := Accepted)
      && sessions.rows == old(sessions.rows)[i := res.value]
    ensures sessions.nextId == old(sessions.nextId)
  {
    var found := FindByPk(sessions.rows, SessionId, id);
    if found.None? || sessions.rows[found.value].mentor != caller {
      return Err(NotFound);
    }
    var i := found.value;
    var session := sessions.rows[i].(status := Accepted);
    sessions.rows := sessions.rows[i := session];
    return Ok(session);
  }

  // ----- freeing slots -----

  predicate SameTime(s: Slot, mentor: Id, start: int, end: int) {
    s.mentor == mentor && s.start == start && s.end == end
  }

  /** The slot table after `Availability.update({ status: "available" }, { where:
      mentor, start, end })`. */
  function Freed(rows: seq<Slot>, mentor: Id, start: int, end: int): (r: seq<Slot>)
    ensures |r| == |rows|
  {
    if rows == [] then []
    else
      var s := rows[|rows| - 1];
      Freed(rows[..|rows| - 1], mentor, start, end) + [if SameTime(s, mentor, start, end) then s.(status := Available) else s]
  }

  /** Exactly the slots of that mentor with identical start and end become available;
      every other slot is unchanged. */
  lemma {:induction false} FreedEffect(rows: seq<Slot>, mentor: Id, start: int, end: int)
    ensures forall i :: 0 <= i < |rows| ==>
      && (SameTime(rows[i], mentor, start, end) ==> Freed(rows, mentor, start, end)[i] == rows[i].(status := Available))
      && (!SameTime(rows[i], mentor, start, end) ==> Freed(rows, mentor, start, end)[i] == rows[i])
  {
    if rows != [] {
      var n := |rows| - 1;
      FreedEffect(rows[..n], mentor, start, end);
      forall i | 0 <= i < n
        ensures Freed(rows, mentor, start, end)[i] == Freed(rows[..n], mentor, start, end)[i]
      {
      }
    }
  }

  lemma FreedStep(before: seq<Slot>, current: seq<Slot>, i: nat, mentor: Id, start: int, end: int)
    requires i < |before|
    requires current == Freed(before[..i], mentor, start, end) + before[i..]
    ensures current[i] == before[i]
    ensures current[i := if SameTime(current[i], mentor, start, end) then current[i].(status := Available) else current[i]]
         == Freed(before[..i + 1], mentor, start, end) + before[i + 1..]
  {
    assert before[..i + 1][..i] == before[..i];
    assert before[i..] == [before[i]] + before[i + 1..];
  }

  /** The bulk update, row by row. */
  method FreeMatching(rows: seq<Slot>, mentor: Id, start: int, end: int) returns (r: seq<Slot>)
    ensures r == Freed(rows, mentor, start, end)
  {
    r := rows;
    for i := 0 to |rows|
      invariant r == Freed(rows[..i], mentor, start, end) + rows[i..]
    {
      FreedStep(rows, r, i, mentor, start, end);
      if SameTime(r[i], mentor, start, end) {
        r := r[i := r[i].(status := Available)];
      }
    }
    assert rows[..|rows|] == rows;
  }

  /** PATCH /api/sessions/:id/decline: only the session's mentor; the status becomes
      declined and every slot of that mentor with the session's exact start and end
      becomes available again. */
  method Decline(sessions: SessionTable, slots: SlotTable, caller: Id, id: nat) returns (res: Result<Session>)
    requires sessions.Valid() && slots.Valid()
    modifies sessions, slots
    ensures sessions.Valid() && slots.Valid()
    ensures res.Ok? <==>
      && FindByPk(old(sessions.rows), SessionId, id).Some?
      && old(sessions.rows)[FindByPk(old(sessions.rows), SessionId, id).value].mentor == caller
    ensures res.Err? ==> res.error == NotFound && sessions.rows == old(sessions.rows) && slots.rows == old(slots.rows)
    ensures res.Ok? ==>
      var i := FindByPk(old(sessions.rows), SessionId, id).value;
      var s := old(sessions.rows)[i];
      && res.value == s.(status := Declined)
      && sessions.rows == old(sessions.rows)[i := res.value]
      && slots.rows == Freed(old(slots.rows), s.mentor, s.start, s.end)
    ensures sessions.nextId == old(sessions.nextId) && slots.nextId == old(slots.nextId)
  {
    var found := FindByPk(sessions.rows, SessionId, id);
    if found.None? || sessions.rows[found.value].mentor != caller {
      return Err(NotFound);
    }
    var i := found.value;
    var session := sessions.rows[i].(status := Declined);
    sessions.rows := sessions.rows[i := session];
    var freed := FreeMatching(slots.rows, session.mentor, session.start, session.end);
    FreedEffect(slots.rows, session.mentor, session.start, session.end);
    slots.rows := freed;
    return Ok(session);
  }

  /** Book then decline: the slot the booking took is available again, and a slot
      unrelated to the session is as it was. */
  lemma DeclineFreesBookedSlot(rows: seq<Slot>, mentor: Id, start: int, end: int, j: nat)
    requires FindOpen(rows, mentor, start, end).Some?
    requires j < |rows|
    ensures
      var i := FindOpen(rows, mentor, start, end).value;
      var booked := rows[i := rows[i].(status := Booked)];
      && Freed(booked, mentor, start, end)[i] == rows[i]
      && (!SameTime(rows[j], mentor, start, end) ==> Freed(booked, mentor, start, end)[j] == rows[j])
  {
    var i := FindOpen(rows, mentor, start, end).value;
    var booked := rows[i := rows[i].(status := Booked)];
    FreedEffect(booked, mentor, start, end);
    assert SameTime(booked[i], mentor, start, end);
  }

  // ----- listing -----

  function StartKey(s: Session): real {
    -(s.start as real)
  }

  /** The sessions `me` takes part in, as mentor or mentee, in table order. */
  function Involving(rows: seq<Session>, me: Id): seq<Session> {
    Filter(rows, (s: Session) => s.mentor == me || s.mentee == me)
  }

  /** GET /api/sessions/mine: the sessions where the caller is mentor or mentee,
      earliest start first. */
  function Mine(rows: seq<Session>, me: Id): (r: seq<Session>)
    ensures forall s :: s in r <==> s in rows && (s.mentor == me || s.mentee == me)
    ensures forall i, j :: 0 <= i < j < |r| ==> r[i].start <= r[j].start
    ensures multiset(r) == multiset(Involving(rows, me))
  {
    var mine := Involving(rows, me);
    var r := SortDesc(mine, StartKey);
    SameMembers(r, mine);
    assert forall i, j :: 0 <= i < j < |r| ==> StartKey(r[i]) >= StartKey(r[j]);
    r
  }
}

=== FILE: socket.dfy ===
/** The realtime layer (src/rtm/socket.js): one hub holding the Messages table, the
    socket rooms (one room per user id) and the log of events emitted into rooms.
    The handlers `join`, `send_message`, `typing:start` / `typing:stop` and
    `message:seen` are methods of the hub; the HTTP chat routes share it. */
module Realtime {
  import opened Schema

  type SocketId = string

  /** The event names the server emits: the chat events, and the
      `availability:created` / `replaced` / `updated` / `deleted` notices the
      availability routes send to the mentor's own room. */
  datatype EventKind =
    | ReceiveMessage | MessageSent | TypingStart | TypingStop | SeenNotice
    | SlotCreated | SlotsReplaced | SlotUpdated | SlotDeleted

  datatype Payload =
    | MessagePayload(msg: Message)             // the stored row
    | SenderPayload(sender: Id)                // typing indicators carry the sender id
    | SeenPayload(from: Id)                    // `{ from: sender_id }`
    | SlotPayload(slot: Slot)                  // the created or updated slot
    | ReplacedPayload(mentor: Id, count: nat)  // `{ mentor_id, count }`
    | DeletedPayload(slotId: nat)              // `{ id }`

  /** `io.to(room).emit(kind, payload)`. */
  datatype Event = Event(room: Id, kind: EventKind, payload: Payload)

  // ----- rooms -----

  /** The room table after `socket.join(userId)`; a falsy user id joins nothing. */
  function Joined(rooms: map<Id, set<SocketId>>, socket: SocketId, userId: Id): map<Id, set<SocketId>> {
    if userId == "" then rooms
    else rooms[userId := (if userId in rooms then rooms[userId] else {}) + {socket}]
  }

  /** Joining adds the socket to exactly the room named by the user id. */
  lemma JoinedMembership(rooms: map<Id, set<SocketId>>, socket: SocketId, userId: Id, room: Id, s: SocketId)
    ensures userId == "" ==> Joined(rooms, socket, userId) == rooms
    ensures userId != "" ==> (room in Joined(rooms, socket, userId) <==> room in rooms || room == userId)
    ensures userId != "" && room in Joined(rooms, socket, userId) ==>
      var members := Joined(rooms, socket, userId)[room];
      (s in members <==> (room in rooms && s in rooms[room]) || (room == userId && s == socket))
  {
  }

  /** Joining the same room twice is the same as joining it once. */
  lemma JoinedIdempotent(rooms: map<Id, set<SocketId>>, socket: SocketId, userId: Id)
    ensures Joined(Joined(rooms, socket, userId), socket, userId) == Joined(rooms, socket, userId)
  {
    if userId != "" {
      var once := Joined(rooms, socket, userId);
      assert once[userId] + {socket} == once[userId];
    }
  }

  // ----- sending -----

  /** The two `receive_message` emissions of `send_message`: sender room first. */
  function SocketSendEvents(m: Message): seq<Event> {
    [Event(m.sender, ReceiveMessage, MessagePayload(m)), Event(m.receiver, ReceiveMessage, MessagePayload(m))]
  }

  // ----- read receipts -----

  /** A row `message:seen` from `reader` about `other` marks: sent by `other` to
      `reader` and not read yet (`read_at: null`). */
  predicate Unseen(m: Message, reader: Id, other: Id) {
    m.sender == other && m.receiver == reader && m.readAt.None?
  }

  function SeenOne(m: Message, reader: Id, other: Id, now: int): Message {
    if Unseen(m, reader, other) then m.(readAt := Some(now)) else m
  }

  /** The Messages table after `UPDATE ... SET read_at = now WHERE sender_id = other
      AND receiver_id = reader AND read_at IS NULL`. */
  function MarkSeen(msgs: seq<Message>, reader: Id, other: Id, now: int): (r: seq<Message>)
    ensures |r| == |msgs|
  {
    if msgs == [] then []
    else MarkSeen(msgs[..|msgs| - 1], reader, other, now) + [SeenOne(msgs[|msgs| - 1], reader, other, now)]
  }

  /** The affected-row count the update reports. */
  function UnseenCount(msgs: seq<Message>, reader: Id, other: Id): nat {
    if msgs == [] then 0
    else UnseenCount(msgs[..|msgs| - 1], reader, other) + (if Unseen(msgs[|msgs| - 1], reader, other) then 1 else 0)
  }

  /** The notification to `other`'s room, sent only when some row changed. */
  function SeenEvents(count: nat, reader: Id, other: Id): seq<Event> {
    if count > 0 then [Event(other, SeenNotice, SeenPayload(reader))] else []
  }

  lemma MarkSeenSnoc(msgs: seq<Message>, i: nat, reader: Id, other: Id, now: int)
    requires i < |msgs|
    ensures MarkSeen(msgs[..i + 1], reader, other, now)
         == MarkSeen(msgs[..i], reader, other, now) + [SeenOne(msgs[i], reader, other, now)]
    ensures UnseenCount(msgs[..i + 1], reader, other)
         == UnseenCount(msgs[..i], reader, other) + (if Unseen(msgs[i], reader, other) then 1 else 0)
  {
    assert msgs[..i + 1][..i] == msgs[..i];
  }

  /** One step of the row-by-row update: row `i` gets its new value. */
  lemma MarkSeenStep(before: seq<Message>, current: seq<Message>, i: nat, reader: Id, other: Id, now: int)
    requires i < |before|
    requires current == MarkSeen(before[..i], reader, other, now) + before[i..]
    ensures current[i] == before[i]
    ensures current[i := SeenOne(current[i], reader, other, now)]
         == MarkSeen(before[..i + 1], reader, other, now) + before[i + 1..]
    ensures UnseenCount(before[..i + 1], reader, other)
         == UnseenCount(before[..i], reader, other) + (if Unseen(current[i], reader, other) then 1 else 0)
  {
    MarkSeenSnoc(before, i, reader, other, now);
    assert before[i..] == [before[i]] + before[i + 1..];
  }

  /** Exactly the unread rows from `other` to `reader` change, and they change only in
      `read_at`, which becomes `now`; every other row, read ones included, stays. */
  lemma {:induction false} MarkSeenEffect(msgs: seq<Message>, reader: Id, other: Id, now: int)
    ensures forall i :: 0 <= i < |msgs| ==>
      && (Unseen(msgs[i], reader, other) ==> MarkSeen(msgs, reader, other, now)[i] == msgs[i].(readAt := Some(now)))
      && (!Unseen(msgs[i], reader, other) ==> MarkSeen(msgs, reader, other, now)[i] == msgs[i])
  {
    if msgs != [] {
      var n := |msgs| - 1;
      MarkSeenEffect(msgs[..n], reader, other, now);
      forall i | 0 <= i < n
        ensures MarkSeen(msgs, reader, other, now)[i] == MarkSeen(msgs[..n], reader, other, now)[i]
      {
      }
    }
  }

  /** The reported count is the number of rows the update changed. */
  lemma {:induction false} UnseenCountIsChanged(msgs: seq<Message>, reader: Id, other: Id, now: int)
    ensures UnseenCount(msgs, reader, other) == |set i | 0 <= i < |msgs| && MarkSeen(msgs, reader, other, now)[i] != msgs[i]|
  {
    if msgs != [] {
      var n := |msgs| - 1;
      UnseenCountIsChanged(msgs[..n], reader, other, now);
      var r := MarkSeen(msgs, reader, other, now);
      var before := set i | 0 <= i < n && MarkSeen(msgs[..n], reader, other, now)[i] != msgs[..n][i];
      var after := set i | 0 <= i < |msgs| && r[i] != msgs[i];
      assert forall i :: 0 <= i < n ==> r[i] == MarkSeen(msgs[..n], reader, other, now)[i];
      if Unseen(msgs[n], reader, other) {
        assert r[n] != msgs[n];
        assert after == before + {n};
      } else {
        assert after == before;
      }
    }
  }

  /** After an update nothing is left unread from `other` to `reader`, so a second
      `message:seen` with no new message in between changes no row and, its count
      being zero, emits nothing. */
  lemma {:induction false} MarkSeenIdempotent(msgs: seq<Message>, reader: Id, other: Id, now: int, later: int)
    ensures UnseenCount(MarkSeen(msgs, reader, other, now), reader, other) == 0
    ensures MarkSeen(MarkSeen(msgs, reader, other, now), reader, other, later) == MarkSeen(msgs, reader, other, now)
    ensures SeenEvents(UnseenCount(MarkSeen(msgs, reader, other, now), reader, other), reader, other) == []
  {
    if msgs != [] {
      var n := |msgs| - 1;
      MarkSeenIdempotent(msgs[..n], reader, other, now, later);
      var once := MarkSeen(msgs, reader, other, now);
      assert once[..n] == MarkSeen(msgs[..n], reader, other, now);
      assert !Unseen(once[n], reader, other);
    }
  }

  /** Ids survive the update. */
  lemma MarkSeenKeepsIds(msgs: seq<Message>, reader: Id, other: Id, now: int)
    ensures forall i :: 0 <= i < |msgs| ==> MarkSeen(msgs, reader, other, now)[i].id == msgs[i].id
  {
    MarkSeenEffect(msgs, reader, other, now);
  }

  /** The bulk `UPDATE` of `message:seen`, row by row over the table: returns the new
      rows and the affected-row count. */
  method MarkSeenRows(msgs: seq<Message>, reader: Id, other: Id, now: int) returns (rows: seq<Message>, count: nat)
    ensures rows == MarkSeen(msgs, reader, other, now)
    ensures count == UnseenCount(msgs, reader, other)
  {
    rows := msgs;
    count := 0;
    for i := 0 to |msgs|
      invariant rows == MarkSeen(msgs[..i], reader, other, now) + msgs[i..]
      invariant count == UnseenCount(msgs[..i], reader, other)
    {
      MarkSeenStep(msgs, rows, i, reader, other, now);
      if Unseen(rows[i], reader, other) {
        count := count + 1;
      }
      rows := rows[i := SeenOne(rows[i], reader, other, now)];
    }
    assert msgs[..|msgs|] == msgs;
  }

  class Hub {
    /** The Messages table. */
    var messages: seq<Message>
    var nextId: nat
    /** Room name (a user id) to the sockets in that room. */
    var rooms: map<Id, set<SocketId>>
    /** Every event emitted so far, in order. */
    var events: seq<Event>

    ghost predicate Valid()
      reads this
    {
      forall i :: 0 <= i < |messages| ==> messages[i].id < nextId
    }

    constructor()
      ensures Valid()
      ensures messages == [] && nextId == 0 && rooms == map[] && events == []
    {
      messages := [];
      nextId := 0;
      rooms := map[];
      events := [];
    }

    /** The `join` handler. */
    method Join(socket: SocketId, userId: Id)
      modifies this
      ensures rooms == Joined(old(rooms), socket, userId)
      ensures messages == old(messages) && nextId == old(nextId) && events == old(events)
    {
      if userId != "" {
        var members := if userId in rooms then rooms[userId] else {};
        rooms := rooms[userId := members + {socket}];
      }
    }

    /** Appends one row to the Messages table (`Message.create`): unread, stamped `now`. */
    method Store(sender: Id, receiver: Id, text: string, now: int) returns (m: Message)
      requires Valid()
      modifies this
      ensures Valid()
      ensures m == Message(old(nextId), sender, receiver, text, None, now)
      ensures messages == old(messages) + [m] && nextId == old(nextId) + 1
      ensures rooms == old(rooms) && events == old(events)
    {
      m := Message(nextId, sender, receiver, text, None, now);
      messages := messages + [m];
      nextId := nextId + 1;
    }

    /** The `send_message` handler: a falsy sender, receiver or text stores and emits
        nothing; otherwise the text is stored as given (not trimmed) and the row is
        emitted to the sender's room and then to the receiver's room. */
    method SendMessage(sender: Id, receiver: Id, text: string, now: int) returns (sent: Option<Message>)
      requires Valid()
      modifies this
      ensures Valid()
      ensures sent.None? <==> sender == "" || receiver == "" || text == ""
      ensures sent.None? ==> messages == old(messages) && nextId == old(nextId) && events == old(events)
      ensures sent.Some? ==>
        && sent.value == Message(old(nextId), sender, receiver, text, None, now)
        && messages == old(messages) + [sent.value]
        && nextId == old(nextId) + 1
        && events == old(events) + SocketSendEvents(sent.value)
      ensures rooms == old(rooms)
    {
      if sender == "" || receiver == "" || text == "" {
        return None;
      }
      var m := Store(sender, receiver, text, now);
      events := events + SocketSendEvents(m);
      return Some(m);
    }

    /** The `typing:start` (`start`) and `typing:stop` handlers: forwarded, with the
        sender id, to the receiver's room only, and dropped without a receiver. */
    method Typing(start: bool, sender: Id, receiver: Id)
      modifies this
      ensures receiver == "" ==> events == old(events)
      ensures receiver != "" ==>
        events == old(events) + [Event(receiver, if start then TypingStart else TypingStop, SenderPayload(sender))]
      ensures messages == old(messages) && nextId == old(nextId) && rooms == old(rooms)
    {
      if receiver != "" {
        events := events + [Event(receiver, if start then TypingStart else TypingStop, SenderPayload(sender))];
      }
    }

    /** The `message:seen` handler, sent by `sender` about the conversation with
        `receiver`: the bulk update of the rows from `receiver` to `sender`, row by row,
        then the notification to `receiver`'s room when the update changed a row. */
    method MessageSeen(sender: Id, receiver: Id, now: int) returns (count: nat)
      requires Valid()
      modifies this
      ensures Valid()
      ensures messages == MarkSeen(old(messages), sender, receiver, now)
      ensures count == UnseenCount(old(messages), sender, receiver)
      ensures events == old(events) + SeenEvents(count, sender, receiver)
      ensures nextId == old(nextId) && rooms == old(rooms)
    {
      var rows;
      rows, count := MarkSeenRows(messages, sender, receiver, now);
      MarkSeenKeepsIds(messages, sender, receiver, now);
      messages := rows;
      if count > 0 {
        events := events + [Event(receiver, SeenNotice, SeenPayload(sender))];
      }
    }
  }
}

=== FILE: text.dfy ===
/** String primitives the handlers rely on, with the JavaScript semantics they are
    called with: `String.prototype.trim`, `toLowerCase`, `split(",")`, `join` and
    `includes`. Strings are `seq<char>`. */
module Text {

  /** ECMAScript WhiteSpace and LineTerminator code points: exactly what `trim` strips. */
  predicate IsSpace(c: char) {
    || c == '\t' || c == '\n' || c == '\U{000B}' || c == '\U{000C}' || c == '\r'
    || c == ' ' || c == '\U{00A0}' || c == '\U{1680}'
    || ('\U{2000}' <= c <= '\U{200A}')
    || c == '\U{2028}' || c == '\U{2029}' || c == '\U{202F}' || c == '\U{205F}'
    || c == '\U{3000}' || c == '\U{FEFF}'
  }

  /** Lower-casing of one character; only the ASCII letters A-Z are folded. */
  function LowerChar(c: char): char {
    if 'A' <= c <= 'Z' then (c as int + 32) as char else c
  }

  function Lower(s: string): (r: string)
    ensures |r| == |s|
    ensures forall i :: 0 <= i < |s| ==> r[i] == LowerChar(s[i])
  {
    seq(|s|, i requires 0 <= i < |s| => LowerChar(s[i]))
  }

  /** No upper-case ASCII letter occurs in `s`. */
  predicate IsLower(s: string) {
    forall i :: 0 <= i < |s| ==> !('A' <= s[i] <= 'Z')
  }

  lemma LowerIsLower(s: string)
    ensures IsLower(Lower(s))
  {
  }

  lemma LowerOfLower(s: string)
    requires IsLower(s)
    ensures Lower(s) == s
  {
  }

  lemma LowerIdempotent(s: string)
    ensures Lower(Lower(s)) == Lower(s)
  {
    LowerIsLower(s);
    LowerOfLower(Lower(s));
  }

  lemma LowerKeepsSpace(c: char)
    ensures IsSpace(LowerChar(c)) <==> IsSpace(c)
  {
  }

  function TrimStart(s: string): (r: string)
    ensures |r| <= |s| && r == s[|s| - |r|..]
    ensures r == [] || !IsSpace(r[0])
    ensures forall i :: 0 <= i < |s| - |r| ==> IsSpace(s[i])
  {
    if s != [] && IsSpace(s[0]) then TrimStart(s[1..]) else s
  }

  function TrimEnd(s: string): (r: string)
    ensures |r| <= |s| && r == s[..|r|]
    ensures r == [] || !IsSpace(r[|r| - 1])
    ensures forall i :: |r| <= i < |s| ==> IsSpace(s[i])
  {
    if s != [] && IsSpace(s[|s| - 1]) then TrimEnd(s[..|s| - 1]) else s
  }

  /** `s.trim()`. */
  function Trim(s: string): string {
    TrimEnd(TrimStart(s))
  }

  /** Neither end of `s` is white space. */
  predicate Trimmed(s: string) {
    s == [] || (!IsSpace(s[0]) && !IsSpace(s[|s| - 1]))
  }

  lemma TrimIsTrimmed(s: string)
    ensures Trimmed(Trim(s))
  {
    var t := TrimStart(s);
    var r := TrimEnd(t);
    if r != [] {
      assert r[0] == t[0];
    }
  }

  lemma TrimmedIsFixed(s: string)
    requires Trimmed(s)
    ensures Trim(s) == s
  {
  }

  lemma TrimIdempotent(s: string)
    ensures Trim(Trim(s)) == Trim(s)
  {
    TrimIsTrimmed(s);
    TrimmedIsFixed(Trim(s));
  }

  /** A single leading blank, as left by a `", "` separator, disappears under `trim`. */
  lemma TrimAfterBlank(y: string)
    requires y != [] && Trimmed(y)
    ensures Trim(" " + y) == y
  {
    assert (" " + y)[1..] == y;
  }

  /** Lower-casing keeps a trimmed string trimmed. */
  lemma LowerKeepsTrimmed(s: string)
    requires Trimmed(s)
    ensures Trimmed(Lower(s))
  {
    if s != [] {
      LowerKeepsSpace(s[0]);
      LowerKeepsSpace(s[|s| - 1]);
    }
  }

  /** `s.split(",")`: the pieces between commas, at least one (`"".split(",")` is `[""]`). */
  function Split(s: string): (r: seq<string>)
    ensures |r| >= 1
  {
    if s == [] then [""]
    else
      var rest := Split(s[1..]);
      if s[0] == ',' then [""] + rest
      else [[s[0]] + rest[0]] + rest[1..]
  }

  lemma {:induction false} SplitPiecesHaveNoComma(s: string)
    ensures forall p :: p in Split(s) ==> ',' !in p
  {
    if s != [] {
      SplitPiecesHaveNoComma(s[1..]);
    }
  }

  /** Splitting `a + t` where `a` has no comma glues `a` to the first piece of `t`. */
  lemma {:induction false} SplitCommaFreePrefix(a: string, t: string)
    requires ',' !in a
    ensures Split(a + t) == [a + Split(t)[0]] + Split(t)[1..]
  {
    if a != [] {
      assert (a + t)[0] == a[0] && (a + t)[1..] == a[1..] + t;
      SplitCommaFreePrefix(a[1..], t);
      var rest := Split(a[1..] + t);
      assert rest[0] == a[1..] + Split(t)[0] && rest[1..] == Split(t)[1..];
      assert Split(a + t) == [[a[0]] + rest[0]] + rest[1..];
      assert [a[0]] + (a[1..] + Split(t)[0]) == a + Split(t)[0];
    } else {
      var r := Split(t);
      assert a + t == t && a + r[0] == r[0];
      assert r == [r[0]] + r[1..];
    }
  }

  /** `xs.join(sep)`; the empty array joins to `""`. */
  function Join(xs: seq<string>, sep: string): string {
    if |xs| == 0 then ""
    else if |xs| == 1 then xs[0]
    else xs[0] + sep + Join(xs[1..], sep)
  }

  /** What `Split` gives back for a `", "`-joined list: every piece after the first
      keeps the blank that followed its comma. */
  function Spaced(ys: seq<string>): (r: seq<string>)
    requires |ys| >= 1
    ensures |r| == |ys| && r[0] == ys[0]
    ensures forall i :: 1 <= i < |ys| ==> r[i] == " " + ys[i]
  {
    [ys[0]] + seq(|ys| - 1, i requires 0 <= i < |ys| - 1 => " " + ys[i + 1])
  }

  /** After a `", "` separator, the next piece starts with the blank. */
  lemma SplitAfterSeparator(t: string)
    ensures Split(", " + t) == ["", " " + Split(t)[0]] + Split(t)[1..]
  {
    assert (", " + t)[1..] == " " + t;
    SplitCommaFreePrefix(" ", t);
  }

  lemma SpacedCons(ys: seq<string>)
    requires |ys| > 1
    ensures Spaced(ys) == [ys[0], " " + ys[1]] + Spaced(ys[1..])[1..]
  {
  }

  lemma JoinCons(xs: seq<string>, sep: string)
    requires |xs| > 1
    ensures Join(xs, sep) == xs[0] + (sep + Join(xs[1..], sep))
  {
  }

  lemma {:induction false} SplitJoinCommaSpace(ys: seq<string>)
    requires |ys| >= 1
    requires forall y :: y in ys ==> ',' !in y
    ensures Split(Join(ys, ", ")) == Spaced(ys)
  {
    var a := ys[0];
    assert a in ys;
    if |ys| > 1 {
      var rest := ys[1..];
      assert forall y :: y in rest ==> y in ys;
      var t := Join(rest, ", ");
      SplitJoinCommaSpace(rest);
      var r := Split(t);
      var s1 := Split(", " + t);
      SplitAfterSeparator(t);
      JoinCons(ys, ", ");
      SplitCommaFreePrefix(a, ", " + t);
      assert a + s1[0] == a;
      SpacedCons(ys);
    } else {
      SplitCommaFreePrefix(a, "");
      assert a + "" == a;
      assert Join(ys, ", ") == a;
    }
  }

  /** `hay.includes(needle)`. */
  predicate Contains(hay: string, needle: string)
    decreases |hay|
  {
    || (|needle| <= |hay| && hay[..|needle|] == needle)
    || (hay != [] && Contains(hay[1..], needle))
  }

  /** A string contains each of its prefixes. */
  lemma ContainsPrefix(n: string, rest: string)
    ensures Contains(n + rest, n)
  {
    assert (n + rest)[..|n|] == n;
  }

  /** Whatever `b` contains, `a + b` contains too. */
  lemma {:induction false} ContainsAfter(a: string, b: string, n: string)
    requires Contains(b, n)
    ensures Contains(a + b, n)
    decreases |a|
  {
    if a != [] {
      assert (a + b)[1..] == a[1..] + b;
      ContainsAfter(a[1..], b, n);
    } else {
      assert a + b == b;
    }
  }

  /** A joined list contains each of its elements. */
  lemma {:induction false} JoinContains(xs: seq<string>, sep: string, i: nat)
    requires i < |xs|
    ensures Contains(Join(xs, sep), xs[i])
  {
    if |xs| == 1 {
      ContainsPrefix(xs[0], "");
      assert xs[0] + "" == xs[0];
    } else if i == 0 {
      ContainsPrefix(xs[0], sep + Join(xs[1..], sep));
      assert xs[0] + sep + Join(xs[1..], sep) == xs[0] + (sep + Join(xs[1..], sep));
    } else {
      JoinContains(xs[1..], sep, i - 1);
      ContainsAfter(xs[0] + sep, Join(xs[1..], sep), xs[i]);
    }
  }

  /** Lower-casing both sides keeps a containment. */
  lemma {:induction false} ContainsLower(hay: string, needle: string)
    requires Contains(hay, needle)
    ensures Contains(Lower(hay), Lower(needle))
    decreases |hay|
  {
    if |needle| <= |hay| && hay[..|needle|] == needle {
      assert Lower(hay)[..|needle|] == Lower(needle);
    } else {
      ContainsLower(hay[1..], needle);
      assert Lower(hay)[1..] == Lower(hay[1..]);
    }
  }
}
